=== FILE: README.md ===
# Flight-assistant chatbot core, modelled in Dafny

The system is a travel chatbot built as a small state graph. Every user turn
goes through these nodes:

- A **guardrail** blocks queries that mention sensitive numbers, and blank
  queries.
- A **primary router** asks a language model for a JSON route (`intent`,
  `response`).
- **Exactly one handler** then runs:
  - the **flight agent**: a tool-calling loop over `flight_filter`, whose
    final `FlightAnswer` JSON is rendered as a short bulleted listing;
  - the **FAQ agent**: the same loop over `rag_search`, whose `PolicyAnswer`
    is copied into the turn;
  - the **clarify agent**: one generation, which becomes a follow-up
    question.

Around these nodes sit:

- the chat-completions **tool loop**, with its round budget, tool dispatch,
  error observations and forced final call;
- a text-protocol **ReAct** agent (`Action:` / `Action Input:` / `Final:`);
- the tools' input parsing and the flight **filter**;
- the **retrieval store**: chunking, glob splitting, de-duplication, chunk
  ids and ranking of hits;
- the sliding-window **conversation memory**;
- `extract_first_json_block`, which every handler uses to read model
  output.

One module per source file:

| module | file |
|---|---|
| `Wrappers` | `Option` and `Result` |
| `Text` | Python `str` operations |
| `Json` | values, `json.dumps` of an error object, and a reference reader |
| `Base` | `agents/base.py` |
| `Guardrail` | `graph/guardrail_node.py` |
| `Memory` | the fallback `MemoryManager` in `streamlit_app.py` |
| `ToolLoop` | `graph/openai_client.py` |
| `React` | `agents/react_agent.py` |
| `Helpers` | `helpers.py` |
| `Tools` | `tools/tools.py` |
| `RagStore` | `rag_store.py` |
| `TurnStates` | the state dict shared by the nodes |
| `Primary`, `Clarify`, `Flight`, `Faq` | `agents/*.py` |
| `Graph` | `graph/langgraph_app.py` |

Everything outside the program is a parameter:

- The language model is a function from a call index and a request to a
  reply or an error (`Service`, `Generate`, `Llm`).
- `json.loads` is a `Decoder` (text to an optional value).
- Printing of non-string values is `Show`.
- Jinja rendering of a handler's template is `Render` (history and query to
  prompt).
- The flight dataset is a parameter, together with `float()` and
  `datetime.fromisoformat` (`Parsers`).
- `json.dumps` of a list is `Dumps`.
- Retrieval is `Search`; inside the store, it is the index's raw hits.

Python exceptions that escape a function become `Failure` with the
exception's class name, for example:

- `AttributeError` for `.get` on a non-dict;
- `TypeError` for joining non-strings;
- `ValidationError` from pydantic;
- `IndexError` from `split("\n", 1)[1]`.

Exceptions the source catches become the branch the `except` takes.

Behaviour worth knowing:

- The guardrail's reply is **not** added to the memory (`guard_node` only
  sets `blocked` and `response`). The UI adds it afterwards; the UI is
  left out.
- A service error inside the flight or FAQ tool loop is **not** caught by
  the handler. It escapes the node (`RunFlight`/`RunFaq` return `Failure`).
- A decoded FAQ answer is copied as it is. Its `response` may be any JSON
  value, which is why `TurnState.response` holds a `Json`.

## Model

| member | source | states |
|---|---|---|
| Text.Strip | agents/base.py:8 | `str.strip()`: the result is the input without its leading and trailing whitespace (Python's `isspace` set); it is empty exactly when the input is blank, and otherwise starts and ends with a non-space |
| Text.StripIdempotent | tools/tools.py:18 | stripping twice is stripping once |
| Text.StripAround | tools/tools.py:18 | whitespace on both sides of a trimmed text is exactly what strip removes |
| Text.Lower | graph/guardrail_node.py:6 | `lower()` keeps the length and lower-cases each ASCII letter in place |
| Text.LowerAppend | helpers.py:49-51 | lower-casing distributes over concatenation |
| Text.Find | agents/base.py:13 | `find`: -1 iff the character is absent, else the index of its first occurrence |
| Text.RFind | agents/base.py:13 | `rfind`: -1 iff the character is absent, else the index of its last occurrence |
| Text.AfterFirstNewline | agents/base.py:10 | `split('\n', 1)[1]`: absent (the `IndexError`) iff there is no newline, else everything after the first newline |
| Text.BeforeLastNewline | agents/base.py:12 | `rsplit('\n', 1)[0]`: the whole text without a newline, else everything before the last newline |
| Text.Split | rag_store.py:42 | `split(sep)` gives at least one part and no part contains the separator |
| Text.JoinSplit | rag_store.py:42 | joining the parts of a split with the separator gives back the text |
| Text.SplitJoin | streamlit_app.py:27-32 | splitting a join of separator-free parts gives back the parts |
| Text.NatToString | rag_store.py:112 | decimal printing: non-empty, digits only, no leading zero except for 0 |
| Text.NatToStringInjective | rag_store.py:112 | different numbers print differently |
| Json.QuoteRoundTrip | graph/openai_client.py:93 | the reference reader reads back any string that `json.dumps` quotes (escapes, `\uXXXX`, surrogate pairs) |
| Json.ErrorJsonRoundTrip | graph/openai_client.py:93-97 | the message of `json.dumps({"error": msg})` can be read back out of the text for every message |
| Json.Hex4RoundTrip | graph/openai_client.py:97 | a `\uXXXX` escape reads back as its code unit |
| Json.EscapeDecodes | graph/openai_client.py:97 | the escaped body of any string decodes back to that string |
| Base.DropFences | agents/base.py:9-12 | text without a leading fence is unchanged; for fenced text the split fails exactly when there is no newline; otherwise the result is the text after the first newline, with its last line dropped when that text ends with a fence |
| Base.DropFencesKeepsOut | agents/base.py:9-12 | dropping fences only removes characters |
| Base.FirstBlock | agents/base.py:13-14 | the text itself when no `{` comes before a `}`; otherwise a slice that starts with `{` and ends with `}`, with no `{` before it and no `}` after it |
| Base.ExtractFirstJsonBlock | agents/base.py:7-14 | `IndexError` when the fence split fails; otherwise succeeds iff the decoder accepts the candidate, returning what it decoded |
| Base.FenceWithoutNewlineFails | agents/base.py:9-10 | a fenced reply on one line always fails |
| Base.FencedObjectReachesDecoder | agents/base.py:7-14 | an object inside a fenced block with a language tag is handed to the decoder unchanged |
| Base.WholeObjectIsBlock | agents/base.py:13-14 | a text that is one `{...}` is its own block |
| Base.ProseAroundObjectIsCut | agents/base.py:13-14 | brace-free prose before and after an object is cut away |
| Guardrail.AnyMarker | graph/guardrail_node.py:6 | the scan over the marker list is true iff some marker occurs |
| Guardrail.Check | graph/guardrail_node.py:4-10 | blocks iff a marker occurs in the lower-cased query or the query is blank; the marker warning takes precedence over the request for detail; a passing query gets no reply |
| Guardrail.MarkerAnywhereBlocks | graph/guardrail_node.py:6-7 | a marker in any letter case, glued to any text, blocks with the warning |
| Guardrail.CleanQueryPasses | graph/guardrail_node.py:8-10 | without markers, a query is blocked iff it is blank |
| Guardrail.SsnExampleBlocked | graph/guardrail_node.py:6-7 | "my SSN is 123-45-6789" is blocked with the warning |
| Guardrail.MarkerAtBlocks | graph/guardrail_node.py:6-7 | a marker found at any index of the query blocks it |
| Memory.Retain | streamlit_app.py:21 | `history[-2*k:]` is a suffix of the history: `min(n, 2k)` entries for `k >= 1`, and everything for `k == 0` |
| Memory.Add | streamlit_app.py:19-25 | after an add, the history is a suffix of the old history plus the entry; for `k >= 1` it holds between 1 and `2k` entries and ends with the entry |
| Memory.AddUser | streamlit_app.py:19-21 | the newest entry is the user's message |
| Memory.AddAi | streamlit_app.py:23-25 | the newest entry is the assistant's message |
| Memory.WindowIsSuffix | streamlit_app.py:19-25 | after any sequence of adds, the history is the tail of everything ever added, of length `min(n, 2k)` for `k >= 1` |
| Memory.FreshWindowKeepsLatest | streamlit_app.py:14-25 | from an empty window, the history is the last `min(n, 2k)` messages added |
| Memory.Lines | streamlit_app.py:20-22 | one `User: `/`Assistant: ` line per entry |
| Memory.Formatted | streamlit_app.py:27-32 | the formatted history is empty iff the retained history is |
| Memory.FormattedLines | streamlit_app.py:27-32 | when no message spans lines, splitting the formatted history on newlines gives back one prefixed line per retained entry |
| TurnStates.Remember | agents/clarify.py:25-26 | `memory.add_ai` when a memory is present; nothing else changes |
| ToolLoop.FunctionEntries | graph/openai_client.py:24-26 | an entry is kept iff it is in the catalog with type `function` |
| ToolLoop.FunctionEntriesKept | graph/openai_client.py:24-26 | the kept entries are a subsequence of the catalog, in catalog order, each function entry as often as in the catalog and no other entry at all |
| ToolLoop.ChatToolsOf | graph/openai_client.py:22-35 | conversion succeeds iff every function entry has a name (`t["name"]` raises otherwise); it gives one chat tool per function entry, in order |
| ToolLoop.InitialTranscript | graph/openai_client.py:50-54 | one message per input, with role defaulting to `user` and content to `""` |
| ToolLoop.ArgumentsOf | graph/openai_client.py:89 | the call's arguments, or `{}` when they are missing or empty |
| ToolLoop.Observe | graph/openai_client.py:87-97 | an unknown tool or a raising tool yields an error object whose message names the tool (and the exception); a tool that returns gives its text; nothing propagates |
| ToolLoop.Observations | graph/openai_client.py:87-104 | one tool message per call, in call order, carrying the call's id and name |
| ToolLoop.RunToolLoop | graph/openai_client.py:37-122 | conversion failure raises before any call; otherwise the run follows the protocol: each call sends the prescribed request (tools with `auto`, and after the budget the finalizer with `none`), each transcript extends the previous by what the reply appends, and the loop stops at the first final text or after the forced call |
| ToolLoop.DriveFollows | graph/openai_client.py:56-122 | the recursive driver produces a run that follows the protocol |
| ToolLoop.Run | graph/openai_client.py:56-122 | between 1 and `max_rounds + 1` calls, the first on the initial transcript |
| ToolLoop.StopsAtFirstFinalText | graph/openai_client.py:106-108 | every call but the last continued; a run that stops within the budget stops on a final text or a service error, and returns what the last call gave |
| ToolLoop.ToolCallsTakePrecedence | graph/openai_client.py:70-105 | a reply with tool calls always continues, appending the announcement and then exactly one observation per call, in order |
| ToolLoop.FailingToolIsIsolated | graph/openai_client.py:95-97 | a raising tool becomes an error observation for its call and the loop goes on |
| ToolLoop.BlankReplyAsksForFinal | graph/openai_client.py:110-111 | a reply with neither calls nor text appends the finalizer and continues |
| ToolLoop.ExhaustionForcesOneFinalCall | graph/openai_client.py:113-122 | a run that uses the whole budget ends with exactly one forced call: the finalizer appended, tool choice `none`, its reply returned; no earlier call had `none` |
| ToolLoop.AlwaysCallingToolsReachesForcedCall | graph/openai_client.py:56-122 | a model that always calls tools is cut off after the budget by the forced call |
| ToolLoop.RoundTripScenario | graph/openai_client.py:56-108 | one tool call and then an answer: two calls, the answer returned, and the transcript holds the announcement and the observation |
| React.LastMatch | agents/react_agent.py:35-38 | `finditer(...)[-1]`: no match iff no candidate; otherwise the last one, with no match after its end |
| React.LineGroup | agents/react_agent.py:35 | the greedy `(.+)$` in multi-line mode: the rest of the line, at least one character, no newline |
| React.ActionCandidates | agents/react_agent.py:35 | a match can start only at a line start, and then only where `Action` follows optional whitespace |
| React.InputAfter | agents/react_agent.py:39-41 | the stripped group of the first anchored `Action Input:` after the match, or `""` when there is none |
| React.FallbackInput | agents/react_agent.py:42-46 | `None` iff no `Action Input:` matches anywhere in the block; otherwise the stripped group of the first match |
| React.ExtractAction | agents/react_agent.py:33-51 | `None` when no `Action:` line matches; the tool is the stripped group of the last match; only the fence split can raise |
| React.ActionFrom | agents/react_agent.py:38-51 | given the last match, the tool is its stripped group; the input is the anchored one, or the fallback when that is empty; no input at all gives `None`; the result fails iff the input opens a fence without a new line, and otherwise carries the unfenced input |
| React.NoInputNoAction | agents/react_agent.py:39-45 | a block with no `Action Input:` anywhere gives `None`, whatever its `Action:` lines say |
| React.FallbackActionInput | agents/react_agent.py:41-46 | when nothing is read after the last `Action:`, the first `Action Input:` of the whole block, even one before that line, supplies the input |
| React.FencedInputUnwrapped | agents/react_agent.py:47-51 | an input written as a fenced block (```` ```json ````, new line, object, new line, fence) is read as the object alone |
| React.FencedOneLineInputRaises | agents/react_agent.py:47-48 | an input that opens a fence and has no new line makes the extractor raise `IndexError` |
| React.ExtractActionFrom | agents/react_agent.py:38-51 | the last match and the input anchored after it give exactly that action |
| React.ActionTextParses | agents/react_agent.py:33-51 | `Action: t` / `Action Input: a` written by the format is read back as `(t, a)` |
| React.LastBraceSlice | agents/react_agent.py:61-63 | succeeds iff the candidate holds a `{` and a `}` at or after its last `{`, else the `ValueError`; the slice starts at the last `{`, ends at the last `}` and holds no other `{` |
| React.FinalSliceAsWritten | agents/react_agent.py:55-63 | no candidate raises `IndexError`; otherwise the slice exists iff a `}` follows the last `{`, and it holds a single `{` |
| React.ExtractFinalAsWritten | agents/react_agent.py:53-64 | as written: a final answer iff the last-brace slice exists and decodes, to what it decodes to; a slice that does not decode raises `JSONDecodeError` |
| React.FinalSlice | agents/react_agent.py:61-64 | corrected slice: succeeds iff the candidate holds a `{` before a `}`, giving the slice from the first `{` to the last `}` |
| React.ExtractFinal | agents/react_agent.py:53-64 | corrected extraction: a final answer is found iff the corrected slice exists and decodes; the result is what it decodes to |
| React.NoBraceNoFinal | agents/react_agent.py:62-63 | a text without `{` holds no final answer, by either extraction |
| React.FinalObjectReachesDecoder | agents/react_agent.py:55-64 | `Final: {...}` hands the whole object, nested braces included, to the decoder |
| React.FlatObjectFound | agents/react_agent.py:55-64 | as written, `Final: ` and a decodable object with no inner `{` is read as that object |
| React.FlatAnswerAgrees | agents/react_agent.py:61 | for answers without nested objects, the corrected and as-written slices agree |
| React.Registry | agents/react_agent.py:20 | the registry's names are exactly the tools' names |
| React.RegistryLastWins | agents/react_agent.py:20 | with duplicate names, the later tool wins |
| React.ToolObservation | agents/react_agent.py:102-108 | a tool's text, or the error object naming the tool and the exception |
| React.Classify | agents/react_agent.py:74-91 | the as-written final extraction is tried first and answers exactly when it succeeds; otherwise the action extractor decides between an action, no action, and an escaping exception |
| React.ClassifyCorrected | agents/react_agent.py:74-91 | the same reading with the corrected extraction |
| React.FlatStepClassifiesAlike | agents/react_agent.py:61 | on outputs whose candidate holds at most one `{` the as-written and corrected readings agree |
| React.Invoke | agents/react_agent.py:66-119 | the run, with the as-written reading, follows the protocol from the stripped base prompt: between 1 and `max_iters + 1` generations, each on the prescribed prompt |
| React.InvokeCorrected | agents/react_agent.py:66-119 | the same loop with the corrected reading follows the same protocol |
| React.DriveFollows | agents/react_agent.py:69-119 | the recursive driver produces a run that follows the protocol |
| React.AnswerEndsTheLoop | agents/react_agent.py:74-77 | an iteration whose output the as-written extraction reads as a final answer is the last, and its output is returned |
| React.CorrectedAnswerEndsTheLoop | agents/react_agent.py:74-77 | with the corrected reading, `Final: ` and any decodable object, nested or not, ends the loop and is returned |
| React.ActionGrowsTranscript | agents/react_agent.py:93-112 | an action appends its growth (the stripped output and its observation, or the not-available note) and the loop goes on |
| React.ToolObservationShape | agents/react_agent.py:96-112 | an unknown tool appends only the not-available note; a known one appends the stripped output and its observation |
| React.NoActionForcesCompletion | agents/react_agent.py:82-91 | an output that the as-written extraction does not read as an answer and that names no action breaks to the forced completion on the same transcript |
| React.UnreadableActionRaises | agents/react_agent.py:47-48 | an action the extractor cannot read raises out of `invoke`: that turn is the last and its error is the run's outcome |
| React.FencedOneLineActionRaises | agents/react_agent.py:47-48 | a generated `Action: t` whose input is a one-line fence ends the run with `IndexError` |
| React.ForcedTurnIsLast | agents/react_agent.py:114-119 | the forced completion is the last generation, on the transcript plus the completion prompt, and its text is returned |
| React.ExhaustedRunIsForced | agents/react_agent.py:114-119 | a run that uses every iteration ends with the forced completion |
| React.FreeTextRoundTrip | agents/react_agent.py:66-119 | an action and then a final answer: two generations; the answer is returned and the second prompt carries the observation |
| React.NestedFinalIsCut | agents/react_agent.py:61 | as written, the slice for `Final: {"response":{"text":"ok"}}` is `{"text":"ok"}}` and not the whole object |
| Helpers.FirstNonEmpty | helpers.py:42-46 | the value of the first listed key that is present and neither `None` nor `""`; `None` iff there is none |
| Helpers.ZeroIsNonEmpty | helpers.py:44 | a 0 price counts as present |
| Helpers.CiContains | helpers.py:49-51 | false for a falsy side; otherwise true iff both are strings and the lower-cased needle occurs in the lower-cased hay; non-strings raise |
| Helpers.CiContainsInside | helpers.py:49-51 | a needle written in any case inside any text is found |
| Helpers.PassPrice | helpers.py:54-62 | passes iff no cap is set, or a price is present and both parse and the price is at most the cap |
| Helpers.PassAlliance | helpers.py:65-72 | no alliance wanted passes; otherwise passes iff the record's alliance contains it, case-insensitively |
| Helpers.PassEnd | helpers.py:78-79 | an unset endpoint passes; a set one passes iff both are strings, the field is non-empty and its lower-cased text contains the lower-cased criterion; it raises iff the field is truthy and one of the two is not a string |
| Helpers.PassRoute | helpers.py:75-80 | passes iff both ends pass |
| Helpers.IndexOf | helpers.py:29 | the position of a name in the month list, -1 iff absent |
| Helpers.MonthNumber | helpers.py:26-32 | a month number iff the hint is a string whose first three stripped letters abbreviate a month, in any case; the number is that month's |
| Helpers.DateMonth | helpers.py:35-40 | the parser's month for a string value (after `or ""`, so a falsy value reads as `""`); `None` for any other truthy value, which raises inside the `try` |
| Helpers.PassMonth | helpers.py:83-89 | no or an unrecognised hint passes; otherwise the departure or return month must be the hinted month |
| Helpers.Keeps | helpers.py:103-123 | kept iff route, month, price and alliance pass and the `is True` flags are met; a raising route check makes it raise, and so does a raising alliance check once route, month and price pass; no other check raises |
| Helpers.FilterBy | helpers.py:102-124 | the filter succeeds iff no decision raises; the kept records are an in-order subsequence holding each record decided true as many times as it occurs, and no other |
| Helpers.FilterIdempotent | helpers.py:92-124 | filtering the matches again changes nothing |
| Helpers.FilterKeepsAll | helpers.py:102-124 | when every record passes, all are kept in order |
| Helpers.FilterFlights | helpers.py:92-124 | non-object criteria raise `AttributeError`; object criteria succeed iff no record's check raises, and keep, in order and with their multiplicity, exactly the records that pass every check |
| Helpers.EmptyCriteriaKeepAll | helpers.py:92-124 | empty criteria keep the whole dataset |
| Helpers.FlagsOnlyWhenTrue | helpers.py:113-121 | the two flags matter only when they are literally `True` |
| Tools.MaybeJson | tools/tools.py:14-24 | the decoded stripped text when it is braced, else `None` |
| Tools.PaddedObjectIsDecoded | tools/tools.py:18-22 | padding around an object is not passed to the decoder |
| Tools.RagQuery | tools/tools.py:33-36 | the `question` of a decoded object that has one; the raw input in every other case |
| Tools.QuestionShapesAgree | tools/tools.py:26-38 | `{"question": q}` and bare `q` run the same search |
| Tools.RagSearchTool | tools/tools.py:26-39 | a bare question is searched as given; an object's `question` is searched in its place |
| Tools.CriteriaFrom | tools/tools.py:52-67 | a wrapper with a string `criteria_json` has that string decoded; any other object is itself the criteria; non-object input is decoded raw, or is `{}` when it does not decode |
| Tools.CriteriaShapesAgree | tools/tools.py:49-62 | the criteria object and the wrapper holding its text filter identically |
| Tools.FlightFilterTool | tools/tools.py:42-70 | the tool returns the dumped matches iff the filter succeeds on the parsed criteria, and otherwise raises the filter's error |
| Tools.UnreadableInputMatchesAll | tools/tools.py:63-69 | input that does not decode returns the whole dataset |
| Tools.FlightDispatch | tools/tools.py:109-112 | the table holds exactly `flight_filter` |
| Tools.FaqDispatch | tools/tools.py:115-118 | the table holds exactly `rag_search` |
| Tools.FlightCatalogConverts | tools/tools.py:73-90 | the flight catalog converts to chat tools |
| Tools.FaqCatalogConverts | tools/tools.py:93-107 | the policy catalog converts to chat tools |
| Tools.CatalogsMatchDispatch | tools/tools.py:73-118 | each catalog advertises exactly one tool, and that tool's name is the only key of the matching dispatch table |
| RagStore.Step | rag_store.py:30 | the step is at least 1 |
| RagStore.StartsIsCeiling | rag_store.py:31-33 | the number of chunk starts is the ceiling of the length over the step |
| RagStore.ChunkText | rag_store.py:25-34 | nothing for a blank text; otherwise one chunk per start, i.e. `ceil(len / step)` chunks of the stripped text |
| RagStore.ChunkTextAt | rag_store.py:31-33 | chunk k is `text[k*step : k*step + size]` of the stripped text: non-empty, at most `size` long |
| RagStore.ChunkTextCovers | rag_store.py:25-34 | with overlap below size, every character of the stripped text lies in some chunk |
| RagStore.SplitGlobs | rag_store.py:40-42 | every pattern is non-empty, stripped and free of `;` and `,` |
| RagStore.SplitGlobsJoin | rag_store.py:40-42 | clean patterns joined with `;` or with `,` split back into the same list |
| RagStore.Dedup | rag_store.py:50-54 | exactly the same paths, each once, in first-seen order |
| RagStore.DedupKeepsFirstOccurrences | rag_store.py:50-54 | the loop keeps the first occurrence of each path (agrees with a reference definition) |
| RagStore.DedupDistinct | rag_store.py:50-54 | a list without repeats is unchanged |
| RagStore.CollectFiles | rag_store.py:44-54 | the first occurrences of every match of every pattern; no repeats |
| RagStore.CollectFilesFinds | rag_store.py:44-54 | a path is collected iff some pattern matches it |
| RagStore.PathOfChunkId | rag_store.py:112 | the path can be read back from a chunk id |
| RagStore.ChunkIdInjective | rag_store.py:112 | different (path, number) pairs give different ids |
| RagStore.FileDocs | rag_store.py:108-116 | one entry per chunk, numbered from 0, with title the basename and the stripped chunk |
| RagStore.DocsFromPaths | rag_store.py:103-116 | every entry comes from one of the paths and its id leads back to that path |
| RagStore.DocIdsDistinct | rag_store.py:103-116 | distinct paths give distinct ids |
| RagStore.BuildIndex | rag_store.py:103-135 | the ids list is the entries' ids, in order |
| RagStore.IndexIdsDistinct | rag_store.py:93-135 | the index built from the collected files has no repeated id |
| RagStore.RankSound | rag_store.py:152-165 | every result carries the rank of its hit and that hit's metadata |
| RagStore.RankAscending | rag_store.py:153 | ranks strictly increase |
| RagStore.RankComplete | rag_store.py:154-155 | every in-range hit appears in the results |
| RagStore.Search | rag_store.py:152-165 | ranks lie between 1 and the number of hits and strictly increase; the result at rank `k` is the `k`-th hit with its metadata, and every hit inside the metadata has a result |
| Primary.Classification | agents/primary.py:17-24 | the decoded object when the reply holds one; the fixed fallback otherwise |
| Primary.RouteOf | agents/primary.py:26-29 | validation succeeds iff both fields are strings (defaults `clarify_missing_fields` and `""`); confidence is always 0.7 |
| Primary.Routed | agents/primary.py:31-35 | intent, route and response set; a non-empty response is remembered when there is a memory |
| Primary.RunPrimary | agents/primary.py:11-38 | succeeds iff the route validates; the state is then routed by it |
| Primary.FailureRoutesToClarify | agents/primary.py:21-24 | any failure routes to `clarify_missing_fields` with the fixed reply, which is remembered |
| Primary.MissingFieldsDefault | agents/primary.py:27-28 | an empty object routes to the default intent with an empty reply that is not remembered |
| Primary.ModelRouteTaken | agents/primary.py:26-31 | string fields are taken as given |
| Primary.NonStringFieldRaises | agents/primary.py:26-29 | a non-string field raises out of the node |
| Clarify.Question | agents/clarify.py:17-21 | the stripped generation, or the fixed question when generation raises |
| Clarify.RunClarify | agents/clarify.py:9-28 | never raises; sets response and agent; remembers the question whenever there is a memory |
| Clarify.ClarifyFallbacks | agents/clarify.py:17-26 | a raising generation gives the fixed question; a blank one gives an empty question, which is still remembered |
| Flight.Objects | agents/flight.py:26-27 | every element is an object, read as a list of dicts |
| Flight.SegmentsOf | agents/flight.py:24-33 | an empty list, string or object reads as no segments; a list reads iff every element is an object; a non-empty string or object raises `AttributeError`; `None`, numbers and booleans raise `TypeError` at the loop |
| Flight.TruthyTexts | agents/flight.py:42 | the join succeeds iff every truthy layover is a string, and its parts are the texts of the truthy layovers in order |
| Flight.TextsKept | agents/flight.py:42 | non-empty string layovers are all kept, in order |
| Flight.AllTruthyKept | agents/flight.py:42 | the `if x` filter keeps a list of truthy values whole |
| Flight.FalsyDropped | agents/flight.py:42 | falsy layovers leave nothing |
| Flight.Hops | agents/flight.py:25-29 | one `from→to` hop per segment |
| Flight.StopsAreAllButLast | agents/flight.py:36-41 | the branches for two and for more segments agree: the landings of every segment but the last |
| Flight.FormatItinerary | agents/flight.py:20-44 | a non-object raises; otherwise succeeds iff the segments and layovers read, giving airline, price, refundability, dates and route separated by em dashes, followed by the layovers |
| Flight.EmptyItineraryDefaults | agents/flight.py:21-44 | `{}` renders with every default |
| Flight.DirectFlight | agents/flight.py:20-44 | one segment: a single hop and no layovers |
| Flight.OneStopLayover | agents/flight.py:36-42 | two segments: the first segment's landing is the only layover |
| Flight.HeaderBits | agents/flight.py:48-59 | route and month always; the alliance unless it is `any`; the cap when truthy; every bit truthy |
| Flight.Header | agents/flight.py:60 | the join succeeds iff every kept bit is a string, and the header is the texts of the truthy bits in order, joined by the bar separator |
| Flight.DefaultHeader | agents/flight.py:48-60 | no criteria give the route `? → ?` and `requested period`, joined by a bar |
| Flight.AnyAllianceHidden | agents/flight.py:52-57 | alliance `any` is the same as no alliance |
| Flight.Shown | agents/flight.py:67 | a list is cut to `max_lines`; a string can only be sliced to nothing; other values raise |
| Flight.Bullets | agents/flight.py:67-68 | succeeds iff every shown itinerary formats; one bullet per itinerary |
| Flight.SummaryLines | agents/flight.py:70-73 | a non-blank summary adds a blank line and the stripped summary; a non-string one raises |
| Flight.FormatResponse | agents/flight.py:47-74 | without itineraries, the one "no match" sentence for the header; with a list of them, the intro counting `min(len(itins), max_lines)` first, and `1 + min(len(itins), max_lines)` lines plus two for a non-blank summary; errors propagate |
| Flight.ResponseLines | agents/flight.py:47-60 | a non-object answer or criteria raise `AttributeError`; a failing header fails the response; otherwise the listing under that header |
| Flight.Criteria | agents/flight.py:48 | the criteria when present and truthy, else `{}` |
| Flight.Listing | agents/flight.py:62-74 | missing or empty itineraries give the one "no match" line; otherwise the intro counting the shown itineraries, one bullet per shown itinerary in order, then the summary lines; fails iff the slice, a bullet or the summary fails |
| Flight.NoItinerariesOneLine | agents/flight.py:62-64 | without itineraries, one "No matching itineraries" line |
| Flight.ListingShape | agents/flight.py:66-74 | the intro with `min(n, max_lines)`, then one bullet per shown itinerary, then the summary lines |
| Flight.ListedItineraries | agents/flight.py:48-60 | without criteria, the listing uses the default header |
| Flight.FlightLoop | agents/flight.py:89-103 | at most five calls (four rounds and the forced one), the first on the system prompt and the rendered user prompt |
| Flight.Answered | agents/flight.py:114-120 | response, results and agent set; the response is remembered whenever there is a memory |
| Flight.Conclude | agents/flight.py:105-122 | an unreadable reply gives the apology; a formatting error escapes; otherwise the rendered listing is answered |
| Flight.RunFlight | agents/flight.py:77-122 | a service error escapes; otherwise the final text (or `""`) is concluded |
| Flight.FlightFrame | agents/flight.py:110-120 | only response, results, agent and memory change |
| Faq.FaqLoop | agents/faq.py:31-45 | at most four calls, the first on the opening messages |
| Faq.Conclude | agents/faq.py:47-62 | an unreadable reply gives the apology; a non-object answer raises; otherwise `response` (or `""`) is copied, the answer is kept, and it is remembered |
| Faq.RunFaq | agents/faq.py:19-62 | a service error escapes; otherwise the final text is concluded |
| Faq.MissingAnswerIsEmpty | agents/faq.py:56-60 | a missing `response` gives `""`, which is still remembered |
| Faq.FaqFrame | agents/faq.py:52-60 | the agent is set, and query, block flag, intent, route and results are untouched |
| Graph.GuardNode | graph/langgraph_app.py:12-20 | blocked iff a marker or a blank query; the gate's reply on a block; the memory is never touched |
| Graph.IntentRouter | graph/langgraph_app.py:41-46 | flight iff the lower-cased intent is `schedule_search`; FAQ iff it is one of the two policy intents; clarification for everything else |
| Graph.RouterIgnoresCase | graph/langgraph_app.py:42 | intents that lower-case equally route equally |
| Graph.FallbackIntentClarifies | graph/langgraph_app.py:45 | the router's fallback intent leads to clarification |
| Graph.RunTurn | graph/langgraph_app.py:48-62 | the gate always runs first; the turn stops there iff it is blocked; otherwise the router runs second, and at most three nodes run |
| Graph.BlockedTurnEndsAtGate | graph/langgraph_app.py:38-39 | a blocked turn visits only the gate and keeps the memory |
| Graph.PassedTurnRunsOneHandler | graph/langgraph_app.py:56-62 | a passed turn runs the router and then exactly the handler it picks, unless the router raised |
| Graph.UnreadableRouteClarifies | graph/langgraph_app.py:41-58 | an unreadable router reply ends in clarification |

## Left out

- Text.Lower: folds only ASCII letters; Python's `lower()` also folds other
  scripts. There is no Unicode case mapping to model it on.
- React.ExtractAction and React.FinalAt read `Action`, `Input` and `Final`
  with ASCII folding only. Python's case-insensitive `re` also lets `ı`
  (U+0131) and `İ` (U+0130) stand for `i` in these keywords.
- Reading files, writing the vector index, `index_exists`, and the early
  return of `build_index` when an index is on disk: file I/O. The store's
  documents come from a `read` function parameter.
- Sentence embeddings and the FAISS search: floating-point numerics.
  `RagStore.Search` takes the index's hits `(position, score)` as given, and
  scores are carried as `real`.
- `openai_generate`, the chat-completions client, temperatures and token
  limits: calls into an external service. They are the `Service`,
  `Generate` and `Llm` parameters.
- Jinja rendering and `model_json_schema`: the `Render` parameter stands
  for both.
- `load_flights`: file I/O. The dataset is a parameter of `flight_filter`.
- `float()` and `datetime.fromisoformat`: the `Parsers` parameter.
- Helpers.ToFloat: an integer price converts to a real exactly. Python's
  `float(i)` rounds to binary64 and raises `OverflowError` above about
  1.8e308; floating point is not modelled.
- `json.loads`, and `json.dumps` of lists: the `Decoder` and `Dumps`
  parameters. `json.dumps` of the error object is modelled, with a
  reference reader.
- ToolLoop.Observe: the error observation carries the exception's class
  name (`AttributeError`) where Python prints the exception's message
  (`'str' object has no attribute 'get'`); exceptions are modelled by
  class only.
- React.ToolObservation: the same; the error object names the exception's
  class where Python prints its message.
- Printing of floats, dicts and lists inside f-strings: the `Show`
  parameter. Strings, `None`, booleans and integers are printed as Python
  does.
- `memory/memory.py` (LangChain's window memory): a foreign library. The
  model follows the in-file fallback `MemoryManager` that the app uses when
  that import fails.
- The Streamlit UI, `main.py`, the `scripts/` helpers and logging:
  presentation and side effects only.
- Flight.Shown: `max_lines` is a `nat`; the negative slice bounds Python
  would accept are not modelled, since every caller passes 3.
- ToolLoop.Run: its contract states only the call count and the first
  transcript. The whole protocol is stated on `ToolLoop.RunToolLoop` and by
  the lemmas about `Run`.
- Memory.Formatted: its own contract states only emptiness. The
  line-by-line content is `Memory.FormattedLines`.
- `Graph.Wired` (the program's own nodes over one environment) carries no
  contract. The graph lemmas are stated over any nodes, and the handlers'
  contracts give each node's behaviour.

## Findings

| source | as written | input that shows it | evidently intended | confidence | as-written member | corrected member |
|---|---|---|---|---|---|---|
| agents/react_agent.py:61 | the final object is sliced from the LAST `{` to the last `}` | `Final: {"response":{"text":"ok"}}` gives `{"text":"ok"}}`, which does not decode, so a nested answer is never recognised | slice from the first `{` to the last `}`, as `extract_first_json_block` does | not executed | React.NestedFinalIsCut | React.CorrectedAnswerEndsTheLoop |

`React.Invoke` runs the loop as written: its steps are read with the
last-brace slice (`React.ExtractFinalAsWritten`), and the lemmas about it
(`AnswerEndsTheLoop`, `NoActionForcesCompletion` and the others) hold for
that reading. `React.InvokeCorrected` is the same loop reading steps with
the first-brace slice (`React.ExtractFinal`); there, `Final: ` and a nested
object that decodes ends the loop. On steps whose candidate holds at most
one `{` the two readings agree (`React.FlatStepClassifiesAlike`).

=== FILE: base.dfy ===
/** `extract_first_json_block`: pull the JSON object out of a model reply,
    tolerating a surrounding code fence and prose around the object. */
module Base {
  import opened Wrappers
  import opened Text
  import opened Json

  const Fence: string := "```"

  /** A leading fence line dropped, and then a trailing fence line too;
      `None` where `split("\n", 1)[1]` raises because a fenced text has
      no newline. */
  function DropFences(s: string): (r: Option<string>)
    ensures !StartsWith(s, Fence) ==> r == Some(s)
    ensures StartsWith(s, Fence) ==> (r.None? <==> '\n' !in s)
    ensures StartsWith(s, Fence) && '\n' in s && !EndsWith(s[Find(s, '\n') + 1..], Fence) ==>
      r == Some(s[Find(s, '\n') + 1..])
    ensures StartsWith(s, Fence) && '\n' in s && EndsWith(s[Find(s, '\n') + 1..], Fence) ==>
      var t := s[Find(s, '\n') + 1..];
      && r.Some? && |r.value| <= |t| && r.value == t[..|r.value|]
      && ('\n' !in t ==> r.value == t)
      && ('\n' in t ==> |r.value| < |t| && t[|r.value|] == '\n' && '\n' !in t[|r.value| + 1..])
  {
    if StartsWith(s, Fence) then
      match AfterFirstNewline(s)
      case None => None
      case Some(t) =>
        assert t == s[Find(s, '\n') + 1..];
        Some(if EndsWith(t, Fence) then BeforeLastNewline(t) else t)
    else Some(s)
  }

  /** Dropping fences only removes characters. */
  lemma DropFencesKeepsOut(s: string, ch: char)
    requires ch !in s
    ensures DropFences(s).Some? ==> ch !in DropFences(s).value
  {
    if StartsWith(s, Fence) && '\n' in s {
      var t := AfterFirstNewline(s).value;
      var j :| 0 <= j < |s| && s[j] == '\n' && t == s[j + 1..];
      assert ch !in t by {
        forall i | 0 <= i < |t| ensures t[i] != ch {
          assert t[i] == s[j + 1 + i];
        }
      }
      if EndsWith(t, Fence) {
        var u := BeforeLastNewline(t);
        assert ch !in u by {
          forall i | 0 <= i < |u| ensures u[i] != ch {
            assert u[i] == t[i];
          }
        }
      }
    }
  }

  /** The stripped text with its fences dropped. */
  function Unfence(text: string): Option<string> {
    DropFences(Strip(text))
  }

  /** Some `{` comes before some `}`. */
  predicate HasBracePair(s: string) {
    exists i, j | 0 <= i < j < |s| :: s[i] == '{' && s[j] == '}'
  }

  /** The slice from the first `{` to the last `}` when a `{` precedes the
      last `}`; otherwise the whole text. */
  function FirstBlock(s: string): (r: string)
    ensures !HasBracePair(s) ==> r == s
    ensures HasBracePair(s) ==> |r| >= 2 && r[0] == '{' && r[|r| - 1] == '}'
    ensures HasBracePair(s) ==>
      exists a | 0 <= a <= |s| - |r| :: OccursAt(s, r, a) && '{' !in s[..a] && '}' !in s[a + |r|..]
  {
    var a, b := Find(s, '{'), RFind(s, '}');
    if a != -1 && b != -1 && b > a then
      assert OccursAt(s, s[a..b + 1], a);
      s[a..b + 1]
    else
      s
  }

  /** The text handed to `json.loads`. */
  function Candidate(text: string): Option<string> {
    match Unfence(text)
    case None => None
    case Some(s) => Some(FirstBlock(s))
  }

  /** `extract_first_json_block`: the decoded value, or the exception a
      caller must catch (`IndexError` from the fence split, or a decode
      error; the value need not be an object). */
  function ExtractFirstJsonBlock(text: string, decode: Decoder): (r: Result<Json, string>)
    ensures Candidate(text).None? ==> r == Failure("IndexError")
    ensures Candidate(text).Some? ==>
      (r.Success? <==> decode(Candidate(text).value).Some?)
      && (r.Success? ==> Some(r.value) == decode(Candidate(text).value))
  {
    match Candidate(text)
    case None => Failure("IndexError")
    case Some(c) =>
      match decode(c)
      case Some(v) => Success(v)
      case None => Failure("JSONDecodeError")
  }

  /** A fenced reply with no newline cannot be parsed: the split raises. */
  lemma FenceWithoutNewlineFails(text: string, decode: Decoder)
    requires StartsWith(Strip(text), Fence)
    requires '\n' !in text
    ensures ExtractFirstJsonBlock(text, decode).Failure?
  {
    var s := Strip(text);
    assert forall i :: 0 <= i < |s| ==> s[i] == text[StripStart(text) + i];
  }

  /** A ```` ```lang ```` fenced object reaches the decoder unchanged. */
  lemma FencedObjectReachesDecoder(lang: string, obj: string)
    requires '\n' !in lang
    requires |obj| >= 1 && obj[0] == '{' && obj[|obj| - 1] == '}'
    ensures Candidate(Fence + lang + "\n" + obj + "\n" + Fence) == Some(obj)
  {
    var text := Fence + lang + "\n" + obj + "\n" + Fence;
    StripTrimmed(text);
    FencedObjectUnfenced(lang, obj);
    WholeObjectIsBlock(obj);
  }

  lemma FencedObjectUnfenced(lang: string, obj: string)
    requires '\n' !in lang
    requires |obj| >= 1
    ensures DropFences(Fence + lang + "\n" + obj + "\n" + Fence) == Some(obj)
  {
    var text := Fence + lang + "\n" + obj + "\n" + Fence;
    assert StartsWith(text, Fence);
    var t := obj + "\n" + Fence;
    AfterFenceLine(lang, t);
    assert text == Fence + lang + "\n" + t;
    DropTrailingFence(obj);
  }

  lemma AfterFenceLine(lang: string, t: string)
    requires '\n' !in lang
    ensures AfterFirstNewline(Fence + lang + "\n" + t) == Some(t)
    ensures (Fence + lang + "\n" + t)[Find(Fence + lang + "\n" + t, '\n') + 1..] == t
  {
    var text := Fence + lang + "\n" + t;
    var n := |Fence| + |lang|;
    assert text[..n] == Fence + lang;
    FindIs(text, '\n', n);
    assert text[n + 1..] == t;
  }

  lemma DropTrailingFence(obj: string)
    ensures EndsWith(obj + "\n" + Fence, Fence)
    ensures BeforeLastNewline(obj + "\n" + Fence) == obj
  {
    var t := obj + "\n" + Fence;
    assert t[|obj| + 1..] == Fence;
    RFindIs(t, '\n', |obj|);
    assert t[..|obj|] == obj;
  }

  lemma WholeObjectIsBlock(obj: string)
    requires |obj| >= 1 && obj[0] == '{' && obj[|obj| - 1] == '}'
    ensures FirstBlock(obj) == obj
  {
    FindIs(obj, '{', 0);
    RFindIs(obj, '}', |obj| - 1);
    assert obj[0..|obj|] == obj;
  }

  /** Prose around an object is cut away when it holds no braces itself. */
  lemma ProseAroundObjectIsCut(pre: string, obj: string, post: string)
    requires '{' !in pre && '}' !in post
    requires |obj| >= 1 && obj[0] == '{' && obj[|obj| - 1] == '}'
    ensures FirstBlock(pre + obj + post) == obj
  {
    var s := pre + obj + post;
    assert s[..|pre|] == pre;
    FindIs(s, '{', |pre|);
    var e := |pre| + |obj| - 1;
    assert s[e + 1..] == post;
    RFindIs(s, '}', e);
    assert s[|pre|..e + 1] == obj;
  }
}

=== FILE: clarify.dfy ===
/** The clarification handler (`run_clarify`): one generation, stripped,
    with a fixed question when the generation raises. */
module Clarify {
  import opened Wrappers
  import opened Text
  import opened Json
  import opened ToolLoop
  import opened Memory
  import opened TurnStates

  const FallbackQuestion: string := "Could you share any missing details so I can proceed?"
  const ClarifyAgent: string := "clarify_agent"

  /** The question asked: the stripped generation, or the fixed one. */
  function Question(out: Generation): (q: string)
    ensures out.Generated? ==> q == Strip(out.text) && Strip(q) == q
    ensures out.GenerationFailed? ==> q == FallbackQuestion
  {
    match out
    case Generated(t) =>
      StripIdempotent(t);
      Strip(t)
    case GenerationFailed(_) =>
      FallbackQuestion
  }

  /** `run_clarify`: never raises; response and agent are set on both
      paths and the question is remembered whenever there is a memory. */
  function RunClarify(s: TurnState, llm: Generate, render: Render): (r: TurnState)
    ensures var q := Question(llm(render(History(s), s.query)));
      r.response == Some(JStr(q)) && r.agent == Some(ClarifyAgent)
      && r.memory == (if s.memory.Some? then Some(AddAi(s.memory.value, q)) else None)
      && r == s.(response := r.response, agent := r.agent, memory := r.memory)
  {
    var q := Question(llm(render(History(s), s.query)));
    Remember(s.(response := Some(JStr(q)), agent := Some(ClarifyAgent)), q)
  }

  /** A raising generation gives the fixed question; a blank generation
      gives an empty response, which is still remembered. */
  lemma ClarifyFallbacks(s: TurnState, llm: Generate, render: Render)
    ensures llm(render(History(s), s.query)).GenerationFailed? ==>
      RunClarify(s, llm, render).response == Some(JStr(FallbackQuestion))
    ensures llm(render(History(s), s.query)).Generated? && IsBlank(llm(render(History(s), s.query)).text) ==>
      RunClarify(s, llm, render).response == Some(JStr(""))
      && (s.memory.Some? ==> RunClarify(s, llm, render).memory == Some(AddAi(s.memory.value, "")))
  {
  }
}

=== FILE: faq.dfy ===
/** The policy handler (`run_faq`): the tool loop over `rag_search`, the
    first JSON block of the final reply read as the answer, and the
    answer's `response` field copied into the turn as it is. */
module Faq {
  import opened Wrappers
  import opened Json
  import opened Base
  import opened ToolLoop
  import opened Memory
  import opened Tools
  import opened TurnStates

  const SystemPrompt: string :=
    "You are the FAQ/RAG AGENT.\n"
    + "- You MUST call the tool `rag_search` (exact name) before answering.\n"
    + "- Use ONLY retrieved chunks to compose the answer.\n"
    + "- If the tool returns no results or fails, respond with a JSON whose 'response' says you cannot answer due to missing evidence.\n"
    + "- When done, RETURN ONLY a valid PolicyAnswer JSON (no backticks, no extra text).\n"

  const Finalizer: string := "Return ONLY the final PolicyAnswer JSON now. No backticks, no commentary."
  const Apology: string := "I couldn't produce the final policy JSON answer. Please try rephrasing."
  const FaqAgent: string := "faq_agent"
  const MaxRounds: nat := 3

  /** The two messages the loop starts from. */
  function Opening(s: TurnState, render: Render): seq<InMessage> {
    [InMessage(map["role" := "system", "content" := SystemPrompt]),
     InMessage(map["role" := "user", "content" := render(History(s), s.query)])]
  }

  /** The handler's tool loop: at most three rounds, then the forced final
      call, so at most four calls, the first on the opening messages. */
  function FaqLoop(s: TurnState, service: Service, render: Render,
                   search: Search, decode: Decoder, show: Show): (run: LoopRun)
    ensures 1 <= |run.log| <= MaxRounds + 1
    ensures run.log[0].transcript == InitialTranscript(Opening(s, render))
  {
    FaqCatalogConverts();
    Run(Opening(s, render), FaqCatalog, FaqDispatch(search, decode, show), service, MaxRounds, Finalizer)
  }

  /** What the handler makes of the final text: the apology when it holds
      no readable block; otherwise the answer must be an object (`.get`
      raises on anything else), its `response` (or `""`) becomes the
      turn's response as it is, the whole answer is kept, and the response
      is remembered whenever there is a memory. */
  function Conclude(s: TurnState, text: string, decode: Decoder, show: Show): (r: Result<TurnState, string>)
    ensures var block := ExtractFirstJsonBlock(text, decode);
      (block.Failure? ==> r == Success(s.(response := Some(JStr(Apology)), agent := Some(FaqAgent))))
      && (block.Success? && !block.value.JObj? ==> r == Failure("AttributeError"))
      && (block.Success? && block.value.JObj? ==>
            var answer := GetOr(block.value.fields, "response", JStr(""));
            r.Success? && r.value.response == Some(answer) && r.value.rag == Some(block.value)
            && r.value.memory == (if s.memory.Some? then Some(AddAi(s.memory.value, Fmt(answer, show))) else None))
    ensures r.Success? ==> r.value.agent == Some(FaqAgent)
    ensures r.Success? ==>
      r.value == s.(response := r.value.response, rag := r.value.rag, agent := r.value.agent, memory := r.value.memory)
  {
    match ExtractFirstJsonBlock(text, decode)
    case Failure(_) => Success(s.(response := Some(JStr(Apology)), agent := Some(FaqAgent)))
    case Success(JObj(m)) =>
      var answer := GetOr(m, "response", JStr(""));
      Success(Remember(s.(response := Some(answer), rag := Some(JObj(m)), agent := Some(FaqAgent)), Fmt(answer, show)))
    case Success(_) => Failure("AttributeError")
  }

  /** `run_faq`: a service error raised inside the loop propagates;
      otherwise the final reply's text (empty when it has none) is
      concluded. */
  function RunFaq(s: TurnState, service: Service, render: Render, search: Search,
                  decode: Decoder, show: Show): (r: Result<TurnState, string>)
    ensures var run := FaqLoop(s, service, render, search, decode, show);
      (run.outcome.Failure? ==> r == Failure(run.outcome.error))
      && (run.outcome.Success? ==> r == Conclude(s, run.outcome.value.content.GetOr(""), decode, show))
  {
    var run := FaqLoop(s, service, render, search, decode, show);
    match run.outcome
    case Failure(e) => Failure(e)
    case Success(reply) => Conclude(s, ContentText(reply), decode, show)
  }

  /** An answer without a `response` field gives an empty response, which
      is still remembered (unlike the router, which skips empty ones). */
  lemma MissingAnswerIsEmpty(s: TurnState, text: string, decode: Decoder, show: Show, m: map<string, Json>)
    requires ExtractFirstJsonBlock(text, decode) == Success(JObj(m)) && "response" !in m
    requires s.memory.Some?
    ensures var r := Conclude(s, text, decode, show);
      r.Success? && r.value.response == Some(JStr("")) && r.value.memory == Some(AddAi(s.memory.value, ""))
  {
    var answer := GetOr(m, "response", JStr(""));
    assert answer == JStr("");
    assert Fmt(answer, show) == "";
  }

  /** The handler writes only the response, the policy answer, the agent
      and the memory. */
  lemma FaqFrame(s: TurnState, service: Service, render: Render, search: Search, decode: Decoder, show: Show)
    requires RunFaq(s, service, render, search, decode, show).Success?
    ensures var r := RunFaq(s, service, render, search, decode, show).value;
      r.agent == Some(FaqAgent)
      && r.query == s.query && r.blocked == s.blocked && r.intent == s.intent
      && r.primary == s.primary && r.results == s.results
  {
  }
}

=== FILE: flight.dfy ===
/** The flight handler (`run_flight`): the tool loop over `flight_filter`,
    the first JSON block of the final reply read as the answer, and the
    answer rendered as a header line, one bullet per itinerary (at most
    three) and the model's summary. Values are decoded JSON, so every
    `.get`, iteration and `join` on a value of the wrong type is modelled
    as the exception Python raises there. */
module Flight {
  import opened Wrappers
  import opened Text
  import opened Json
  import opened Base
  import opened ToolLoop
  import opened Memory
  import opened Helpers
  import opened Tools
  import opened TurnStates

  const Arrow: string := "\U{2192}"
  const Dash: string := " \U{2014} "

  // ---- values read out of decoded JSON ----

  /** The objects of a list, or `None` when some element is not one. */
  function Objects(xs: seq<Json>): (r: Option<seq<map<string, Json>>>)
    ensures r.Some? <==> forall i :: 0 <= i < |xs| ==> xs[i].JObj?
    ensures r.Some? ==> |r.value| == |xs| && forall i :: 0 <= i < |xs| ==> JObj(r.value[i]) == xs[i]
    decreases |xs|
  {
    if xs == [] then Some([])
    else if !xs[0].JObj? then None
    else match Objects(xs[1..])
      case None => None
      case Some(rest) => Some([xs[0].fields] + rest)
  }

  /** A list of objects is read back as those objects. */
  lemma ObjectsKept(xs: seq<Json>, ms: seq<map<string, Json>>)
    requires |xs| == |ms| && forall i :: 0 <= i < |xs| ==> xs[i] == JObj(ms[i])
    ensures Objects(xs) == Some(ms)
  {
    var r := Objects(xs);
    assert forall i :: 0 <= i < |xs| ==> xs[i].JObj?;
    forall i | 0 <= i < |ms|
      ensures r.value[i] == ms[i]
    {
      assert JObj(r.value[i]) == xs[i];
    }
    assert r.value == ms;
  }

  /** `for s in segs: s.get(...)`: a list of objects is walked; an empty
      string or object has nothing to walk; a non-empty string or object
      yields an element without `.get`; anything else is not iterable. */
  function SegmentsOf(v: Json): (r: Result<seq<map<string, Json>>, string>)
    ensures (v.JArr? || v.JStr? || v.JObj?) && !Truthy(v) ==> r == Success([])
    ensures v.JArr? ==> (r.Success? <==> forall i :: 0 <= i < |v.items| ==> v.items[i].JObj?)
    ensures r.Success? ==> (v.JArr? && |r.value| == |v.items|) || r.value == []
    ensures r.Failure? ==> r.error == (if v.JArr? || v.JStr? || v.JObj? then "AttributeError" else "TypeError")
  {
    match v
    case JArr(xs) =>
      (match Objects(xs)
       case Some(ms) => Success(ms)
       case None => Failure("AttributeError"))
    case JStr(s) => if s == "" then Success([]) else Failure("AttributeError")
    case JObj(m) => if m == map[] then Success([]) else Failure("AttributeError")
    case _ => Failure("TypeError")
  }

  /** `[x for x in xs if x]`. */
  function Truthies(xs: seq<Json>): (r: seq<Json>)
    ensures forall x :: x in r <==> x in xs && Truthy(x)
    decreases |xs|
  {
    if xs == [] then []
    else (if Truthy(xs[0]) then [xs[0]] else []) + Truthies(xs[1..])
  }

  /** The texts of a list of strings, in order. */
  function TextsOf(xs: seq<Json>): (r: seq<string>)
    ensures |r| == |xs|
    ensures forall i :: 0 <= i < |xs| && xs[i].JStr? ==> r[i] == xs[i].s
  {
    seq(|xs|, i requires 0 <= i < |xs| => if xs[i].JStr? then xs[i].s else "")
  }

  /** `", ".join([x for x in xs if x])`: the truthy values, each of which
      must be a string. */
  function TruthyTexts(xs: seq<Json>): (r: Result<seq<string>, string>)
    ensures r.Success? <==> forall i :: 0 <= i < |xs| && Truthy(xs[i]) ==> xs[i].JStr?
    ensures r.Failure? ==> r.error == "TypeError"
    ensures r.Success? ==> |r.value| <= |xs| && forall k :: 0 <= k < |r.value| ==> r.value[k] != ""
    ensures r.Success? ==> r.value == TextsOf(Truthies(xs))
    decreases |xs|
  {
    if xs == [] then Success([])
    else match TruthyTexts(xs[1..])
      case Failure(e) => Failure(e)
      case Success(rest) =>
        if !Truthy(xs[0]) then Success(rest)
        else if xs[0].JStr? then
          TextsOfCons(xs[0], Truthies(xs[1..]));
          Success([xs[0].s] + rest)
        else Failure("TypeError")
  }

  lemma TextsOfCons(x: Json, xs: seq<Json>)
    requires x.JStr?
    ensures TextsOf([x] + xs) == [x.s] + TextsOf(xs)
  {
    var a, b := TextsOf([x] + xs), [x.s] + TextsOf(xs);
    forall i | 0 <= i < |a| ensures a[i] == b[i] {
      if i > 0 {
        assert ([x] + xs)[i] == xs[i - 1];
      }
    }
  }

  /** Non-empty strings are all kept, in order. */
  lemma TextsKept(xs: seq<Json>)
    requires forall i :: 0 <= i < |xs| ==> xs[i].JStr? && xs[i].s != ""
    ensures TruthyTexts(xs).Success?
    ensures TruthyTexts(xs).value == seq(|xs|, i requires 0 <= i < |xs| => xs[i].s)
  {
    assert forall i :: 0 <= i < |xs| ==> Truthy(xs[i]);
    AllTruthyKept(xs);
    var texts := TextsOf(xs);
    assert forall i :: 0 <= i < |xs| ==> texts[i] == xs[i].s;
  }

  /** A list of truthy values loses nothing to the `if x` filter. */
  lemma {:induction false} AllTruthyKept(xs: seq<Json>)
    requires forall i :: 0 <= i < |xs| ==> Truthy(xs[i])
    ensures Truthies(xs) == xs
    decreases |xs|
  {
    if xs != [] {
      AllTruthyKept(xs[1..]);
      assert [xs[0]] + xs[1..] == xs;
    }
  }

  /** Falsy values are all dropped. */
  lemma {:induction false} FalsyDropped(xs: seq<Json>)
    requires forall i :: 0 <= i < |xs| ==> !Truthy(xs[i])
    ensures TruthyTexts(xs) == Success([])
    decreases |xs|
  {
    if xs != [] {
      FalsyDropped(xs[1..]);
    }
  }

  /** `s.get(a) or s.get(b) or "?"`. */
  function Endpoint(seg: map<string, Json>, a: string, b: string): Json {
    Or(Get(seg, a), Or(Get(seg, b), JStr("?")))
  }

  /** `f"{frm}→{to}"` for one segment. */
  function Hop(seg: map<string, Json>, show: Show): string {
    Fmt(Endpoint(seg, "from", "origin"), show) + Arrow + Fmt(Endpoint(seg, "to", "destination"), show)
  }

  function Hops(segs: seq<map<string, Json>>, show: Show): (r: seq<string>)
    ensures |r| == |segs| && forall i :: 0 <= i < |segs| ==> r[i] == Hop(segs[i], show)
  {
    seq(|segs|, i requires 0 <= i < |segs| => Hop(segs[i], show))
  }

  /** The route: the hops joined by `" | "`, or a placeholder. */
  function RouteText(segs: seq<map<string, Json>>, show: Show): string {
    if segs == [] then "(route unavailable)" else Join(Hops(segs, show), " | ")
  }

  /** Departure of the first segment and arrival of the last, or the
      placeholder when both are falsy. */
  function DateText(segs: seq<map<string, Json>>, show: Show): string {
    var dep := if segs == [] then JNull else Get(segs[0], "departure_date");
    var arr := if segs == [] then JNull else Get(segs[|segs| - 1], "arrival_date");
    if Truthy(dep) || Truthy(arr) then Fmt(dep, show) + " " + Arrow + " " + Fmt(arr, show)
    else "dates N/A"
  }

  /** `s.get("to") or s.get("destination")`: where a segment lands. */
  function Landing(seg: map<string, Json>): Json {
    Or(Get(seg, "to"), Get(seg, "destination"))
  }

  /** The layover list as the source builds it: every segment but the last
      for three or more segments, the first one's landing for exactly two,
      none otherwise. */
  function Stops(segs: seq<map<string, Json>>): seq<Json> {
    if |segs| > 2 then seq(|segs| - 1, i requires 0 <= i < |segs| - 1 => Landing(segs[i]))
    else if |segs| == 2 then [Landing(segs[0])]
    else []
  }

  /** The two branches agree with one rule: the landings of every segment
      but the last. */
  lemma StopsAreAllButLast(segs: seq<map<string, Json>>)
    ensures |Stops(segs)| == (if segs == [] then 0 else |segs| - 1)
    ensures forall i :: 0 <= i < |segs| - 1 ==> Stops(segs)[i] == Landing(segs[i])
  {
  }

  function LayoverText(stops: seq<Json>, names: seq<string>): string {
    if stops == [] then "" else " | Layovers: " + Join(names, ", ")
  }

  function RefundText(refundable: Json): string {
    if Truthy(refundable) then "Refundable" else "Non-refundable"
  }

  /** Airline, price, refundability and dates, each followed by a dash. */
  function Lead(m: map<string, Json>, segs: seq<map<string, Json>>, show: Show): string {
    Fmt(GetOr(m, "airline", JStr("Unknown Airline")), show)
    + Dash + "$" + Fmt(GetOr(m, "price_usd", JInt(0)), show)
    + Dash + RefundText(GetOr(m, "refundable", JBool(false)))
    + Dash + DateText(segs, show) + Dash
  }

  /** The line for one itinerary whose segments and layovers were read. */
  function ItineraryLine(m: map<string, Json>, segs: seq<map<string, Json>>, names: seq<string>, show: Show): string {
    Lead(m, segs, show) + RouteText(segs, show) + LayoverText(Stops(segs), names)
  }

  /** `_format_itinerary`: fails where `.get`, iteration or the layover
      join fails; otherwise the five fields separated by em dashes. */
  function FormatItinerary(it: Json, show: Show): (r: Result<string, string>)
    ensures !it.JObj? ==> r == Failure("AttributeError")
    ensures it.JObj? ==>
      var segs := SegmentsOf(GetOr(it.fields, "segments", JArr([])));
      (r.Success? <==> segs.Success? && TruthyTexts(Stops(segs.value)).Success?)
      && (segs.Failure? ==> r == Failure(segs.error))
      && (r.Success? ==> r.value == ItineraryLine(it.fields, segs.value, TruthyTexts(Stops(segs.value)).value, show))
  {
    match it
    case JObj(m) =>
      (match SegmentsOf(GetOr(m, "segments", JArr([])))
       case Failure(e) => Failure(e)
       case Success(segs) =>
         match TruthyTexts(Stops(segs))
         case Failure(e) => Failure(e)
         case Success(names) => Success(ItineraryLine(m, segs, names, show)))
    case _ => Failure("AttributeError")
  }

  /** An empty itinerary prints every default. */
  lemma EmptyItineraryDefaults(show: Show)
    ensures FormatItinerary(JObj(map[]), show)
      == Success("Unknown Airline" + Dash + "$0" + Dash + "Non-refundable" + Dash + "dates N/A" + Dash + "(route unavailable)")
  {
    var none: map<string, Json> := map[];
    assert SegmentsOf(GetOr(none, "segments", JArr([]))) == Success([]);
    assert TruthyTexts(Stops([])) == Success([]);
    assert Fmt(GetOr(none, "price_usd", JInt(0)), show) == "0";
    var lead := Lead(none, [], show);
    assert lead == "Unknown Airline" + Dash + "$0" + Dash + "Non-refundable" + Dash + "dates N/A" + Dash;
    assert RouteText([], show) == "(route unavailable)";
    assert LayoverText(Stops([]), []) == "";
    var line := ItineraryLine(none, [], [], show);
    assert line == lead + "(route unavailable)" + "";
    assert line == lead + "(route unavailable)";
    assert FormatItinerary(JObj(none), show) == Success(line);
  }

  /** A direct flight: its one hop as the route, its own dates, and no
      layover part. */
  lemma DirectFlight(m: map<string, Json>, seg: map<string, Json>, show: Show)
    requires "segments" in m && m["segments"] == JArr([JObj(seg)])
    ensures FormatItinerary(JObj(m), show) == Success(Lead(m, [seg], show) + Hop(seg, show))
    ensures Truthy(Get(seg, "departure_date")) ==>
      DateText([seg], show) == Fmt(Get(seg, "departure_date"), show) + " " + Arrow + " " + Fmt(Get(seg, "arrival_date"), show)
  {
    ObjectsKept([JObj(seg)], [seg]);
    assert Stops([seg]) == [];
    assert TruthyTexts([]) == Success([]);
    assert RouteText([seg], show) == Hop(seg, show);
    var lead := Lead(m, [seg], show);
    assert ItineraryLine(m, [seg], [], show) == lead + Hop(seg, show) + "";
    assert lead + Hop(seg, show) + "" == lead + Hop(seg, show);
  }

  /** A one-stop flight lists the first segment's landing as the layover. */
  lemma OneStopLayover(m: map<string, Json>, a: map<string, Json>, b: map<string, Json>, city: string, show: Show)
    requires "segments" in m && m["segments"] == JArr([JObj(a), JObj(b)])
    requires "to" in a && a["to"] == JStr(city) && city != ""
    ensures FormatItinerary(JObj(m), show)
      == Success(Lead(m, [a, b], show) + RouteText([a, b], show) + (" | Layovers: " + city))
  {
    var segs := [a, b];
    ObjectsKept([JObj(a), JObj(b)], segs);
    assert Stops(segs) == [JStr(city)];
    TextsKept([JStr(city)]);
    assert seq(1, i requires 0 <= i < 1 => [JStr(city)][i].s) == [city];
    assert TruthyTexts([JStr(city)]) == Success([city]);
    assert LayoverText(Stops(segs), [city]) == " | Layovers: " + city;
  }

  // ---- the response ----

  const EmptyObject': Json := JObj(map[])

  /** The header pieces before the `if b` filter: route, month, the
      alliance unless it is `"any"`, and the price cap when set. */
  function HeaderBits(crit: map<string, Json>, show: Show): (bits: seq<Json>)
    ensures 2 <= |bits| <= 4
    ensures var alliance := Or(Get(crit, "alliance"), JStr("any"));
      |bits| == 2 + (if alliance != JStr("any") then 1 else 0) + (if Truthy(Get(crit, "max_price_usd")) then 1 else 0)
    ensures bits[0] == JStr(Fmt(Or(Get(crit, "origin"), JStr("?")), show) + " " + Arrow + " "
                            + Fmt(Or(Get(crit, "destination"), JStr("?")), show))
    ensures bits[1] == Or(Get(crit, "month_hint"), JStr("requested period"))
    ensures Truthy(Get(crit, "max_price_usd")) ==>
      bits[|bits| - 1] == JStr("\U{2264} $" + Fmt(Get(crit, "max_price_usd"), show))
    ensures forall i :: 0 <= i < |bits| ==> Truthy(bits[i])
  {
    var origin := Or(Get(crit, "origin"), JStr("?"));
    var dest := Or(Get(crit, "destination"), JStr("?"));
    var month := Or(Get(crit, "month_hint"), JStr("requested period"));
    var alliance := Or(Get(crit, "alliance"), JStr("any"));
    var cap := Get(crit, "max_price_usd");
    [JStr(Fmt(origin, show) + " " + Arrow + " " + Fmt(dest, show)), month]
    + (if alliance != JStr("any") then [alliance] else [])
    + (if Truthy(cap) then [JStr("\U{2264} $" + Fmt(cap, show))] else [])
  }

  /** `" | ".join([b for b in header_bits if b])`: a month or alliance that
      is not a string makes the join raise. */
  function Header(crit: map<string, Json>, show: Show): (r: Result<string, string>)
    ensures r.Success? <==> forall i :: 0 <= i < |HeaderBits(crit, show)| ==> HeaderBits(crit, show)[i].JStr?
    ensures r.Failure? ==> r.error == "TypeError"
    ensures r.Success? ==> r.value == Join(TextsOf(Truthies(HeaderBits(crit, show))), " | ")
  {
    match TruthyTexts(HeaderBits(crit, show))
    case Failure(e) => Failure(e)
    case Success(names) => Success(Join(names, " | "))
  }

  /** With nothing set the header is the placeholder route and period. */
  lemma DefaultHeader(show: Show)
    ensures Header(map[], show) == Success("? " + Arrow + " ?" + " | " + "requested period")
  {
    var none: map<string, Json> := map[];
    assert Get(none, "origin") == JNull && Get(none, "destination") == JNull;
    assert Or(Get(none, "alliance"), JStr("any")) == JStr("any");
    assert !Truthy(Get(none, "max_price_usd"));
    var bits := HeaderBits(none, show);
    assert bits[0] == JStr("? " + Arrow + " ?");
    assert bits == [JStr("? " + Arrow + " ?"), JStr("requested period")];
    TextsKept(bits);
    var names := ["? " + Arrow + " ?", "requested period"];
    assert TruthyTexts(bits).value == names;
    assert names[1..] == ["requested period"];
    assert Join(names, " | ") == "? " + Arrow + " ?" + " | " + "requested period";
  }

  /** An alliance of `"any"` and a missing alliance give the same header. */
  lemma AnyAllianceHidden(crit: map<string, Json>, show: Show)
    ensures HeaderBits(crit["alliance" := JStr("any")], show) == HeaderBits(crit - {"alliance"}, show)
  {
  }

  /** The itineraries a response lists: the first `maxLines` of a list.
      Slicing a string works but its first character has no `.get`;
      other values fail at `len` or at the slice with `TypeError`, as
      before Python 3.12 (from 3.12 on, slicing a dict raises `KeyError`). */
  function Shown(itins: Json, maxLines: nat): (r: Result<seq<Json>, string>)
    ensures itins.JArr? ==> r == Success(itins.items[..if |itins.items| < maxLines then |itins.items| else maxLines])
    ensures itins.JStr? ==> r == if maxLines == 0 then Success([]) else Failure("AttributeError")
    ensures !itins.JArr? && !itins.JStr? ==> r == Failure("TypeError")
  {
    match itins
    case JArr(xs) => Success(xs[..if |xs| < maxLines then |xs| else maxLines])
    case JStr(_) => if maxLines == 0 then Success([]) else Failure("AttributeError")
    case _ => Failure("TypeError")
  }

  /** The error of the first itinerary that fails to format. */
  function FirstFailure(xs: seq<Json>, show: Show): string
    decreases |xs|
  {
    if xs == [] then ""
    else match FormatItinerary(xs[0], show)
      case Failure(e) => e
      case Success(_) => FirstFailure(xs[1..], show)
  }

  /** One bullet per itinerary; the first failing itinerary's error. */
  function Bullets(xs: seq<Json>, show: Show): (r: Result<seq<string>, string>)
    ensures r.Success? <==> forall i :: 0 <= i < |xs| ==> FormatItinerary(xs[i], show).Success?
    ensures r.Success? ==> |r.value| == |xs|
    ensures r.Success? ==> forall i :: 0 <= i < |xs| ==> r.value[i] == "\U{2022} " + FormatItinerary(xs[i], show).value
  {
    if forall i :: 0 <= i < |xs| ==> FormatItinerary(xs[i], show).Success? then
      Success(seq(|xs|, i requires 0 <= i < |xs| => "\U{2022} " + FormatItinerary(xs[i], show).value))
    else Failure(FirstFailure(xs, show))
  }

  /** The summary lines: a blank line and the stripped summary when it is
      a non-blank string; a truthy non-string has no `.strip()`. */
  function SummaryLines(summary: Json): (r: Result<seq<string>, string>)
    ensures !Truthy(summary) ==> r == Success([])
    ensures summary.JStr? ==> r == Success(if IsBlank(summary.s) then [] else ["", Strip(summary.s)])
    ensures Truthy(summary) && !summary.JStr? ==> r == Failure("AttributeError")
  {
    if !Truthy(summary) then Success([])
    else match summary
      case JStr(t) => Success(if Strip(t) == "" then [] else ["", Strip(t)])
      case _ => Failure("AttributeError")
  }

  function NoMatch(header: string): string {
    "No matching itineraries found for " + header + "."
  }

  function Intro(count: nat, header: string): string {
    "Here are your best " + NatToString(count) + " option(s) for " + header + ":"
  }

  /** The lines after the header was built: the "no match" line when the
      itineraries are missing or empty; otherwise the intro counting the
      shown ones, a bullet for each in order, and the summary lines. */
  function Listing(d: map<string, Json>, header: string, maxLines: nat, show: Show): (r: Result<seq<string>, string>)
    ensures !Truthy(Get(d, "itineraries")) ==> r == Success([NoMatch(header)])
    ensures Truthy(Get(d, "itineraries")) ==>
      (r.Success? <==> && Shown(Get(d, "itineraries"), maxLines).Success?
                       && Bullets(Shown(Get(d, "itineraries"), maxLines).value, show).Success?
                       && SummaryLines(Get(d, "summary")).Success?)
    ensures Truthy(Get(d, "itineraries")) && r.Success? ==>
      var xs := Shown(Get(d, "itineraries"), maxLines).value;
      var tail := SummaryLines(Get(d, "summary")).value;
      && |r.value| == 1 + |xs| + |tail|
      && r.value[0] == Intro(|xs|, header)
      && (forall i :: 0 <= i < |xs| ==> r.value[1 + i] == "\U{2022} " + FormatItinerary(xs[i], show).value)
      && r.value[1 + |xs|..] == tail
  {
    var itins := Or(Get(d, "itineraries"), JArr([]));
    if !Truthy(itins) then Success([NoMatch(header)])
    else
      match Shown(itins, maxLines)
      case Failure(e) => Failure(e)
      case Success(xs) =>
        match Bullets(xs, show)
        case Failure(e) => Failure(e)
        case Success(bullets) =>
          match SummaryLines(Get(d, "summary"))
          case Failure(e) => Failure(e)
          case Success(tail) =>
            LaidOut(Intro(|xs|, header), bullets, tail);
            Success([Intro(|xs|, header)] + bullets + tail)
  }

  /** `data.get("criteria", {}) or {}`. */
  function Criteria(d: map<string, Json>): (r: Json)
    ensures "criteria" in d && Truthy(d["criteria"]) ==> r == d["criteria"]
    ensures !("criteria" in d && Truthy(d["criteria"])) ==> r == EmptyObject'
  {
    Or(GetOr(d, "criteria", EmptyObject'), EmptyObject')
  }

  /** The lines of `_format_response`, before they are joined by newlines:
      a non-object answer or criteria have no `.get`; a failing header
      fails the response; otherwise the listing under that header. */
  function ResponseLines(data: Json, maxLines: nat, show: Show): (r: Result<seq<string>, string>)
    ensures !data.JObj? ==> r == Failure("AttributeError")
    ensures data.JObj? && !Criteria(data.fields).JObj? ==> r == Failure("AttributeError")
    ensures data.JObj? && Criteria(data.fields).JObj? ==>
      match Header(Criteria(data.fields).fields, show)
      case Failure(e) => r == Failure(e)
      case Success(h) => r == Listing(data.fields, h, maxLines, show)
    ensures r.Success? ==> |r.value| >= 1
  {
    match data
    case JObj(d) =>
      var crit := Criteria(d);
      if !crit.JObj? then Failure("AttributeError")
      else
        (match Header(crit.fields, show)
         case Failure(e) => Failure(e)
         case Success(header) => Listing(d, header, maxLines, show))
    case _ => Failure("AttributeError")
  }

  /** `_format_response`: the "no match" sentence when there are no
      itineraries; otherwise the intro counting `min(len(itins), max_lines)`,
      one bullet per shown itinerary, and two more lines for a non-blank
      summary, joined by newlines. */
  function FormatResponse(data: Json, maxLines: nat, show: Show): (r: Result<string, string>)
    ensures r.Success? <==> ResponseLines(data, maxLines, show).Success?
    ensures r.Failure? ==> r.error == ResponseLines(data, maxLines, show).error
    ensures r.Success? ==> r.value == Join(ResponseLines(data, maxLines, show).value, "\n")
    ensures data.JObj? && Criteria(data.fields).JObj? && Header(Criteria(data.fields).fields, show).Success?
            && !Truthy(Get(data.fields, "itineraries")) ==>
      r == Success(NoMatch(Header(Criteria(data.fields).fields, show).value))
    ensures r.Success? && data.JObj? && Get(data.fields, "itineraries").JArr? && Truthy(Get(data.fields, "itineraries")) ==>
      var lines := ResponseLines(data, maxLines, show).value;
      var items := Get(data.fields, "itineraries").items;
      var n := if |items| < maxLines then |items| else maxLines;
      var summary := Get(data.fields, "summary");
      && Criteria(data.fields).JObj? && Header(Criteria(data.fields).fields, show).Success?
      && lines[0] == Intro(n, Header(Criteria(data.fields).fields, show).value)
      && |lines| == 1 + n + (if summary.JStr? && !IsBlank(summary.s) then 2 else 0)
  {
    match ResponseLines(data, maxLines, show)
    case Failure(e) => Failure(e)
    case Success(lines) => Success(Join(lines, "\n"))
  }

  /** Without itineraries the response is the single "no match" line. */
  lemma NoItinerariesOneLine(d: map<string, Json>, maxLines: nat, show: Show)
    requires "criteria" !in d && "itineraries" !in d
    ensures FormatResponse(JObj(d), maxLines, show) == Success(NoMatch("? " + Arrow + " ?" + " | " + "requested period"))
  {
    DefaultHeader(show);
  }

  /** With a list of itineraries that all format: the intro counting the
      shown ones, one bullet for each of the first `maxLines` in order,
      then the summary lines. */
  lemma ListingShape(d: map<string, Json>, header: string, maxLines: nat, show: Show, xs: seq<Json>)
    requires "itineraries" in d && d["itineraries"] == JArr(xs) && xs != []
    requires forall i :: 0 <= i < |xs| ==> FormatItinerary(xs[i], show).Success?
    requires SummaryLines(Get(d, "summary")).Success?
    ensures var n := if |xs| < maxLines then |xs| else maxLines;
      var lines := Listing(d, header, maxLines, show);
      var tail := SummaryLines(Get(d, "summary")).value;
      lines.Success? && |lines.value| == 1 + n + |tail|
      && lines.value[0] == Intro(n, header)
      && (forall i :: 0 <= i < n ==> lines.value[1 + i] == "\U{2022} " + FormatItinerary(xs[i], show).value)
      && lines.value[1 + n..] == tail
  {
    var n := if |xs| < maxLines then |xs| else maxLines;
    var shown := xs[..n];
    assert Truthy(JArr(xs));
    assert Shown(JArr(xs), maxLines) == Success(shown);
    assert forall i :: 0 <= i < n ==> shown[i] == xs[i];
    var bullets := Bullets(shown, show).value;
    var tail := SummaryLines(Get(d, "summary")).value;
    assert Listing(d, header, maxLines, show) == Success([Intro(n, header)] + bullets + tail);
    LaidOut(Intro(n, header), bullets, tail);
  }

  lemma LaidOut(first: string, middle: seq<string>, last: seq<string>)
    ensures var all := [first] + middle + last;
      |all| == 1 + |middle| + |last| && all[0] == first
      && (forall i :: 0 <= i < |middle| ==> all[1 + i] == middle[i])
      && all[1 + |middle|..] == last
  {
  }

  /** The criteria `_format_response` reads the header from. */
  lemma ListedItineraries(d: map<string, Json>, maxLines: nat, show: Show)
    requires "criteria" !in d
    ensures ResponseLines(JObj(d), maxLines, show) == Listing(d, "? " + Arrow + " ?" + " | " + "requested period", maxLines, show)
  {
    DefaultHeader(show);
  }

  // ---- the handler ----

  const SystemPrompt: string :=
    "You are the FLIGHT AGENT.\n"
    + "- If you need data, you MUST call the tool 'flight_filter' (exact name).\n"
    + "- Construct a FlightCriteria JSON string when calling the tool.\n"
    + "- When done, RETURN ONLY a valid FlightAnswer JSON (no backticks, no extra text).\n"
    + "- In the FlightAnswer.summary, include a concise natural-language recap mentioning airline(s), layover(s), price, dates.\n"

  const Finalizer: string := "Return ONLY the final FlightAnswer JSON now. No backticks, no commentary."
  const Apology: string := "I couldn't produce the final flight JSON answer. Please try rephrasing."
  const FlightAgent: string := "flight_agent"
  const MaxRounds: nat := 4
  const MaxLines: nat := 3

  /** The two messages the loop starts from. */
  function Opening(s: TurnState, render: Render): seq<InMessage> {
    [InMessage(map["role" := "system", "content" := SystemPrompt]),
     InMessage(map["role" := "user", "content" := render(History(s), s.query)])]
  }

  /** The handler's tool loop: at most four rounds, then the forced final
      call, so at most five calls, the first on the opening messages. */
  function FlightLoop(s: TurnState, service: Service, render: Render,
                      flights: seq<Item>, p: Parsers, decode: Decoder, dumps: Dumps): (run: LoopRun)
    ensures 1 <= |run.log| <= MaxRounds + 1
    ensures run.log[0].transcript == InitialTranscript(Opening(s, render))
  {
    FlightCatalogConverts();
    Run(Opening(s, render), FlightCatalog, FlightDispatch(flights, p, decode, dumps), service, MaxRounds, Finalizer)
  }

  /** The state after an answer was read: the rendered response, the raw
      answer as the results, the agent, and the memory update. */
  function Answered(s: TurnState, data: Json, pretty: string): (r: TurnState)
    ensures r.response == Some(JStr(pretty)) && r.results == Some(data) && r.agent == Some(FlightAgent)
    ensures r.memory == if s.memory.Some? then Some(AddAi(s.memory.value, pretty)) else None
    ensures r == s.(response := r.response, results := r.results, agent := r.agent, memory := r.memory)
  {
    Remember(s.(response := Some(JStr(pretty)), results := Some(data), agent := Some(FlightAgent)), pretty)
  }

  /** What the handler makes of the final text: the apology when it holds
      no readable block (results and memory untouched), else the rendered
      answer, whose errors propagate. */
  function Conclude(s: TurnState, text: string, decode: Decoder, show: Show): (r: Result<TurnState, string>)
    ensures var block := ExtractFirstJsonBlock(text, decode);
      (block.Failure? ==> r == Success(s.(response := Some(JStr(Apology)), agent := Some(FlightAgent))))
      && (block.Success? ==>
            var pretty := FormatResponse(block.value, MaxLines, show);
            (pretty.Failure? ==> r == Failure(pretty.error))
            && (pretty.Success? ==> r == Success(Answered(s, block.value, pretty.value))))
    ensures r.Success? ==> r.value.agent == Some(FlightAgent)
    ensures r.Success? ==>
      r.value == s.(response := r.value.response, results := r.value.results, agent := r.value.agent, memory := r.value.memory)
  {
    match ExtractFirstJsonBlock(text, decode)
    case Failure(_) => Success(s.(response := Some(JStr(Apology)), agent := Some(FlightAgent)))
    case Success(data) =>
      match FormatResponse(data, MaxLines, show)
      case Failure(e) => Failure(e)
      case Success(pretty) => Success(Answered(s, data, pretty))
  }

  /** `run_flight`: a service error raised inside the loop propagates;
      otherwise the final reply's text (empty when it has none) is
      concluded. */
  function RunFlight(s: TurnState, service: Service, render: Render, flights: seq<Item>, p: Parsers,
                     decode: Decoder, dumps: Dumps, show: Show): (r: Result<TurnState, string>)
    ensures var run := FlightLoop(s, service, render, flights, p, decode, dumps);
      (run.outcome.Failure? ==> r == Failure(run.outcome.error))
      && (run.outcome.Success? ==> r == Conclude(s, run.outcome.value.content.GetOr(""), decode, show))
  {
    var run := FlightLoop(s, service, render, flights, p, decode, dumps);
    match run.outcome
    case Failure(e) => Failure(e)
    case Success(reply) => Conclude(s, ContentText(reply), decode, show)
  }

  /** The handler writes only the response, the results, the agent and
      the memory; the query, the gate's flag, the route and the policy
      answer are passed on as they came. */
  lemma FlightFrame(s: TurnState, service: Service, render: Render, flights: seq<Item>, p: Parsers,
                    decode: Decoder, dumps: Dumps, show: Show)
    requires RunFlight(s, service, render, flights, p, decode, dumps, show).Success?
    ensures var r := RunFlight(s, service, render, flights, p, decode, dumps, show).value;
      r.agent == Some(FlightAgent)
      && r == s.(response := r.response, results := r.results, agent := r.agent, memory := r.memory)
  {
  }
}

=== FILE: graph.dfy ===
/** One turn through the conversation graph (`build_graph`): the gate
    first; a blocked turn ends there, any other goes to the router and then
    to exactly one handler chosen from the routed intent. */
module Graph {
  import opened Wrappers
  import opened Text
  import opened Json
  import opened ToolLoop
  import opened Helpers
  import opened Tools
  import opened TurnStates
  import opened Guardrail
  import Base
  import Primary
  import Flight
  import Faq
  import Clarify

  /** `guard_node`: on a block the flag is set and the gate's reply
      becomes the response; otherwise only the flag is cleared. The memory
      is never touched here. */
  function GuardNode(s: TurnState): (r: TurnState)
    ensures r.blocked <==> HasSensitiveMarker(QueryText(s.query)) || IsBlank(QueryText(s.query))
    ensures r.blocked ==> r.response == Some(JStr(Check(s.query).response.value))
    ensures !r.blocked ==> r.response == s.response
    ensures r == s.(blocked := r.blocked, response := r.response)
  {
    var v := Check(s.query);
    if v.shouldBlock then s.(blocked := true, response := Some(JStr(v.response.value)))
    else s.(blocked := false)
  }

  /** The handlers the router can choose. */
  datatype Handler = FlightHandler | FaqHandler | ClarifyHandler

  const ScheduleSearch: string := "schedule_search"
  const PolicyVisa: string := "policy_visa"
  const PolicyRefund: string := "policy_refund"

  /** `intent_router`: the lower-cased intent (empty when missing) picks
      the handler; every intent that is not a search or a policy question,
      `clarify_missing_fields` and `off_topic` included, goes to
      clarification. */
  function IntentRouter(intent: Option<string>): (h: Handler)
    ensures h == FlightHandler <==> Lower(intent.GetOr("")) == ScheduleSearch
    ensures h == FaqHandler <==> Lower(intent.GetOr("")) in {PolicyVisa, PolicyRefund}
    ensures h == ClarifyHandler <==> Lower(intent.GetOr("")) !in {ScheduleSearch, PolicyVisa, PolicyRefund}
  {
    var i := Lower(intent.GetOr(""));
    if i == ScheduleSearch then FlightHandler
    else if i == PolicyVisa || i == PolicyRefund then FaqHandler
    else ClarifyHandler
  }

  /** Intents are matched whatever their letter case. */
  lemma RouterIgnoresCase(a: string, b: string)
    requires Lower(a) == Lower(b)
    ensures IntentRouter(Some(a)) == IntentRouter(Some(b))
  {
  }

  /** The router's fallback intent leads to clarification. */
  lemma FallbackIntentClarifies()
    ensures IntentRouter(Some(Primary.FallbackIntent)) == ClarifyHandler
  {
    assert |Lower(Primary.FallbackIntent)| == 22;
  }

  /** The nodes a turn can pass through. */
  datatype Node = GuardStep | PrimaryStep | FlightStep | FaqStep | ClarifyStep

  function StepOf(h: Handler): Node {
    match h
    case FlightHandler => FlightStep
    case FaqHandler => FaqStep
    case ClarifyHandler => ClarifyStep
  }

  /** Everything outside the graph a turn depends on: the reasoning
      service for the router and clarification (one generation each) and
      for the two tool loops, the decoder and printer of JSON, each
      handler's prompt template, and the two tools' backing data. */
  datatype Env = Env(
    routerModel: Generate,
    clarifyModel: Generate,
    flightService: Service,
    faqService: Service,
    decode: Decoder,
    show: Show,
    routerPrompt: Render,
    flightPrompt: Render,
    faqPrompt: Render,
    clarifyPrompt: Render,
    flights: seq<Item>,
    parsers: Parsers,
    dumps: Dumps,
    search: Search)

  /** A turn's end state (or the exception that escaped a node) and the
      nodes it visited. */
  datatype Turn = Turn(outcome: Result<TurnState, string>, path: seq<Node>)

  /** The nodes after the gate, as the graph calls them: each takes the
      state and returns the next one or raises; clarification never
      raises. */
  datatype Nodes = Nodes(
    primary: TurnState -> Result<TurnState, string>,
    flight: TurnState -> Result<TurnState, string>,
    faq: TurnState -> Result<TurnState, string>,
    clarify: TurnState -> TurnState)

  /** The program's own nodes over one environment. */
  function Wired(env: Env): Nodes {
    Nodes(
      s => Primary.RunPrimary(s, env.routerModel, env.decode, env.routerPrompt),
      s => Flight.RunFlight(s, env.flightService, env.flightPrompt, env.flights, env.parsers, env.decode, env.dumps, env.show),
      s => Faq.RunFaq(s, env.faqService, env.faqPrompt, env.search, env.decode, env.show),
      s => Clarify.RunClarify(s, env.clarifyModel, env.clarifyPrompt))
  }

  function RunHandler(h: Handler, s: TurnState, nodes: Nodes): Result<TurnState, string> {
    match h
    case FlightHandler => nodes.flight(s)
    case FaqHandler => nodes.faq(s)
    case ClarifyHandler => Success(nodes.clarify(s))
  }

  /** The compiled graph: guard, then (unless blocked) primary, then the
      handler the router picks, then the end. */
  function RunTurn(s: TurnState, nodes: Nodes): (t: Turn)
    ensures 1 <= |t.path| <= 3 && t.path[0] == GuardStep
    ensures |t.path| == 1 <==> GuardNode(s).blocked
    ensures |t.path| == 1 ==> t.outcome == Success(GuardNode(s))
    ensures |t.path| > 1 ==> t.path[1] == PrimaryStep
  {
    var g := GuardNode(s);
    if g.blocked then Turn(Success(g), [GuardStep])
    else
      match nodes.primary(g)
      case Failure(e) => Turn(Failure(e), [GuardStep, PrimaryStep])
      case Success(p) =>
        var h := IntentRouter(p.intent);
        Turn(RunHandler(h, p, nodes), [GuardStep, PrimaryStep, StepOf(h)])
  }

  /** A blocked turn calls no node at all: it ends at the gate with the
      gate's reply, and the memory is left as it was. */
  lemma BlockedTurnEndsAtGate(s: TurnState, nodes: Nodes)
    requires HasSensitiveMarker(QueryText(s.query)) || IsBlank(QueryText(s.query))
    ensures var t := RunTurn(s, nodes);
      t.path == [GuardStep] && t.outcome.Success?
      && t.outcome.value.blocked && t.outcome.value.memory == s.memory
      && t.outcome.value.response == Some(JStr(Check(s.query).response.value))
  {
  }

  /** A turn that passes the gate runs the router and then exactly the
      handler chosen from the routed intent, unless the router raised. */
  lemma PassedTurnRunsOneHandler(s: TurnState, nodes: Nodes)
    requires !HasSensitiveMarker(QueryText(s.query)) && !IsBlank(QueryText(s.query))
    ensures var t := RunTurn(s, nodes);
      var p := nodes.primary(GuardNode(s));
      (p.Failure? ==> t == Turn(Failure(p.error), [GuardStep, PrimaryStep]))
      && (p.Success? ==>
            t.path == [GuardStep, PrimaryStep, StepOf(IntentRouter(p.value.intent))]
            && t.outcome == RunHandler(IntentRouter(p.value.intent), p.value, nodes))
  {
  }

  /** A router reply that cannot be read ends the turn in clarification,
      which never raises. */
  lemma UnreadableRouteClarifies(s: TurnState, nodes: Nodes, model: Generate, decode: Decoder, prompt: Render)
    requires forall g :: nodes.primary(g) == Primary.RunPrimary(g, model, decode, prompt)
    requires !HasSensitiveMarker(QueryText(s.query)) && !IsBlank(QueryText(s.query))
    requires var out := model(Primary.PromptOf(GuardNode(s), prompt));
      out.GenerationFailed? || Base.ExtractFirstJsonBlock(out.text, decode).Failure?
    ensures var t := RunTurn(s, nodes);
      t.path == [GuardStep, PrimaryStep, ClarifyStep]
      && t.outcome == Success(nodes.clarify(Primary.Routed(GuardNode(s),
           Route(Primary.FallbackIntent, Primary.FallbackResponse, DefaultConfidence))))
  {
    var g := GuardNode(s);
    Primary.FailureRoutesToClarify(g, model, decode, prompt);
    FallbackIntentClarifies();
    var p := Primary.Routed(g, Route(Primary.FallbackIntent, Primary.FallbackResponse, DefaultConfidence));
    assert nodes.primary(g) == Success(p);
    assert IntentRouter(p.intent) == ClarifyHandler;
  }
}

=== FILE: guardrail.dfy ===
/** The safety gate run before any handler (`GuardrailNode.__call__`). */
module Guardrail {
  import opened Wrappers
  import opened Text

  /** Lower-case markers whose presence anywhere in the query blocks it. */
  const SensitiveMarkers: seq<string> := ["ssn", "credit card", "passport number"]

  const SensitiveWarning: string := "Please don't share sensitive numbers. I can help without them."
  const AskForDetail: string := "Could you share a bit more detail?"

  /** The gate's answer: block or not, and the reply to give when blocking. */
  datatype Verdict = Verdict(shouldBlock: bool, response: Option<string>)

  /** `state.get('query', '') or ''`: a missing or `None` query is empty. */
  function QueryText(query: Option<string>): string {
    query.GetOr("")
  }

  /** Some marker occurs in the lower-cased text. */
  predicate HasSensitiveMarker(q: string) {
    exists k :: 0 <= k < |SensitiveMarkers| && Contains(Lower(q), SensitiveMarkers[k])
  }

  /** `any(x in q.lower() for x in markers)`, scanned in list order. */
  function AnyMarker(lowered: string, markers: seq<string>): (r: bool)
    ensures r <==> exists k :: 0 <= k < |markers| && Contains(lowered, markers[k])
    decreases |markers|
  {
    if markers == [] then false
    else Contains(lowered, markers[0]) || AnyMarker(lowered, markers[1..])
  }

  /** The gate: the marker test comes first, then the emptiness test. */
  function Check(query: Option<string>): (v: Verdict)
    ensures v.shouldBlock <==> HasSensitiveMarker(QueryText(query)) || IsBlank(QueryText(query))
    ensures HasSensitiveMarker(QueryText(query)) ==> v.response == Some(SensitiveWarning)
    ensures !HasSensitiveMarker(QueryText(query)) && IsBlank(QueryText(query)) ==> v.response == Some(AskForDetail)
    ensures !v.shouldBlock ==> v.response == None
  {
    var q := QueryText(query);
    if AnyMarker(Lower(q), SensitiveMarkers) then Verdict(true, Some(SensitiveWarning))
    else if Strip(q) == "" then Verdict(true, Some(AskForDetail))
    else Verdict(false, None)
  }

  /** A marker written in any letter case, glued to any surrounding text
      (no word boundaries), blocks the query with the warning. */
  lemma MarkerAnywhereBlocks(pre: string, written: string, post: string, k: nat)
    requires k < |SensitiveMarkers|
    requires Lower(written) == SensitiveMarkers[k]
    ensures Check(Some(pre + written + post)) == Verdict(true, Some(SensitiveWarning))
  {
    var q := pre + written + post;
    LowerAppend(pre + written, post);
    LowerAppend(pre, written);
    ContainsMiddle(Lower(pre), SensitiveMarkers[k], Lower(post));
    assert Contains(Lower(q), SensitiveMarkers[k]);
  }

  /** A query without markers passes exactly when it has a non-space character. */
  lemma CleanQueryPasses(q: string)
    requires !HasSensitiveMarker(q)
    ensures Check(Some(q)).shouldBlock <==> IsBlank(q)
  {
  }

  /** The worked example: an SSN mention is blocked with the warning. */
  lemma SsnExampleBlocked()
    ensures Check(Some("my SSN is 123-45-6789")) == Verdict(true, Some(SensitiveWarning))
  {
    var q := "my SSN is 123-45-6789";
    assert q[3..6] == "SSN";
    SsnFolds();
    MarkerAtBlocks(q, 3, 0);
  }

  /** The same, for a marker found at index `i` of the query. */
  lemma MarkerAtBlocks(q: string, i: nat, k: nat)
    requires k < |SensitiveMarkers| && i + |SensitiveMarkers[k]| <= |q|
    requires Lower(q[i..i + |SensitiveMarkers[k]|]) == SensitiveMarkers[k]
    ensures Check(Some(q)) == Verdict(true, Some(SensitiveWarning))
  {
    var j := i + |SensitiveMarkers[k]|;
    assert q == q[..i] + q[i..j] + q[j..];
    MarkerAnywhereBlocks(q[..i], q[i..j], q[j..], k);
  }

  lemma SsnFolds()
    ensures Lower("SSN") == SensitiveMarkers[0]
  {
    var l := Lower("SSN");
    assert l[0] == 's' && l[1] == 's' && l[2] == 'n';
  }
}

=== FILE: helpers.dfy ===
/** The flight filter behind the `flight_filter` tool: per-field checks on
    a flight record and the order-preserving filter that applies them.
    Records are JSON objects. `float(...)` on text and
    `datetime.fromisoformat(...).month` are left abstract. A string method
    called on a non-string raises; that surfaces as `Failure`. */
module Helpers {
  import opened Wrappers
  import opened Text
  import opened Json

  /** One flight record of the dataset. */
  type Item = map<string, Json>

  /** The two parsers the checks call: `float(text)` and the month of an
      ISO date; `None` where they raise. */
  datatype Parsers = Parsers(float: string -> Option<real>, isoMonth: string -> Option<nat>)

  /** The key holds a value other than `None` and `""` (so `0` and `False`
      count). */
  predicate Present(d: Item, k: string) {
    k in d && d[k] != JNull && d[k] != JStr("")
  }

  /** `_first_nonempty`: the value of the first listed key that is
      present; `None` (JSON null) when there is none. */
  function FirstNonEmpty(d: Item, keys: seq<string>): (r: Json)
    ensures r == JNull <==> forall i :: 0 <= i < |keys| ==> !Present(d, keys[i])
    ensures r != JNull ==> exists i :: 0 <= i < |keys| && Present(d, keys[i]) && r == d[keys[i]] &&
                                         forall j :: 0 <= j < i ==> !Present(d, keys[j])
    decreases |keys|
  {
    if keys == [] then JNull
    else if Present(d, keys[0]) then d[keys[0]]
    else
      var r := FirstNonEmpty(d, keys[1..]);
      assert forall i :: 1 <= i < |keys| ==> keys[i] == keys[1..][i - 1];
      r
  }

  /** Falsy-but-set values such as `0` and `False` are found. */
  lemma ZeroIsNonEmpty()
    ensures FirstNonEmpty(map["price_usd" := JNull, "price" := JInt(0)], ["price_usd", "price"]) == JInt(0)
  {
    var d := map["price_usd" := JNull, "price" := JInt(0)];
    assert !Present(d, "price_usd") && Present(d, "price");
  }

  /** `_ci_contains`: `False` when either side is falsy, otherwise a
      case-insensitive substring test, which raises on a non-string. */
  function CiContains(hay: Json, needle: Json): (r: Result<bool, string>)
    ensures !Truthy(hay) || !Truthy(needle) ==> r == Success(false)
    ensures Truthy(hay) && Truthy(needle) ==> (r.Success? <==> hay.JStr? && needle.JStr?)
    ensures r == Success(true) <==>
      hay.JStr? && needle.JStr? && hay.s != "" && needle.s != "" && Contains(Lower(hay.s), Lower(needle.s))
  {
    if !Truthy(hay) || !Truthy(needle) then Success(false)
    else if !needle.JStr? || !hay.JStr? then Failure("AttributeError")
    else Success(Contains(Lower(hay.s), Lower(needle.s)))
  }

  /** The needle anywhere inside the haystack, in any ASCII letter case,
      is found. */
  lemma CiContainsInside(pre: string, needle: string, post: string, written: string)
    requires needle != [] && Lower(written) == Lower(needle)
    ensures CiContains(JStr(pre + written + post), JStr(needle)) == Success(true)
  {
    LowerAppend(pre + written, post);
    LowerAppend(pre, written);
    ContainsMiddle(Lower(pre), Lower(needle), Lower(post));
    assert |written| == |needle|;
  }

  /** `float(x)`: numbers convert, text goes through the parser, anything
      else raises. */
  function ToFloat(v: Json, p: Parsers): Option<real> {
    match v
    case JInt(i) => Some(i as real)
    case JFloat(r) => Some(r)
    case JBool(b) => Some(if b then 1.0 else 0.0)
    case JStr(s) => p.float(s)
    case _ => None
  }

  /** `max_price in (None, "")`: no cap is set. */
  predicate NoCap(maxPrice: Json) {
    maxPrice == JNull || maxPrice == JStr("")
  }

  /** `_pass_price`: any exception counts as a failed check. */
  function PassPrice(item: Item, maxPrice: Json, p: Parsers): (r: bool)
    ensures r <==> (NoCap(maxPrice) ||
      (var price := FirstNonEmpty(item, ["price_usd", "price"]);
       price != JNull && ToFloat(price, p).Some? && ToFloat(maxPrice, p).Some?
       && ToFloat(price, p).value <= ToFloat(maxPrice, p).value))
    ensures !NoCap(maxPrice) && !Present(item, "price_usd") && !Present(item, "price") ==> !r
  {
    if NoCap(maxPrice) then true
    else
      var price := FirstNonEmpty(item, ["price_usd", "price"]);
      if price == JNull then false
      else
        match (ToFloat(price, p), ToFloat(maxPrice, p))
        case (Some(a), Some(b)) => a <= b
        case _ => false
  }

  /** `_pass_alliance`. */
  function PassAlliance(item: Item, alliance: Json): (r: Result<bool, string>)
    ensures !Truthy(alliance) ==> r == Success(true)
    ensures Truthy(alliance) && !Present(item, "alliance") ==> r == Success(false)
    ensures Truthy(alliance) ==>
      (r == Success(true) <==> CiContains(FirstNonEmpty(item, ["alliance"]), alliance) == Success(true))
  {
    if !Truthy(alliance) then Success(true)
    else
      var ali := FirstNonEmpty(item, ["alliance"]);
      if !Truthy(ali) then Success(false) else CiContains(ali, alliance)
  }

  /** One side of `_pass_route`: passes without a criterion, otherwise the
      record's field (or `""`) must contain it. */
  function PassEnd(field: Json, wanted: Json): (r: Result<bool, string>)
    ensures !Truthy(wanted) ==> r == Success(true)
    ensures Truthy(wanted) && field == JNull ==> r == Success(false)
    ensures Truthy(wanted) ==>
      (r == Success(true) <==> field.JStr? && wanted.JStr? && field.s != "" && Contains(Lower(field.s), Lower(wanted.s)))
    ensures Truthy(wanted) ==> (r.Failure? <==> Truthy(field) && !(field.JStr? && wanted.JStr?))
  {
    if !Truthy(wanted) then Success(true) else CiContains(Or(field, JStr("")), wanted)
  }

  const OriginKeys: seq<string> := ["from", "origin", "source", "from_city"]
  const DestinationKeys: seq<string> := ["to", "destination", "dest", "to_city"]

  /** `_pass_route`: both sides are evaluated before they are combined. */
  function PassRoute(item: Item, origin: Json, destination: Json): (r: Result<bool, string>)
    ensures r.Success? <==> PassEnd(FirstNonEmpty(item, OriginKeys), origin).Success?
                            && PassEnd(FirstNonEmpty(item, DestinationKeys), destination).Success?
    ensures r == Success(true) <==>
      PassEnd(FirstNonEmpty(item, OriginKeys), origin) == Success(true)
      && PassEnd(FirstNonEmpty(item, DestinationKeys), destination) == Success(true)
  {
    var okSrc := PassEnd(FirstNonEmpty(item, OriginKeys), origin);
    var okDst := PassEnd(FirstNonEmpty(item, DestinationKeys), destination);
    if okSrc.Failure? then okSrc
    else if okDst.Failure? then okDst
    else Success(okSrc.value && okDst.value)
  }

  const MonthAbbreviations: seq<string> :=
    ["jan", "feb", "mar", "apr", "may", "jun", "jul", "aug", "sep", "oct", "nov", "dec"]

  /** The position of `x` in `xs`, or -1. */
  function IndexOf(xs: seq<string>, x: string): (r: int)
    ensures -1 <= r < |xs|
    ensures r == -1 <==> x !in xs
    ensures r != -1 ==> xs[r] == x
    decreases |xs|
  {
    if xs == [] then -1
    else if xs[0] == x then 0
    else
      var k := IndexOf(xs[1..], x);
      if k == -1 then -1 else k + 1
  }

  /** The stripped hint's first three letters, lower-cased, when there
      are three. */
  predicate Abbreviates(hint: string, a: string) {
    var t := Strip(hint);
    |t| >= 3 && Lower(t[..3]) == a
  }

  /** `_month_name_to_num`: the first three letters of the stripped hint,
      as a month abbreviation in any letter case; `None` otherwise
      (including for a non-string hint, whose `strip` raises inside the
      `try`). */
  function MonthNumber(hint: Json): (r: Option<nat>)
    ensures r.Some? <==> hint.JStr? && exists a :: a in MonthAbbreviations && Abbreviates(hint.s, a)
    ensures r.Some? ==> 1 <= r.value <= 12 && Abbreviates(hint.s, MonthAbbreviations[r.value - 1])
  {
    if !Truthy(hint) || !hint.JStr? then None
    else
      var t := Strip(hint.s);
      var k := IndexOf(MonthAbbreviations, Lower(if |t| < 3 then t else t[..3]));
      ThreeLetters();
      if k == -1 then None else Some(k + 1)
  }

  lemma ThreeLetters()
    ensures forall k :: 0 <= k < |MonthAbbreviations| ==> |MonthAbbreviations[k]| == 3
  {
  }

  /** `_parse_date_month(value or "")`: a non-string value raises inside
      the `try` and gives `None`. */
  function DateMonth(v: Json, p: Parsers): (r: Option<nat>)
    ensures v.JStr? ==> r == p.isoMonth(v.s)
    ensures !Truthy(v) ==> r == p.isoMonth("")
    ensures Truthy(v) && !v.JStr? ==> r.None?
  {
    var s := Or(v, JStr(""));
    if s.JStr? then p.isoMonth(s.s) else None
  }

  const DepartureKeys: seq<string> := ["departure_date", "depart_date", "outbound_date"]
  const ReturnKeys: seq<string> := ["return_date", "inbound_date"]

  /** `_pass_month`: no hint or an unrecognised one passes; otherwise the
      departure or the return month must be the hinted one. */
  function PassMonth(item: Item, hint: Json, p: Parsers): (r: bool)
    ensures MonthNumber(hint).None? ==> r
    ensures MonthNumber(hint).Some? ==> (r <==>
      DateMonth(FirstNonEmpty(item, DepartureKeys), p) == MonthNumber(hint)
      || DateMonth(FirstNonEmpty(item, ReturnKeys), p) == MonthNumber(hint))
  {
    if !Truthy(hint) then true
    else
      match MonthNumber(hint)
      case None => true
      case Some(m) =>
        DateMonth(FirstNonEmpty(item, DepartureKeys), p) == Some(m)
        || DateMonth(FirstNonEmpty(item, ReturnKeys), p) == Some(m)
  }

  /** The record lists at least one layover or stop. */
  predicate HasStops(item: Item) {
    var lays := Or(FirstNonEmpty(item, ["layovers", "stops"]), JArr([]));
    lays.JArr? && |lays.items| > 0
  }

  /** The record's refundability is literally `True`. */
  predicate IsRefundable(item: Item) {
    FirstNonEmpty(item, ["refundable", "is_refundable"]) == JBool(true)
  }

  /** The criteria fields `filter_flights` reads (`criteria.get(...)`). */
  datatype Criteria = Criteria(
    origin: Json, destination: Json, monthHint: Json, alliance: Json,
    maxPrice: Json, nonStopOnly: Json, refundableOnly: Json)

  function CriteriaOf(c: map<string, Json>): Criteria {
    Criteria(Get(c, "origin"), Get(c, "destination"), Get(c, "month_hint"), Get(c, "alliance"),
             Get(c, "max_price_usd"), Get(c, "non_stop_only"), Get(c, "refundable_only"))
  }

  /** Whether the loop body keeps the record, checking in source order:
      route, month, price, alliance, then the two `is True` flags. */
  function Keeps(item: Item, c: Criteria, p: Parsers): (r: Result<bool, string>)
    ensures r == Success(true) <==>
      PassRoute(item, c.origin, c.destination) == Success(true) && PassMonth(item, c.monthHint, p)
      && PassPrice(item, c.maxPrice, p) && PassAlliance(item, c.alliance) == Success(true)
      && (c.nonStopOnly == JBool(true) ==> !HasStops(item))
      && (c.refundableOnly == JBool(true) ==> IsRefundable(item))
    ensures r.Failure? ==>
      PassRoute(item, c.origin, c.destination).Failure? || PassAlliance(item, c.alliance).Failure?
    ensures PassRoute(item, c.origin, c.destination).Failure? ==> r.Failure?
    ensures PassRoute(item, c.origin, c.destination) == Success(true) && PassMonth(item, c.monthHint, p) ==>
      PassPrice(item, c.maxPrice, p) && PassAlliance(item, c.alliance).Failure? ==> r.Failure?
  {
    match PassRoute(item, c.origin, c.destination)
    case Failure(e) => Failure(e)
    case Success(route) =>
      if !route || !PassMonth(item, c.monthHint, p) || !PassPrice(item, c.maxPrice, p) then Success(false)
      else
        match PassAlliance(item, c.alliance)
        case Failure(e) => Failure(e)
        case Success(ali) =>
          if !ali then Success(false)
          else if c.nonStopOnly == JBool(true) && HasStops(item) then Success(false)
          else if c.refundableOnly == JBool(true) && !IsRefundable(item) then Success(false)
          else Success(true)
  }

  /** The filter loop: keeps the records `decide` accepts, in order, and
      fails at the first record whose decision raises. */
  function FilterBy(flights: seq<Item>, decide: Item -> Result<bool, string>): (r: Result<seq<Item>, string>)
    ensures r.Success? <==> forall i :: 0 <= i < |flights| ==> decide(flights[i]).Success?
    ensures r.Success? ==> IsSubseq(r.value, flights)
    ensures r.Success? ==> forall x :: x in r.value <==> x in flights && decide(x) == Success(true)
    ensures r.Success? ==> forall x :: multiset(r.value)[x] == if decide(x) == Success(true) then multiset(flights)[x] else 0
    decreases |flights|
  {
    if flights == [] then Success([])
    else
      var x := flights[0];
      assert forall i :: 1 <= i < |flights| ==> flights[i] == flights[1..][i - 1];
      match decide(x)
      case Failure(e) => Failure(e)
      case Success(keep) =>
        match FilterBy(flights[1..], decide)
        case Failure(e) => Failure(e)
        case Success(rest) =>
          SubseqCons(rest, flights[1..], x, keep);
          assert [x] + flights[1..] == flights;
          assert multiset(flights) == multiset([x]) + multiset(flights[1..]);
          Success(if keep then [x] + rest else rest)
  }

  /** Filtering what a filter kept changes nothing. */
  lemma {:induction false} FilterIdempotent(flights: seq<Item>, decide: Item -> Result<bool, string>)
    requires FilterBy(flights, decide).Success?
    ensures FilterBy(FilterBy(flights, decide).value, decide) == FilterBy(flights, decide)
    decreases |flights|
  {
    if flights != [] {
      var x := flights[0];
      assert decide(x).Success?;
      FilterIdempotent(flights[1..], decide);
      var rest := FilterBy(flights[1..], decide).value;
      if decide(x).value {
        assert ([x] + rest)[1..] == rest;
      }
    }
  }

  /** A decision that accepts every record keeps them all. */
  lemma {:induction false} FilterKeepsAll(flights: seq<Item>, decide: Item -> Result<bool, string>)
    requires forall x :: x in flights ==> decide(x) == Success(true)
    ensures FilterBy(flights, decide) == Success(flights)
    decreases |flights|
  {
    if flights != [] {
      assert flights[0] in flights;
      assert forall x :: x in flights[1..] ==> x in flights;
      FilterKeepsAll(flights[1..], decide);
      assert [flights[0]] + flights[1..] == flights;
    }
  }

  /** The decision `filter_flights` applies to each record. */
  function Decision(c: Criteria, p: Parsers): Item -> Result<bool, string> {
    x => Keeps(x, c, p)
  }

  /** `filter_flights`: the criteria must be an object (`criteria.get`). */
  function FilterFlights(flights: seq<Item>, criteria: Json, p: Parsers): (r: Result<seq<Item>, string>)
    ensures !criteria.JObj? ==> r == Failure("AttributeError")
    ensures criteria.JObj? ==> r == FilterBy(flights, Decision(CriteriaOf(criteria.fields), p))
    ensures criteria.JObj? ==>
      (r.Success? <==> forall i :: 0 <= i < |flights| ==> Keeps(flights[i], CriteriaOf(criteria.fields), p).Success?)
    ensures criteria.JObj? && r.Success? ==> IsSubseq(r.value, flights)
    ensures criteria.JObj? && r.Success? ==> forall x ::
      multiset(r.value)[x] == if Keeps(x, CriteriaOf(criteria.fields), p) == Success(true) then multiset(flights)[x] else 0
  {
    if criteria.JObj? then FilterBy(flights, Decision(CriteriaOf(criteria.fields), p))
    else Failure("AttributeError")
  }

  /** Empty criteria keep every record. */
  lemma EmptyCriteriaKeepAll(flights: seq<Item>, p: Parsers)
    ensures FilterFlights(flights, JObj(map[]), p) == Success(flights)
  {
    var c := CriteriaOf(map[]);
    forall x | x in flights ensures Decision(c, p)(x) == Success(true) {
      EmptyCriteriaKeep(x, c, p);
    }
    FilterKeepsAll(flights, Decision(c, p));
  }

  lemma EmptyCriteriaKeep(x: Item, c: Criteria, p: Parsers)
    requires c == CriteriaOf(map[])
    ensures Keeps(x, c, p) == Success(true)
  {
    assert c.origin == JNull && c.destination == JNull && c.alliance == JNull;
    assert PassRoute(x, c.origin, c.destination) == Success(true);
  }

  /** `non_stop_only` and `refundable_only` act only when literally `True`:
      any other value (`1`, `"yes"`) is the same as leaving them out. */
  lemma FlagsOnlyWhenTrue(x: Item, c: Criteria, p: Parsers)
    requires c.nonStopOnly != JBool(true) && c.refundableOnly != JBool(true)
    ensures Keeps(x, c, p) == Keeps(x, c.(nonStopOnly := JNull, refundableOnly := JNull), p)
  {
  }
}

=== FILE: json.dfy ===
/** JSON values as Python's `json` module hands them back, the decoder left
    abstract, and the one encoding the orchestration writes itself: the
    `{"error": ...}` observation produced by `json.dumps` (ASCII-only escapes,
    default separators). A reference reader for that shape is proved to give
    the message back. */
module Json {
  import opened Wrappers
  import opened Text

  /** A decoded JSON value. Objects are Python dicts (later duplicate keys
      win in `json.loads`, so a map is faithful). */
  datatype Json =
    | JNull
    | JBool(b: bool)
    | JInt(i: int)
    | JFloat(r: real)
    | JStr(s: string)
    | JArr(items: seq<Json>)
    | JObj(fields: map<string, Json>)

  /** `json.loads`: `None` where it raises. Left abstract. */
  type Decoder = string -> Option<Json>

  /** `str(v)` / `f"{v}"` for values whose printing the model does not spell
      out (floats, lists, dicts). Left abstract. */
  type Show = Json -> string

  /** Python truthiness of a decoded value. */
  predicate Truthy(v: Json) {
    match v
    case JNull => false
    case JBool(b) => b
    case JInt(i) => i != 0
    case JFloat(r) => r != 0.0
    case JStr(s) => s != ""
    case JArr(xs) => xs != []
    case JObj(m) => m != map[]
  }

  /** `d.get(k)`: `None` (JSON null) when the key is missing. */
  function Get(d: map<string, Json>, k: string): Json {
    if k in d then d[k] else JNull
  }

  /** `d.get(k, default)`. */
  function GetOr(d: map<string, Json>, k: string, default: Json): Json {
    if k in d then d[k] else default
  }

  /** Python's `a or b`. */
  function Or(a: Json, b: Json): Json {
    if Truthy(a) then a else b
  }

  /** `f"{v}"`: strings verbatim, `None`/`True`/`False` and integers as
      Python prints them, everything else through `show`. */
  function Fmt(v: Json, show: Show): string {
    match v
    case JStr(s) => s
    case JNull => "None"
    case JBool(b) => if b then "True" else "False"
    case JInt(i) => IntToString(i)
    case _ => show(v)
  }

  function HexDigit(d: nat): char
    requires d < 16
  {
    if d < 10 then ('0' as int + d) as char else ('a' as int + d - 10) as char
  }

  /** `'{0:04x}'.format(n)`. */
  function Hex4(n: nat): string
    requires n < 0x10000
  {
    [HexDigit(n / 4096), HexDigit(n / 256 % 16), HexDigit(n / 16 % 16), HexDigit(n % 16)]
  }

  /** How `json.dumps` (with `ensure_ascii=True`) writes one character
      inside a string literal. */
  function EscapeChar(c: char): string {
    var n := c as int;
    if c == '"' then "\\\""
    else if c == '\\' then "\\\\"
    else if c == '\n' then "\\n"
    else if c == '\r' then "\\r"
    else if c == '\t' then "\\t"
    else if n == 8 then "\\b"
    else if n == 12 then "\\f"
    else if 0x20 <= n <= 0x7E then [c]
    else if n < 0x10000 then "\\u" + Hex4(n)
    else
      var m := n - 0x10000;
      "\\u" + Hex4(0xD800 + m / 0x400) + "\\u" + Hex4(0xDC00 + m % 0x400)
  }

  function Escape(s: string): string
    decreases |s|
  {
    if s == [] then "" else EscapeChar(s[0]) + Escape(s[1..])
  }

  /** `json.dumps(s)` for a string `s`. */
  function Quote(s: string): string {
    "\"" + Escape(s) + "\""
  }

  const ErrorPrefix: string := "{\"error\": "

  /** `json.dumps({"error": msg})`: the observation a failed tool call
      leaves in the transcript. */
  function ErrorJson(msg: string): string {
    ErrorPrefix + Quote(msg) + "}"
  }

  // ---- a reference reader for the texts above ----

  function HexValue(c: char): Option<nat> {
    if '0' <= c <= '9' then Some(c as int - '0' as int)
    else if 'a' <= c <= 'f' then Some(c as int - 'a' as int + 10)
    else if 'A' <= c <= 'F' then Some(c as int - 'A' as int + 10)
    else None
  }

  /** Reads four hexadecimal digits. */
  function ParseHex4(t: string): (r: Option<nat>)
    requires |t| == 4
    ensures r.Some? ==> r.value < 0x10000
  {
    match (HexValue(t[0]), HexValue(t[1]), HexValue(t[2]), HexValue(t[3]))
    case (Some(a), Some(b), Some(c), Some(d)) =>
      if a < 16 && b < 16 && c < 16 && d < 16 then Some(a * 4096 + b * 256 + c * 16 + d) else None
    case _ => None
  }

  function Prepend(c: char, rest: Option<string>): Option<string> {
    match rest
    case Some(s) => Some([c] + s)
    case None => None
  }

  predicate IsScalar(n: int) {
    (0 <= n < 0xD800) || (0xE000 <= n < 0x110000)
  }

  /** Decodes the body of a JSON string literal up to and including its
      closing quote, which must be the last character. */
  function DecodeBody(t: string): Option<string>
    decreases |t|
  {
    if t == [] then None
    else if t[0] == '"' then (if |t| == 1 then Some("") else None)
    else if t[0] == '\\' then
      if |t| < 2 then None
      else if t[1] == '"' then Prepend('"', DecodeBody(t[2..]))
      else if t[1] == '\\' then Prepend('\\', DecodeBody(t[2..]))
      else if t[1] == '/' then Prepend('/', DecodeBody(t[2..]))
      else if t[1] == 'n' then Prepend('\n', DecodeBody(t[2..]))
      else if t[1] == 'r' then Prepend('\r', DecodeBody(t[2..]))
      else if t[1] == 't' then Prepend('\t', DecodeBody(t[2..]))
      else if t[1] == 'b' then Prepend(8 as char, DecodeBody(t[2..]))
      else if t[1] == 'f' then Prepend(12 as char, DecodeBody(t[2..]))
      else if t[1] == 'u' && |t| >= 6 then
        match ParseHex4(t[2..6])
        case None => None
        case Some(u) =>
          if 0xD800 <= u < 0xDC00 then
            if |t| >= 12 && t[6] == '\\' && t[7] == 'u' then
              match ParseHex4(t[8..12])
              case Some(v) =>
                if 0xDC00 <= v < 0xE000 then
                  Prepend((0x10000 + (u - 0xD800) * 0x400 + (v - 0xDC00)) as char, DecodeBody(t[12..]))
                else None
              case None => None
            else None
          else if IsScalar(u) then Prepend(u as char, DecodeBody(t[6..]))
          else None
      else None
    else if (t[0] as int) < 0x20 then None
    else Prepend(t[0], DecodeBody(t[1..]))
  }

  /** Reads a complete JSON string literal. */
  function Unquote(t: string): Option<string> {
    if |t| >= 1 && t[0] == '"' then DecodeBody(t[1..]) else None
  }

  /** Reads the message back out of a `{"error": "..."}` text. */
  function ErrorField(t: string): Option<string> {
    if |t| > |ErrorPrefix| && StartsWith(t, ErrorPrefix) && t[|t| - 1] == '}'
    then Unquote(t[|ErrorPrefix|..|t| - 1])
    else None
  }

  lemma HexDigitValue(d: nat)
    requires d < 16
    ensures HexValue(HexDigit(d)) == Some(d)
  {
  }

  /** The four digits `Hex4` writes recombine to the number. */
  lemma Hex4Digits(n: nat)
    requires n < 0x10000
    ensures n / 4096 < 16
    ensures n / 4096 * 4096 + n / 256 % 16 * 256 + n / 16 % 16 * 16 + n % 16 == n
  {
    var q1, q2, q3 := n / 16, n / 256, n / 4096;
    assert n == 16 * q1 + n % 16;
    assert q1 / 16 == q2;
    assert q1 == 16 * q2 + q1 % 16;
    assert q2 / 16 == q3;
    assert q2 == 16 * q3 + q2 % 16;
  }

  lemma Hex4RoundTrip(n: nat)
    requires n < 0x10000
    ensures ParseHex4(Hex4(n)) == Some(n)
  {
    Hex4Digits(n);
    HexDigitValue(n / 4096);
    HexDigitValue(n / 256 % 16);
    HexDigitValue(n / 16 % 16);
    HexDigitValue(n % 16);
  }

  lemma ShortEscapeDecodes(c: char, rest: string)
    requires c == '"' || c == '\\' || c == '\n' || c == '\r' || c == '\t' || c as int == 8 || c as int == 12
    ensures DecodeBody(EscapeChar(c) + rest) == Prepend(c, DecodeBody(rest))
  {
    var t := EscapeChar(c) + rest;
    assert |EscapeChar(c)| == 2 && t[0] == '\\';
    assert t[2..] == rest;
  }

  lemma UnicodeEscapeDecodes(c: char, rest: string)
    requires 0x7F <= c as int < 0x10000 || c as int < 0x20
    requires c != '\n' && c != '\r' && c != '\t' && c as int != 8 && c as int != 12
    ensures DecodeBody(EscapeChar(c) + rest) == Prepend(c, DecodeBody(rest))
  {
    var n := c as int;
    var t := EscapeChar(c) + rest;
    assert EscapeChar(c) == "\\u" + Hex4(n);
    Hex4RoundTrip(n);
    assert t[0] == '\\' && t[1] == 'u';
    assert t[2..6] == Hex4(n);
    assert t[6..] == rest;
  }

  /** The two halves `json.dumps` writes for a character beyond the basic
      plane are a high and a low surrogate that recombine to it. */
  lemma SurrogateHalves(n: int)
    requires 0x10000 <= n < 0x110000
    ensures var m := n - 0x10000;
      && 0xD800 <= 0xD800 + m / 0x400 < 0xDC00
      && 0xDC00 <= 0xDC00 + m % 0x400 < 0xE000
      && 0x10000 + (m / 0x400) * 0x400 + m % 0x400 == n
  {
  }

  lemma SurrogateLayout(hi: nat, lo: nat, rest: string)
    requires hi < 0x10000 && lo < 0x10000
    ensures var t := "\\u" + Hex4(hi) + "\\u" + Hex4(lo) + rest;
      && t[0] == '\\' && t[1] == 'u' && t[2..6] == Hex4(hi)
      && t[6] == '\\' && t[7] == 'u' && t[8..12] == Hex4(lo) && t[12..] == rest
  {
  }

  /** A high and a low surrogate escape decode to the character they encode. */
  lemma PairDecodes(hi: nat, lo: nat, rest: string)
    requires 0xD800 <= hi < 0xDC00 && 0xDC00 <= lo < 0xE000
    ensures DecodeBody("\\u" + Hex4(hi) + "\\u" + Hex4(lo) + rest)
      == Prepend((0x10000 + (hi - 0xD800) * 0x400 + (lo - 0xDC00)) as char, DecodeBody(rest))
  {
    SurrogateLayout(hi, lo, rest);
    Hex4RoundTrip(hi);
    Hex4RoundTrip(lo);
  }

  lemma SurrogatePairDecodes(c: char, rest: string)
    requires c as int >= 0x10000
    ensures DecodeBody(EscapeChar(c) + rest) == Prepend(c, DecodeBody(rest))
  {
    var n := c as int;
    var m := n - 0x10000;
    var hi, lo := 0xD800 + m / 0x400, 0xDC00 + m % 0x400;
    SurrogateHalves(n);
    assert EscapeChar(c) == "\\u" + Hex4(hi) + "\\u" + Hex4(lo);
    assert EscapeChar(c) + rest == "\\u" + Hex4(hi) + "\\u" + Hex4(lo) + rest;
    PairDecodes(hi, lo, rest);
  }

  /** Decoding an escaped character followed by more text yields the
      character followed by the decoding of the rest. */
  lemma EscapeCharDecodes(c: char, rest: string)
    ensures DecodeBody(EscapeChar(c) + rest) == Prepend(c, DecodeBody(rest))
  {
    var n := c as int;
    if c == '"' || c == '\\' || c == '\n' || c == '\r' || c == '\t' || n == 8 || n == 12 {
      ShortEscapeDecodes(c, rest);
    } else if 0x20 <= n <= 0x7E {
      var t := EscapeChar(c) + rest;
      assert t[1..] == rest;
    } else if n < 0x10000 {
      UnicodeEscapeDecodes(c, rest);
    } else {
      SurrogatePairDecodes(c, rest);
    }
  }

  lemma {:induction false} EscapeDecodes(s: string)
    ensures DecodeBody(Escape(s) + "\"") == Some(s)
    decreases |s|
  {
    if s == [] {
    } else {
      assert Escape(s) + "\"" == EscapeChar(s[0]) + (Escape(s[1..]) + "\"");
      EscapeCharDecodes(s[0], Escape(s[1..]) + "\"");
      EscapeDecodes(s[1..]);
      assert [s[0]] + s[1..] == s;
    }
  }

  /** `json.dumps` of a string reads back as that string. */
  lemma QuoteRoundTrip(s: string)
    ensures Unquote(Quote(s)) == Some(s)
  {
    assert Quote(s)[1..] == Escape(s) + "\"";
    EscapeDecodes(s);
  }

  /** The error observation is a JSON object whose `error` field is exactly
      the message, whatever characters the message holds. */
  lemma ErrorJsonRoundTrip(msg: string)
    ensures ErrorField(ErrorJson(msg)) == Some(msg)
  {
    var t := ErrorJson(msg);
    assert t[|ErrorPrefix|..|t| - 1] == Quote(msg);
    QuoteRoundTrip(msg);
  }
}

=== FILE: memory.dfy ===
/** The sliding-window conversation memory (the fallback `MemoryManager`
    class): tagged entries, trimmed to the last `2k` after every add. */
module Memory {
  import opened Text

  datatype Speaker = UserSpeaker | AiSpeaker

  datatype Entry = Entry(speaker: Speaker, text: string)

  /** `k` is the constructor argument (default 8); `history` is `_history`. */
  datatype Window = Window(k: int, history: seq<Entry>)

  function New(k: int): Window {
    Window(k, [])
  }

  /** `history[-2*k:]`, with Python's slice rules: `k == 0` keeps everything
      and a negative `k` drops the first `-2*k` entries. */
  function Retain(history: seq<Entry>, k: int): (r: seq<Entry>)
    ensures |r| <= |history| && r == history[|history| - |r|..]
    ensures k >= 1 ==> |r| == (if |history| <= 2 * k then |history| else 2 * k)
    ensures k == 0 ==> r == history
  {
    Slice(history, -2 * k, |history|)
  }

  function Add(w: Window, e: Entry): (r: Window)
    ensures r.k == w.k
    ensures var all := w.history + [e]; |r.history| <= |all| && r.history == all[|all| - |r.history|..]
    ensures w.k >= 1 ==> 1 <= |r.history| <= 2 * w.k && r.history[|r.history| - 1] == e
    ensures w.k == 0 ==> r.history == w.history + [e]
  {
    Window(w.k, Retain(w.history + [e], w.k))
  }

  /** `add_user`: the entry is tagged as the user's. */
  function AddUser(w: Window, msg: string): (r: Window)
    ensures w.k >= 1 ==> |r.history| >= 1 && r.history[|r.history| - 1] == Entry(UserSpeaker, msg)
  {
    Add(w, Entry(UserSpeaker, msg))
  }

  /** `add_ai`: the entry is tagged as the assistant's. */
  function AddAi(w: Window, msg: string): (r: Window)
    ensures w.k >= 1 ==> |r.history| >= 1 && r.history[|r.history| - 1] == Entry(AiSpeaker, msg)
  {
    Add(w, Entry(AiSpeaker, msg))
  }

  /** Adds the entries one after the other. */
  function AddAll(w: Window, es: seq<Entry>): Window
    decreases |es|
  {
    if es == [] then w else AddAll(Add(w, es[0]), es[1..])
  }

  /** Whatever was added, the retained history is the tail of everything
      ever added, and with `k >= 1` it is exactly the last `min(n, 2k)`. */
  lemma {:induction false} WindowIsSuffix(w: Window, log: seq<Entry>, es: seq<Entry>)
    requires |w.history| <= |log| && w.history == log[|log| - |w.history|..]
    requires w.k >= 1 ==> |w.history| == (if |log| <= 2 * w.k then |log| else 2 * w.k)
    ensures var all := log + es; var h := AddAll(w, es).history;
      |h| <= |all| && h == all[|all| - |h|..]
      && (w.k >= 1 ==> |h| == (if |all| <= 2 * w.k then |all| else 2 * w.k))
    decreases |es|
  {
    if es != [] {
      var w' := Add(w, es[0]);
      var log' := log + [es[0]];
      assert w.history + [es[0]] == log'[|log'| - |w.history| - 1..];
      assert log' + es[1..] == log + es;
      WindowIsSuffix(w', log', es[1..]);
    }
  }

  /** Starting from an empty window, the history is a suffix of all adds. */
  lemma FreshWindowKeepsLatest(k: int, es: seq<Entry>)
    ensures var h := AddAll(New(k), es).history;
      |h| <= |es| && h == es[|es| - |h|..]
      && (k >= 1 ==> |h| == (if |es| <= 2 * k then |es| else 2 * k))
  {
    WindowIsSuffix(New(k), [], es);
    assert [] + es == es;
  }

  function Line(e: Entry): string {
    (if e.speaker == UserSpeaker then "User:" else "Assistant:") + " " + e.text
  }

  function Lines(es: seq<Entry>): (r: seq<string>)
    ensures |r| == |es|
    ensures forall i :: 0 <= i < |es| ==> r[i] == Line(es[i])
  {
    seq(|es|, i requires 0 <= i < |es| => Line(es[i]))
  }

  /** `get_formatted`: one prefixed line per retained entry. */
  function Formatted(w: Window): (r: string)
    ensures r == "" <==> Retain(w.history, w.k) == []
  {
    var es := Retain(w.history, w.k);
    if es == [] then ""
    else
      assert |Line(es[0])| > 0;
      Join(Lines(es), "\n")
  }

  /** When no entry text spans lines, splitting the formatted history on
      newlines gives back one `User: ...`/`Assistant: ...` line per entry. */
  lemma FormattedLines(w: Window)
    requires forall e :: e in w.history ==> '\n' !in e.text
    requires Retain(w.history, w.k) != []
    ensures Split(Formatted(w), '\n') == Lines(Retain(w.history, w.k))
  {
    var es := Retain(w.history, w.k);
    var ls := Lines(es);
    forall i | 0 <= i < |ls|
      ensures '\n' !in ls[i]
    {
      assert es[i] in w.history;
      assert Line(es[i]) == (if es[i].speaker == UserSpeaker then "User:" else "Assistant:") + " " + es[i].text;
    }
    SplitJoin(ls, '\n');
  }
}

=== FILE: openai_client.dfy ===
/** The structured tool-call loop (`openai_tool_loop`) and the conversion of
    the tool catalog into chat tools. The reasoning service is an oracle:
    a function from the call's index and request to its outcome. Tools are
    total functions that either return a text or raise. */
module ToolLoop {
  import opened Wrappers
  import opened Text
  import opened Json

  // ---- catalog ----

  /** One catalog entry as a tool module advertises it (`t.get(...)`). */
  datatype CatalogEntry = CatalogEntry(
    kind: Option<string>,
    name: Option<string>,
    description: Option<string>,
    parameters: Option<Json>)

  /** The chat-completions form of a function tool. */
  datatype ChatTool = ChatTool(name: string, description: string, parameters: Json)

  /** The parameter schema used when an entry gives none. */
  const EmptyObjectSchema: Json := JObj(map["type" := JStr("object"), "properties" := JObj(map[])])

  /** The `type` of the entries the loop turns into chat tools. */
  const FunctionKind: string := "function"

  predicate IsFunctionEntry(t: CatalogEntry) {
    t.kind == Some(FunctionKind)
  }

  /** The function entries, in catalog order. */
  function FunctionEntries(catalog: seq<CatalogEntry>): (r: seq<CatalogEntry>)
    ensures forall t :: t in r <==> t in catalog && IsFunctionEntry(t)
    ensures |r| <= |catalog|
  {
    if catalog == [] then []
    else (if IsFunctionEntry(catalog[0]) then [catalog[0]] else []) + FunctionEntries(catalog[1..])
  }

  /** The function entries keep their catalog order, and each occurs as
      often as in the catalog; other entries do not occur at all. */
  lemma {:induction false} FunctionEntriesKept(catalog: seq<CatalogEntry>)
    ensures IsSubseq(FunctionEntries(catalog), catalog)
    ensures forall t :: multiset(FunctionEntries(catalog))[t] == if IsFunctionEntry(t) then multiset(catalog)[t] else 0
  {
    if catalog != [] {
      var t := catalog[0];
      FunctionEntriesKept(catalog[1..]);
      var rest := FunctionEntries(catalog[1..]);
      SubseqCons(rest, catalog[1..], t, IsFunctionEntry(t));
      assert [t] + catalog[1..] == catalog;
      assert multiset(catalog) == multiset([t]) + multiset(catalog[1..]);
      if IsFunctionEntry(t) {
        assert FunctionEntries(catalog) == [t] + rest;
      } else {
        assert FunctionEntries(catalog) == rest;
      }
    }
  }

  function ConvertEntry(t: CatalogEntry): ChatTool
    requires t.name.Some?
  {
    ChatTool(t.name.value, t.description.GetOr(""), t.parameters.GetOr(EmptyObjectSchema))
  }

  /** `_chat_tools_from_responses_tools`: keeps the function entries in
      order, defaulting the description and the schema; a function entry
      without a name raises `KeyError`. */
  function ChatToolsOf(catalog: seq<CatalogEntry>): (r: Result<seq<ChatTool>, string>)
    ensures r.Success? <==> forall t :: t in FunctionEntries(catalog) ==> t.name.Some?
    ensures r.Success? ==>
      |r.value| == |FunctionEntries(catalog)|
      && forall j :: 0 <= j < |r.value| ==>
           FunctionEntries(catalog)[j].name.Some? && r.value[j] == ConvertEntry(FunctionEntries(catalog)[j])
  {
    if catalog == [] then Success([])
    else
      var t := catalog[0];
      assert FunctionEntries(catalog) == (if IsFunctionEntry(t) then [t] else []) + FunctionEntries(catalog[1..]);
      if !IsFunctionEntry(t) then ChatToolsOf(catalog[1..])
      else if t.name.None? then Failure("KeyError: 'name'")
      else
        match ChatToolsOf(catalog[1..])
        case Failure(e) => Failure(e)
        case Success(rest) => Success([ConvertEntry(t)] + rest)
  }

  // ---- messages ----

  /** A caller-supplied message: only its `role` and `content` are read. */
  datatype InMessage = InMessage(fields: map<string, string>)

  datatype ToolCall = ToolCall(id: string, name: string, arguments: Option<string>)

  /** A transcript entry: a plain role/content message, the assistant's
      announcement of the calls it requested, or one call's result. */
  datatype Message =
    | Said(role: string, content: string)
    | Announced(content: string, calls: seq<ToolCall>)
    | ToolOutput(callId: string, name: string, content: string)

  /** The first message of the response. */
  datatype Reply = Reply(content: Option<string>, toolCalls: seq<ToolCall>)

  datatype ChatOutcome = Replied(reply: Reply) | ServiceFailed(error: string)

  /** `tool_choice`: absent (no tools), `"auto"`, or `"none"`. */
  datatype ToolChoice = ChoiceUnset | ChoiceAuto | ChoiceNone

  datatype ChatRequest = ChatRequest(messages: seq<Message>, tools: seq<ChatTool>, choice: ToolChoice)

  /** The reasoning service: the `i`-th call's outcome given its request. */
  type Service = (nat, ChatRequest) -> ChatOutcome

  /** `openai_generate` (single-shot): the reply text or a transport error. */
  datatype Generation = Generated(text: string) | GenerationFailed(error: string)

  datatype ToolOutcome = Returned(text: string) | Raised(error: string)

  /** A tool callable, taking the serialised arguments. */
  type Tool = string -> ToolOutcome

  type Dispatch = map<string, Tool>

  /** The initial transcript: role and content of each message, defaulting
      to `"user"` and `""`; every other field is dropped. */
  function InitialTranscript(messages: seq<InMessage>): (r: seq<Message>)
    ensures |r| == |messages|
    ensures forall i :: 0 <= i < |messages| ==>
      r[i] == Said(
        if "role" in messages[i].fields then messages[i].fields["role"] else "user",
        if "content" in messages[i].fields then messages[i].fields["content"] else "")
  {
    seq(|messages|, i requires 0 <= i < |messages| =>
      var f := messages[i].fields;
      Said(if "role" in f then f["role"] else "user", if "content" in f then f["content"] else ""))
  }

  // ---- one round ----

  /** `tc.function.arguments or "{}"`. */
  function ArgumentsOf(call: ToolCall): (r: string)
    ensures r == "{}" || Some(r) == call.arguments
    ensures call.arguments == None || call.arguments == Some("") ==> r == "{}"
  {
    match call.arguments
    case Some(a) => if a == "" then "{}" else a
    case None => "{}"
  }

  function UnknownToolMessage(name: string): string {
    "Unknown tool: " + name
  }

  function FailedToolMessage(name: string, error: string): string {
    "Tool '" + name + "' failed: " + error
  }

  /** The observation one call leaves: the tool's text, or an error object
      for an unknown name or a raising tool. Nothing propagates. */
  function Observe(dispatch: Dispatch, call: ToolCall): (r: string)
    ensures call.name !in dispatch ==> ErrorField(r) == Some(UnknownToolMessage(call.name))
    ensures call.name in dispatch ==>
      match dispatch[call.name](ArgumentsOf(call))
      case Returned(t) => r == t
      case Raised(e) => ErrorField(r) == Some(FailedToolMessage(call.name, e))
  {
    if call.name in dispatch then
      match dispatch[call.name](ArgumentsOf(call))
      case Returned(t) => t
      case Raised(e) =>
        ErrorJsonRoundTrip(FailedToolMessage(call.name, e));
        ErrorJson(FailedToolMessage(call.name, e))
    else
      ErrorJsonRoundTrip(UnknownToolMessage(call.name));
      ErrorJson(UnknownToolMessage(call.name))
  }

  /** One `tool` message per call, in request order, keyed by the call id. */
  function Observations(dispatch: Dispatch, calls: seq<ToolCall>): (r: seq<Message>)
    ensures |r| == |calls|
    ensures forall j :: 0 <= j < |calls| ==>
      r[j] == ToolOutput(calls[j].id, calls[j].name, Observe(dispatch, calls[j]))
  {
    seq(|calls|, j requires 0 <= j < |calls| =>
      ToolOutput(calls[j].id, calls[j].name, Observe(dispatch, calls[j])))
  }

  function ContentText(reply: Reply): string {
    reply.content.GetOr("")
  }

  /** A reply that ends the loop: no tool calls and some non-space text. */
  predicate IsFinalText(reply: Reply) {
    |reply.toolCalls| == 0 && !IsBlank(ContentText(reply))
  }

  /** An outcome after which the loop goes on to another round. */
  predicate Continues(o: ChatOutcome) {
    o.Replied? && !IsFinalText(o.reply)
  }

  datatype Config = Config(tools: seq<ChatTool>, dispatch: Dispatch, finalizer: string)

  /** The finalizer used when a caller gives none. */
  const DefaultFinalizer: string := "Return ONLY the final JSON now. No backticks, no commentary."

  function FinalizerMessage(cfg: Config): Message {
    Said("user", cfg.finalizer)
  }

  /** What a continuing reply appends: the announcement and the results of
      its calls, or, for a reply with neither calls nor text, the request
      for the final JSON. */
  function Next(cfg: Config, reply: Reply): seq<Message> {
    if |reply.toolCalls| > 0 then
      [Announced(ContentText(reply), reply.toolCalls)] + Observations(cfg.dispatch, reply.toolCalls)
    else [FinalizerMessage(cfg)]
  }

  /** A request inside the round budget: tools offered with `"auto"` when
      there are any. */
  function RoundRequest(cfg: Config, transcript: seq<Message>): ChatRequest {
    ChatRequest(transcript, cfg.tools, if cfg.tools == [] then ChoiceUnset else ChoiceAuto)
  }

  /** The call after the budget is spent: the finalizer rides along on this
      request only, and tool use is switched off. */
  function ForcedRequest(cfg: Config, transcript: seq<Message>): ChatRequest {
    ChatRequest(transcript + [FinalizerMessage(cfg)], cfg.tools, ChoiceNone)
  }

  /** One call to the service: what the transcript was, what was sent and
      what came back. */
  datatype Exchange = Exchange(transcript: seq<Message>, request: ChatRequest, outcome: ChatOutcome)

  /** The loop's result: the returned reply or the propagated service
      error, the transcript as it stood at the last call, and every call. */
  datatype LoopRun = LoopRun(outcome: Result<Reply, string>, transcript: seq<Message>, log: seq<Exchange>)

  function AsResult(o: ChatOutcome): Result<Reply, string> {
    match o
    case Replied(reply) => Success(reply)
    case ServiceFailed(e) => Failure(e)
  }

  /** `range(1, max_rounds + 1)` has this many rounds. */
  function Rounds(maxRounds: int): nat {
    if maxRounds < 0 then 0 else maxRounds
  }

  /** The rounds still to go are `left`; `log` holds the calls made so far. */
  function Drive(cfg: Config, service: Service, left: nat, transcript: seq<Message>, log: seq<Exchange>): LoopRun
    decreases left
  {
    if left == 0 then
      var req := ForcedRequest(cfg, transcript);
      var o := service(|log|, req);
      LoopRun(AsResult(o), transcript, log + [Exchange(transcript, req, o)])
    else
      var req := RoundRequest(cfg, transcript);
      var o := service(|log|, req);
      var log' := log + [Exchange(transcript, req, o)];
      if Continues(o) then Drive(cfg, service, left - 1, transcript + Next(cfg, o.reply), log')
      else LoopRun(AsResult(o), transcript, log')
  }

  /** `openai_tool_loop`. */
  function RunToolLoop(messages: seq<InMessage>, catalog: seq<CatalogEntry>, dispatch: Dispatch,
                       service: Service, maxRounds: int, finalizer: string): (run: LoopRun)
    ensures ChatToolsOf(catalog).Failure? ==> run.outcome.Failure? && run.log == []
    ensures ChatToolsOf(catalog).Success? ==>
      Follows(Config(ChatToolsOf(catalog).value, dispatch, finalizer), service, Rounds(maxRounds),
              InitialTranscript(messages), run)
  {
    match ChatToolsOf(catalog)
    case Failure(e) => LoopRun(Failure(e), [], [])
    case Success(tools) =>
      var cfg := Config(tools, dispatch, finalizer);
      DriveFollows(cfg, service, Rounds(maxRounds), InitialTranscript(messages), Rounds(maxRounds), InitialTranscript(messages), []);
      Drive(cfg, service, Rounds(maxRounds), InitialTranscript(messages), [])
  }

  // ---- the protocol, stated independently of the recursion ----

  /** The request the `i`-th call must carry. */
  function RequestAt(cfg: Config, rounds: nat, i: nat, transcript: seq<Message>): ChatRequest {
    if i < rounds then RoundRequest(cfg, transcript) else ForcedRequest(cfg, transcript)
  }

  /** The calls made so far obey the protocol: each asks the service with
      the prescribed request, each but the newest continued, and each
      transcript extends the previous one by what its reply appends. */
  ghost predicate Prefix(cfg: Config, service: Service, rounds: nat, init: seq<Message>, log: seq<Exchange>) {
    && |log| <= rounds + 1
    && (|log| > 0 ==> log[0].transcript == init)
    && (forall i :: 0 <= i < |log| ==>
          log[i].request == RequestAt(cfg, rounds, i, log[i].transcript)
          && log[i].outcome == service(i, log[i].request))
    && (forall i :: 0 <= i < |log| - 1 ==>
          Continues(log[i].outcome)
          && log[i + 1].transcript == log[i].transcript + Next(cfg, log[i].outcome.reply))
  }

  /** A complete run: the protocol was followed, the loop stopped at the
      first reply that does not continue or after the forced call, and it
      returned what that last call gave. */
  ghost predicate Follows(cfg: Config, service: Service, rounds: nat, init: seq<Message>, run: LoopRun) {
    var log := run.log;
    && 1 <= |log|
    && Prefix(cfg, service, rounds, init, log)
    && run.transcript == log[|log| - 1].transcript
    && run.outcome == AsResult(log[|log| - 1].outcome)
    && (|log| - 1 < rounds ==> !Continues(log[|log| - 1].outcome))
  }

  /** Where the recursion stands: `transcript` is what the next call will
      be built from. */
  ghost predicate Pending(cfg: Config, service: Service, rounds: nat, init: seq<Message>,
                          log: seq<Exchange>, transcript: seq<Message>) {
    && Prefix(cfg, service, rounds, init, log)
    && (|log| == 0 ==> transcript == init)
    && (|log| > 0 ==>
          Continues(log[|log| - 1].outcome)
          && transcript == log[|log| - 1].transcript + Next(cfg, log[|log| - 1].outcome.reply))
  }

  /** The next call, built from where the recursion stands, keeps the protocol. */
  lemma PrefixExtends(cfg: Config, service: Service, rounds: nat, init: seq<Message>,
                      log: seq<Exchange>, transcript: seq<Message>)
    requires |log| <= rounds
    requires Pending(cfg, service, rounds, init, log, transcript)
    ensures var req := RequestAt(cfg, rounds, |log|, transcript);
      Prefix(cfg, service, rounds, init, log + [Exchange(transcript, req, service(|log|, req))])
  {
    var req := RequestAt(cfg, rounds, |log|, transcript);
    var e := Exchange(transcript, req, service(|log|, req));
    var log' := log + [e];
    forall i | 0 <= i < |log'|
      ensures log'[i].request == RequestAt(cfg, rounds, i, log'[i].transcript)
      ensures log'[i].outcome == service(i, log'[i].request)
    {
      if i < |log| {
        assert log'[i] == log[i];
      }
    }
    forall i | 0 <= i < |log'| - 1
      ensures Continues(log'[i].outcome)
      ensures log'[i + 1].transcript == log'[i].transcript + Next(cfg, log'[i].outcome.reply)
    {
      assert log'[i] == log[i];
      if i + 1 < |log| {
        assert log'[i + 1] == log[i + 1];
      } else {
        assert log'[i + 1] == e;
      }
    }
  }

  lemma {:induction false} DriveFollows(cfg: Config, service: Service, rounds: nat, init: seq<Message>,
                                        left: nat, transcript: seq<Message>, log: seq<Exchange>)
    requires |log| + left == rounds
    requires Pending(cfg, service, rounds, init, log, transcript)
    ensures Follows(cfg, service, rounds, init, Drive(cfg, service, left, transcript, log))
    decreases left
  {
    var n := |log|;
    var req := RequestAt(cfg, rounds, n, transcript);
    var o := service(n, req);
    var log' := log + [Exchange(transcript, req, o)];
    PrefixExtends(cfg, service, rounds, init, log, transcript);
    assert log'[n] == Exchange(transcript, req, o);
    if left > 0 && Continues(o) {
      DriveFollows(cfg, service, rounds, init, left - 1, transcript + Next(cfg, o.reply), log');
    }
  }

  // ---- consequences for the caller ----

  /** The loop run for one set of arguments whose catalog converts. */
  function Run(messages: seq<InMessage>, catalog: seq<CatalogEntry>, dispatch: Dispatch,
               service: Service, maxRounds: int, finalizer: string): (run: LoopRun)
    requires ChatToolsOf(catalog).Success?
    ensures 1 <= |run.log| <= Rounds(maxRounds) + 1
    ensures run.log[0].transcript == InitialTranscript(messages)
  {
    RunToolLoop(messages, catalog, dispatch, service, maxRounds, finalizer)
  }

  /** The service is called at most `rounds + 1` times; every call but the
      last continued the loop; the last one inside the budget is the first
      reply that ends it; and the loop returns what the last call gave. */
  lemma StopsAtFirstFinalText(messages: seq<InMessage>, catalog: seq<CatalogEntry>, dispatch: Dispatch,
                              service: Service, maxRounds: int, finalizer: string)
    requires ChatToolsOf(catalog).Success?
    ensures var run := Run(messages, catalog, dispatch, service, maxRounds, finalizer);
      && (forall i :: 0 <= i < |run.log| - 1 ==> Continues(run.log[i].outcome))
      && run.outcome == AsResult(run.log[|run.log| - 1].outcome)
      && (|run.log| <= Rounds(maxRounds) ==>
            match run.outcome
            case Success(reply) => IsFinalText(reply)
            case Failure(_) => run.log[|run.log| - 1].outcome.ServiceFailed?)
  {
  }

  /** A reply inside the budget that requests tools continues the loop,
      whatever text it also carries, and the next transcript holds the
      announcement followed by one observation per call in request order. */
  lemma ToolCallsTakePrecedence(messages: seq<InMessage>, catalog: seq<CatalogEntry>, dispatch: Dispatch,
                                service: Service, maxRounds: int, finalizer: string, i: nat)
    requires ChatToolsOf(catalog).Success?
    requires i < |Run(messages, catalog, dispatch, service, maxRounds, finalizer).log|
    requires i < Rounds(maxRounds)
    requires var o := Run(messages, catalog, dispatch, service, maxRounds, finalizer).log[i].outcome;
      o.Replied? && |o.reply.toolCalls| > 0
    ensures var log := Run(messages, catalog, dispatch, service, maxRounds, finalizer).log;
      var calls := log[i].outcome.reply.toolCalls;
      && i + 1 < |log|
      && |log[i + 1].transcript| == |log[i].transcript| + 1 + |calls|
      && log[i + 1].transcript[..|log[i].transcript|] == log[i].transcript
      && log[i + 1].transcript[|log[i].transcript|] == Announced(ContentText(log[i].outcome.reply), calls)
      && forall j :: 0 <= j < |calls| ==>
           log[i + 1].transcript[|log[i].transcript| + 1 + j]
             == ToolOutput(calls[j].id, calls[j].name, Observe(dispatch, calls[j]))
  {
    var log := Run(messages, catalog, dispatch, service, maxRounds, finalizer).log;
    var cfg := Config(ChatToolsOf(catalog).value, dispatch, finalizer);
    assert i < |log| - 1;
    assert log[i + 1].transcript == log[i].transcript + Next(cfg, log[i].outcome.reply);
  }

  /** A tool that raises leaves an error observation naming it and its
      error, and the loop still goes on to the next call. */
  lemma FailingToolIsIsolated(messages: seq<InMessage>, catalog: seq<CatalogEntry>, dispatch: Dispatch,
                              service: Service, maxRounds: int, finalizer: string, i: nat, j: nat)
    requires ChatToolsOf(catalog).Success?
    requires i < |Run(messages, catalog, dispatch, service, maxRounds, finalizer).log|
    requires i < Rounds(maxRounds)
    requires var o := Run(messages, catalog, dispatch, service, maxRounds, finalizer).log[i].outcome;
      && o.Replied? && j < |o.reply.toolCalls|
      && o.reply.toolCalls[j].name in dispatch
      && dispatch[o.reply.toolCalls[j].name](ArgumentsOf(o.reply.toolCalls[j])).Raised?
    ensures var log := Run(messages, catalog, dispatch, service, maxRounds, finalizer).log;
      var call := log[i].outcome.reply.toolCalls[j];
      && i + 1 < |log|
      && |log[i].transcript| + 1 + j < |log[i + 1].transcript|
      && var m := log[i + 1].transcript[|log[i].transcript| + 1 + j];
         m.ToolOutput? && m.callId == call.id
         && ErrorField(m.content)
            == Some(FailedToolMessage(call.name, dispatch[call.name](ArgumentsOf(call)).error))
  {
    ToolCallsTakePrecedence(messages, catalog, dispatch, service, maxRounds, finalizer, i);
  }

  /** A reply inside the budget with neither calls nor text appends the
      finalizer as a user message and continues. */
  lemma BlankReplyAsksForFinal(messages: seq<InMessage>, catalog: seq<CatalogEntry>, dispatch: Dispatch,
                               service: Service, maxRounds: int, finalizer: string, i: nat)
    requires ChatToolsOf(catalog).Success?
    requires i < |Run(messages, catalog, dispatch, service, maxRounds, finalizer).log|
    requires i < Rounds(maxRounds)
    requires var o := Run(messages, catalog, dispatch, service, maxRounds, finalizer).log[i].outcome;
      o.Replied? && |o.reply.toolCalls| == 0 && IsBlank(ContentText(o.reply))
    ensures var log := Run(messages, catalog, dispatch, service, maxRounds, finalizer).log;
      i + 1 < |log| && log[i + 1].transcript == log[i].transcript + [Said("user", finalizer)]
  {
    var log := Run(messages, catalog, dispatch, service, maxRounds, finalizer).log;
    assert i < |log| - 1;
  }

  /** When every round continued, one more call is made on the transcript
      plus the finalizer with tools switched off, its outcome is returned
      as it is, and the finalizer is not kept in the transcript. */
  lemma ExhaustionForcesOneFinalCall(messages: seq<InMessage>, catalog: seq<CatalogEntry>, dispatch: Dispatch,
                                     service: Service, maxRounds: int, finalizer: string)
    requires ChatToolsOf(catalog).Success?
    requires |Run(messages, catalog, dispatch, service, maxRounds, finalizer).log| == Rounds(maxRounds) + 1
    ensures var run := Run(messages, catalog, dispatch, service, maxRounds, finalizer);
      var last := run.log[Rounds(maxRounds)];
      && last.request == ChatRequest(run.transcript + [Said("user", finalizer)], ChatToolsOf(catalog).value, ChoiceNone)
      && last.outcome == service(Rounds(maxRounds), last.request)
      && run.outcome == AsResult(last.outcome)
      && forall i :: 0 <= i < Rounds(maxRounds) ==> run.log[i].request.choice != ChoiceNone
  {
    var cfg := Config(ChatToolsOf(catalog).value, dispatch, finalizer);
    var run := Run(messages, catalog, dispatch, service, maxRounds, finalizer);
    var k := Rounds(maxRounds);
    assert Follows(cfg, service, k, InitialTranscript(messages), run);
    assert run.log[k].request == RequestAt(cfg, k, k, run.log[k].transcript);
    forall i | 0 <= i < k
      ensures run.log[i].request.choice != ChoiceNone
    {
      assert run.log[i].request == RoundRequest(cfg, run.log[i].transcript);
    }
  }

  /** A service that requests a tool on every round inside the budget
      drives the loop to the forced call. */
  lemma AlwaysCallingToolsReachesForcedCall(messages: seq<InMessage>, catalog: seq<CatalogEntry>, dispatch: Dispatch,
                                            service: Service, maxRounds: int, finalizer: string)
    requires ChatToolsOf(catalog).Success?
    requires forall i: nat, req :: i < Rounds(maxRounds) ==>
      service(i, req).Replied? && |service(i, req).reply.toolCalls| > 0
    ensures |Run(messages, catalog, dispatch, service, maxRounds, finalizer).log| == Rounds(maxRounds) + 1
  {
    var log := Run(messages, catalog, dispatch, service, maxRounds, finalizer).log;
    var k := |log| - 1;
    assert log[k].outcome == service(k, log[k].request);
  }

  // ---- the round-trip scenario ----

  const ScenarioCall: ToolCall := ToolCall("call_1", "flight_filter", Some("{}"))
  const ScenarioFinal: string := "{\"intent\":\"schedule_search\"}"

  /** Requests `flight_filter` on the first call and answers on the second. */
  function ScenarioService(): Service {
    (i: nat, req: ChatRequest) =>
      if i == 0 then Replied(Reply(None, [ScenarioCall])) else Replied(Reply(Some(ScenarioFinal), []))
  }

  /** With one user message and a stub service that asks for `flight_filter`
      once and then answers, the loop makes two calls, returns the answer,
      and the second call sees exactly the tool-call record and its
      observation appended. */
  lemma RoundTripScenario(catalog: seq<CatalogEntry>, dispatch: Dispatch, text: string)
    requires ChatToolsOf(catalog).Success?
    requires "flight_filter" in dispatch && dispatch["flight_filter"]("{}") == Returned(text)
    ensures var init := [InMessage(map["role" := "user", "content" := "find me a flight"])];
      var run := Run(init, catalog, dispatch, ScenarioService(), 4, DefaultFinalizer);
      && |run.log| == 2
      && run.outcome == Success(Reply(Some(ScenarioFinal), []))
      && run.transcript == [Said("user", "find me a flight"),
                            Announced("", [ScenarioCall]),
                            ToolOutput("call_1", "flight_filter", text)]
  {
    var init := [InMessage(map["role" := "user", "content" := "find me a flight"])];
    var run := Run(init, catalog, dispatch, ScenarioService(), 4, DefaultFinalizer);
    var cfg := Config(ChatToolsOf(catalog).value, dispatch, DefaultFinalizer);
    assert !IsBlank(ScenarioFinal) by { assert !IsSpace(ScenarioFinal[0]); }
    assert run.log[0].outcome == Replied(Reply(None, [ScenarioCall]));
    assert |run.log| >= 2;
    assert run.log[1].outcome == Replied(Reply(Some(ScenarioFinal), []));
    assert Next(cfg, Reply(None, [ScenarioCall])) == [Announced("", [ScenarioCall]), ToolOutput("call_1", "flight_filter", text)];
  }
}

=== FILE: primary.dfy ===
/** The primary router (`run_primary`): one generation, the first JSON
    block of its text read as the route, and a fixed fallback route when
    anything in that raises. */
module Primary {
  import opened Wrappers
  import opened Text
  import opened Json
  import opened Base
  import opened ToolLoop
  import opened Memory
  import opened TurnStates

  const FallbackIntent: string := "clarify_missing_fields"
  const FallbackResponse: string := "Let\U{2019}s clarify a couple of details."

  /** The object the `except` branch substitutes. */
  const FallbackData: map<string, Json> :=
    map["intent" := JStr(FallbackIntent), "response" := JStr(FallbackResponse)]

  /** The object the route is read from: the decoded block when it is an
      object, else the fallback. A failed generation, a failed extraction
      and a decoded non-object (whose `.get` raises inside the `try`) all
      land in the `except` branch. */
  function Classification(out: Generation, decode: Decoder): (d: map<string, Json>)
    ensures d != FallbackData ==>
      out.Generated? && ExtractFirstJsonBlock(out.text, decode) == Success(JObj(d))
    ensures (out.Generated? && ExtractFirstJsonBlock(out.text, decode).Success?
             && ExtractFirstJsonBlock(out.text, decode).value.JObj?) ==>
      d == ExtractFirstJsonBlock(out.text, decode).value.fields
  {
    match out
    case GenerationFailed(_) => FallbackData
    case Generated(text) =>
      match ExtractFirstJsonBlock(text, decode)
      case Success(JObj(m)) => m
      case _ => FallbackData
  }

  /** `PrimaryRoute(intent=data.get("intent", ...), response=data.get("response", ""))`:
      validation accepts strings only and raises otherwise. */
  function RouteOf(data: map<string, Json>): (r: Result<Route, string>)
    ensures var i, p := GetOr(data, "intent", JStr(FallbackIntent)), GetOr(data, "response", JStr(""));
      (r.Success? <==> i.JStr? && p.JStr?)
      && (r.Success? ==> r.value == Route(i.s, p.s, DefaultConfidence))
    ensures r.Failure? ==> r.error == "ValidationError"
  {
    match (GetOr(data, "intent", JStr(FallbackIntent)), GetOr(data, "response", JStr("")))
    case (JStr(i), JStr(p)) => Success(Route(i, p, DefaultConfidence))
    case _ => Failure("ValidationError")
  }

  /** The state after routing: intent, route and response overwritten, and
      the response added to the memory only when there is a memory and the
      response is non-empty. */
  function Routed(s: TurnState, route: Route): (r: TurnState)
    ensures r.intent == Some(route.intent) && r.primary == Some(route) && r.response == Some(JStr(route.response))
    ensures r.memory == if s.memory.Some? && route.response != "" then Some(AddAi(s.memory.value, route.response)) else s.memory
    ensures r == s.(intent := r.intent, primary := r.primary, response := r.response, memory := r.memory)
  {
    var t := s.(intent := Some(route.intent), primary := Some(route), response := Some(JStr(route.response)));
    if route.response != "" then Remember(t, route.response) else t
  }

  /** `run_primary`: the route comes from the model when its reply holds a
      JSON object, from the fallback otherwise; a route field that is not a
      string raises out of the handler. */
  function RunPrimary(s: TurnState, llm: Generate, decode: Decoder, render: Render): (r: Result<TurnState, string>)
    ensures var data := Classification(llm(render(History(s), s.query)), decode);
      (r.Success? <==> RouteOf(data).Success?)
      && (r.Success? ==> r.value == Routed(s, RouteOf(data).value))
  {
    var data := Classification(llm(render(History(s), s.query)), decode);
    match RouteOf(data)
    case Failure(e) => Failure(e)
    case Success(route) => Success(Routed(s, route))
  }

  /** The prompt the router sends. */
  function PromptOf(s: TurnState, render: Render): string {
    render(History(s), s.query)
  }

  /** A generation that raises, a reply without a readable block, or a
      block that is not an object: the turn is routed to clarification
      with the fixed apology, which is remembered. */
  lemma FailureRoutesToClarify(s: TurnState, llm: Generate, decode: Decoder, render: Render)
    requires var out := llm(PromptOf(s, render));
      out.GenerationFailed? || ExtractFirstJsonBlock(out.text, decode).Failure?
      || !ExtractFirstJsonBlock(out.text, decode).value.JObj?
    ensures RunPrimary(s, llm, decode, render)
      == Success(Routed(s, Route(FallbackIntent, FallbackResponse, DefaultConfidence)))
    ensures var r := RunPrimary(s, llm, decode, render).value;
      r.intent == Some(FallbackIntent) && r.response == Some(JStr(FallbackResponse))
      && (s.memory.Some? ==> r.memory == Some(AddAi(s.memory.value, FallbackResponse)))
  {
    assert Classification(llm(PromptOf(s, render)), decode) == FallbackData;
  }

  /** An object without the two keys gives the default intent and an empty
      response, which leaves the memory alone. */
  lemma MissingFieldsDefault(s: TurnState, llm: Generate, decode: Decoder, render: Render, data: map<string, Json>)
    requires llm(PromptOf(s, render)).Generated?
    requires ExtractFirstJsonBlock(llm(PromptOf(s, render)).text, decode) == Success(JObj(data))
    requires "intent" !in data && "response" !in data
    ensures var r := RunPrimary(s, llm, decode, render);
      r.Success? && r.value.intent == Some(FallbackIntent) && r.value.response == Some(JStr(""))
      && r.value.memory == s.memory
  {
  }

  /** String fields are taken as the model gave them. */
  lemma ModelRouteTaken(s: TurnState, llm: Generate, decode: Decoder, render: Render,
                        data: map<string, Json>, intent: string, response: string)
    requires llm(PromptOf(s, render)).Generated?
    requires ExtractFirstJsonBlock(llm(PromptOf(s, render)).text, decode) == Success(JObj(data))
    requires "intent" in data && data["intent"] == JStr(intent)
    requires "response" in data && data["response"] == JStr(response)
    ensures var r := RunPrimary(s, llm, decode, render);
      r.Success? && r.value.intent == Some(intent) && r.value.primary == Some(Route(intent, response, DefaultConfidence))
  {
  }

  /** A non-string intent or response in an object is not caught: the
      handler raises. */
  lemma NonStringFieldRaises(s: TurnState, llm: Generate, decode: Decoder, render: Render, data: map<string, Json>)
    requires llm(PromptOf(s, render)).Generated?
    requires ExtractFirstJsonBlock(llm(PromptOf(s, render)).text, decode) == Success(JObj(data))
    requires ("intent" in data && !data["intent"].JStr?) || ("response" in data && !data["response"].JStr?)
    ensures RunPrimary(s, llm, decode, render) == Failure("ValidationError")
  {
  }
}

=== FILE: rag_store.dfy ===
/** The text-processing parts of the retrieval store: chunking a document,
    splitting the glob setting, de-duplicating the matched files, naming
    the chunks, and turning the nearest-neighbour hits into ranked
    results. Reading files, expanding globs, embedding and the vector
    index are left abstract (see the README). */
module RagStore {
  import opened Wrappers
  import opened Text
  import opened Json

  // ---- chunking ----

  /** `max(1, chunk_size - overlap)`. */
  function Step(size: int, overlap: int): (r: nat)
    ensures r >= 1
  {
    if size - overlap < 1 then 1 else size - overlap
  }

  /** How many starts `0, step, 2*step, ...` lie below `n`: `ceil(n / step)`
      written without division. */
  function Starts(n: int, step: nat): nat
    requires step >= 1
    decreases n
  {
    if n <= 0 then 0 else 1 + Starts(n - step, step)
  }

  /** The start of chunk `k`: `k` steps in. */
  function ChunkStart(k: nat, step: nat): nat {
    k * step
  }

  lemma NextChunkStart(k: nat, step: nat)
    ensures ChunkStart(k + 1, step) == ChunkStart(k, step) + step
  {
    assert (k + 1) * step == k * step + step;
  }

  /** The count is the rounded-up quotient: the last start lies below `n`
      and one more step would reach it. */
  lemma {:induction false} StartsIsCeiling(n: nat, step: nat)
    requires step >= 1 && n >= 1
    ensures var c := Starts(n, step);
      c >= 1 && ChunkStart(c - 1, step) < n <= ChunkStart(c, step)
    decreases n
  {
    if n - step > 0 {
      StartsIsCeiling(n - step, step);
      var c := Starts(n - step, step);
      NextChunkStart(c - 1, step);
      NextChunkStart(c, step);
    }
  }

  /** The loop of `_chunk_text` from chunk `k` on: the slice `size` long at
      each start below the end of the text. */
  function ChunksFrom(t: string, size: int, step: nat, k: nat): (r: seq<string>)
    requires step >= 1
    ensures |r| == Starts(|t| - ChunkStart(k, step), step)
    decreases |t| - ChunkStart(k, step)
  {
    var s := ChunkStart(k, step);
    if s >= |t| then []
    else
      NextChunkStart(k, step);
      [Slice(t, s, s + size)] + ChunksFrom(t, size, step, k + 1)
  }

  /** Chunk `k` is the slice at the `k`-th start, which is inside the text. */
  lemma {:induction false} ChunkAt(t: string, size: int, step: nat, k0: nat, k: nat)
    requires step >= 1 && k0 <= k < k0 + |ChunksFrom(t, size, step, k0)|
    ensures ChunkStart(k, step) < |t|
    ensures ChunksFrom(t, size, step, k0)[k - k0] == Slice(t, ChunkStart(k, step), ChunkStart(k, step) + size)
    decreases k - k0
  {
    var r := ChunksFrom(t, size, step, k0);
    var rest := ChunksFrom(t, size, step, k0 + 1);
    assert ChunkStart(k0, step) < |t|;
    assert r == [Slice(t, ChunkStart(k0, step), ChunkStart(k0, step) + size)] + rest;
    if k > k0 {
      assert r[k - k0] == rest[k - (k0 + 1)];
      ChunkAt(t, size, step, k0 + 1, k);
    }
  }

  /** `_chunk_text`. */
  function ChunkText(text: string, size: int, overlap: int): (r: seq<string>)
    ensures Strip(text) == "" ==> r == []
    ensures |r| == Starts(|Strip(text)|, Step(size, overlap))
  {
    var t := Strip(text);
    if t == "" then []
    else ChunksFrom(t, size, Step(size, overlap), 0)
  }

  /** Chunk `k` is the Python slice of the stripped text at the `k`-th
      start; with a positive size it is non-empty and no longer than the
      size. */
  lemma ChunkTextAt(text: string, size: int, overlap: int, k: nat)
    requires k < |ChunkText(text, size, overlap)|
    ensures var t, s := Strip(text), ChunkStart(k, Step(size, overlap));
      s < |t| && ChunkText(text, size, overlap)[k] == Slice(t, s, s + size)
    ensures size >= 1 ==> 1 <= |ChunkText(text, size, overlap)[k]| <= size
  {
    var t, step := Strip(text), Step(size, overlap);
    assert ChunkText(text, size, overlap) == ChunksFrom(t, size, step, 0);
    ChunkAt(t, size, step, 0, k);
    if size >= 1 {
      SliceInside(t, ChunkStart(k, step), size);
    }
  }

  /** A slice of positive length starting inside the text is non-empty and
      no longer than asked. */
  lemma SliceInside(t: string, s: nat, size: int)
    requires s < |t| && size >= 1
    ensures 1 <= |Slice(t, s, s + size)| <= size
  {
  }

  /** With a step no longer than a chunk, every position from the `k0`-th
      start on lies in some chunk. */
  lemma {:induction false} ChunksCover(t: string, size: int, step: nat, k0: nat, j: nat)
    requires 1 <= step <= size && ChunkStart(k0, step) <= j < |t|
    ensures exists k :: (k0 <= k < k0 + |ChunksFrom(t, size, step, k0)|
                         && ChunkStart(k, step) <= j < ChunkStart(k, step) + size)
    decreases |t| - ChunkStart(k0, step)
  {
    var r := ChunksFrom(t, size, step, k0);
    NextChunkStart(k0, step);
    assert r == [Slice(t, ChunkStart(k0, step), ChunkStart(k0, step) + size)] + ChunksFrom(t, size, step, k0 + 1);
    if j >= ChunkStart(k0 + 1, step) {
      ChunksCover(t, size, step, k0 + 1, j);
    }
  }

  /** Every character of a non-blank document is covered when the overlap
      is non-negative and smaller than the chunk size. */
  lemma ChunkTextCovers(text: string, size: int, overlap: int, j: nat)
    requires 0 <= overlap < size && j < |Strip(text)|
    ensures exists k :: (0 <= k < |ChunkText(text, size, overlap)|
                         && ChunkStart(k, Step(size, overlap)) <= j < ChunkStart(k, Step(size, overlap)) + size)
  {
    var step := Step(size, overlap);
    assert step == size - overlap;
    ChunksCover(Strip(text), size, step, 0, j);
    assert ChunkText(text, size, overlap) == ChunksFrom(Strip(text), size, step, 0);
  }

  // ---- the glob setting ----

  /** The stripped non-empty items, in order. */
  function NonEmptyStripped(parts: seq<string>): (r: seq<string>)
    ensures forall k :: 0 <= k < |r| ==> r[k] != "" && Strip(r[k]) == r[k]
    decreases |parts|
  {
    if parts == [] then []
    else
      StripIdempotent(parts[0]);
      var rest := NonEmptyStripped(parts[1..]);
      if Strip(parts[0]) == "" then rest else [Strip(parts[0])] + rest
  }

  /** A character no part holds is in no item. */
  lemma {:induction false} NonEmptyStrippedAvoids(parts: seq<string>, c: char)
    requires forall k :: 0 <= k < |parts| ==> c !in parts[k]
    ensures forall k :: 0 <= k < |NonEmptyStripped(parts)| ==> c !in NonEmptyStripped(parts)[k]
    decreases |parts|
  {
    if parts != [] {
      NonEmptyStrippedAvoids(parts[1..], c);
      StripIsInside(parts[0]);
    }
  }

  /** A character the text lacks is in none of its pieces. */
  lemma {:induction false} SplitAvoids(s: string, sep: char, c: char)
    requires c !in s
    ensures forall k :: 0 <= k < |Split(s, sep)| ==> c !in Split(s, sep)[k]
    decreases |s|
  {
    var i := Find(s, sep);
    if i != -1 {
      SplitAvoids(s[i + 1..], sep, c);
    }
  }

  /** `_split_globs`: commas count as semicolons; items are stripped and
      empty ones dropped. */
  function SplitGlobs(spec: string): (r: seq<string>)
    ensures forall k :: 0 <= k < |r| ==> r[k] != "" && Strip(r[k]) == r[k] && ';' !in r[k] && ',' !in r[k]
  {
    var joined := ReplaceChar(spec, ',', ';');
    var parts := Split(joined, ';');
    SplitAvoids(joined, ';', ',');
    NonEmptyStrippedAvoids(parts, ',');
    NonEmptyStrippedAvoids(parts, ';');
    NonEmptyStripped(parts)
  }

  /** Every character of the strip comes from the text. */
  lemma StripIsInside(p: string)
    ensures forall c :: c in Strip(p) ==> c in p
  {
    var a := StripStart(p);
    forall c | c in Strip(p) ensures c in p {
      var i :| 0 <= i < |Strip(p)| && Strip(p)[i] == c;
      assert p[a + i] == c;
    }
  }

  /** Items that are already clean are kept as they are. */
  lemma {:induction false} CleanItemsKept(items: seq<string>)
    requires forall k :: 0 <= k < |items| ==> items[k] != "" && Strip(items[k]) == items[k]
    ensures NonEmptyStripped(items) == items
    decreases |items|
  {
    if items != [] {
      CleanItemsKept(items[1..]);
      assert [items[0]] + items[1..] == items;
    }
  }

  /** Clean glob items written with `;` or with `,` between them split
      back into the same items. */
  lemma SplitGlobsJoin(items: seq<string>)
    requires |items| >= 1
    requires forall k :: 0 <= k < |items| ==>
      items[k] != "" && Strip(items[k]) == items[k] && ';' !in items[k] && ',' !in items[k]
    ensures SplitGlobs(Join(items, ";")) == items
    ensures SplitGlobs(Join(items, ",")) == items
  {
    NoCommaJoin(items, ';');
    assert ReplaceChar(Join(items, ";"), ',', ';') == Join(items, ";");
    SplitJoin(items, ';');
    CleanItemsKept(items);
    CommaJoinReplaced(items);
  }

  lemma {:induction false} NoCommaJoin(items: seq<string>, sep: char)
    requires sep != ','
    requires forall k :: 0 <= k < |items| ==> ',' !in items[k]
    ensures ',' !in Join(items, [sep])
    decreases |items|
  {
    if |items| > 1 {
      NoCommaJoin(items[1..], sep);
    }
  }

  /** Replacing the commas of a comma-joined list gives the `;`-joined one. */
  lemma {:induction false} CommaJoinReplaced(items: seq<string>)
    requires forall k :: 0 <= k < |items| ==> ',' !in items[k]
    ensures ReplaceChar(Join(items, ","), ',', ';') == Join(items, ";")
    decreases |items|
  {
    if |items| == 1 {
      NoCommaUnchanged(items[0]);
    } else if |items| > 1 {
      CommaJoinReplaced(items[1..]);
      NoCommaUnchanged(items[0]);
      ReplaceAround(items[0], Join(items[1..], ","));
    }
  }

  lemma NoCommaUnchanged(a: string)
    requires ',' !in a
    ensures ReplaceChar(a, ',', ';') == a
  {
  }

  lemma ReplaceAround(a: string, b: string)
    ensures ReplaceChar(a + "," + b, ',', ';') == ReplaceChar(a, ',', ';') + ";" + ReplaceChar(b, ',', ';')
  {
    var l, r := ReplaceChar(a + "," + b, ',', ';'), ReplaceChar(a, ',', ';') + ";" + ReplaceChar(b, ',', ';');
    assert |l| == |r|;
    forall k | 0 <= k < |l| ensures l[k] == r[k] {
      if k < |a| {
      } else if k == |a| {
      } else {
        assert (a + "," + b)[k] == b[k - |a| - 1];
      }
    }
  }

  // ---- de-duplication of the matched files ----

  /** The elements of a sequence. */
  function Elems(xs: seq<string>): set<string> {
    set x | x in xs
  }

  /** The de-duplicating loop of `_collect_files`, with `seen` the paths
      already kept. */
  function DedupFrom(paths: seq<string>, seen: set<string>): seq<string>
    decreases |paths|
  {
    if paths == [] then []
    else if paths[0] in seen then DedupFrom(paths[1..], seen)
    else [paths[0]] + DedupFrom(paths[1..], seen + {paths[0]})
  }

  /** The loop keeps the unseen paths, each once, in their order. */
  lemma {:induction false} DedupFromKeeps(paths: seq<string>, seen: set<string>)
    ensures var r := DedupFrom(paths, seen);
      (forall x :: x in r <==> x in paths && x !in seen)
      && (forall i, j :: 0 <= i < j < |r| ==> r[i] != r[j])
      && IsSubseq(r, paths)
    decreases |paths|
  {
    if paths != [] {
      var p := paths[0];
      assert forall x :: x in paths <==> x == p || x in paths[1..];
      assert [p] + paths[1..] == paths;
      if p in seen {
        DedupFromKeeps(paths[1..], seen);
        SubseqCons(DedupFrom(paths[1..], seen), paths[1..], p, false);
      } else {
        DedupFromKeeps(paths[1..], seen + {p});
        SubseqCons(DedupFrom(paths[1..], seen + {p}), paths[1..], p, true);
      }
    }
  }

  /** The order-preserving de-duplication. */
  function Dedup(paths: seq<string>): (r: seq<string>)
    ensures forall x :: x in r <==> x in paths
    ensures forall i, j :: 0 <= i < j < |r| ==> r[i] != r[j]
    ensures IsSubseq(r, paths)
  {
    DedupFromKeeps(paths, {});
    DedupFrom(paths, {})
  }

  /** A reference definition: each element at the position where it first
      occurs, built from the back. */
  function FirstOccurrences(paths: seq<string>): seq<string>
    decreases |paths|
  {
    if paths == [] then []
    else
      var init, last := paths[..|paths| - 1], paths[|paths| - 1];
      FirstOccurrences(init) + (if last in init then [] else [last])
  }

  /** The loop keeps exactly the first occurrences, in order. */
  lemma DedupKeepsFirstOccurrences(paths: seq<string>)
    ensures Dedup(paths) == FirstOccurrences(paths)
  {
    DedupAfter([], paths);
    assert [] + paths == paths;
    assert Elems([]) == {};
    assert FirstOccurrences([]) + Dedup(paths) == Dedup(paths);
  }

  lemma {:induction false} DedupAfter(a: seq<string>, b: seq<string>)
    ensures FirstOccurrences(a + b) == FirstOccurrences(a) + DedupFrom(b, Elems(a))
    decreases |b|
  {
    if b == [] {
      assert a + b == a;
    } else {
      var x := b[0];
      var added := if x in a then [] else [x];
      DedupAfter(a + [x], b[1..]);
      MoveFirst(a, b);
      FirstOccurrencesSnoc(a, x);
      DedupStep(b, a);
      Associate(FirstOccurrences(a), added, DedupFrom(b[1..], Elems(a + [x])));
    }
  }

  lemma MoveFirst(a: seq<string>, b: seq<string>)
    requires b != []
    ensures (a + [b[0]]) + b[1..] == a + b
  {
  }

  lemma Associate(p: seq<string>, q: seq<string>, r: seq<string>)
    ensures p + q + r == p + (q + r)
  {
  }

  lemma FirstOccurrencesSnoc(a: seq<string>, x: string)
    ensures FirstOccurrences(a + [x]) == FirstOccurrences(a) + (if x in a then [] else [x])
  {
    var a' := a + [x];
    assert a'[..|a'| - 1] == a && a'[|a'| - 1] == x;
  }

  /** One step of the loop, with the kept paths so far as `a`. */
  lemma DedupStep(b: seq<string>, a: seq<string>)
    requires b != []
    ensures DedupFrom(b, Elems(a)) == (if b[0] in a then [] else [b[0]]) + DedupFrom(b[1..], Elems(a + [b[0]]))
  {
    var x := b[0];
    assert Elems(a + [x]) == Elems(a) + {x};
    if x in a {
      assert Elems(a) + {x} == Elems(a);
      assert [] + DedupFrom(b[1..], Elems(a)) == DedupFrom(b[1..], Elems(a));
    }
  }

  /** A list without repeats is left as it is. */
  lemma {:induction false} DedupDistinct(paths: seq<string>, seen: set<string>)
    requires forall i, j :: 0 <= i < j < |paths| ==> paths[i] != paths[j]
    requires forall x :: x in paths ==> x !in seen
    ensures DedupFrom(paths, seen) == paths
    decreases |paths|
  {
    if paths != [] {
      var p := paths[0];
      assert forall x :: x in paths[1..] ==> x in paths && x != p;
      DedupDistinct(paths[1..], seen + {p});
      assert [p] + paths[1..] == paths;
    }
  }

  /** The matches of each pattern, in pattern order. `files` stands for
      `glob.glob(..., recursive=True)` filtered by `os.path.isfile`. */
  function MatchAll(pats: seq<string>, files: string -> seq<string>): seq<string>
    decreases |pats|
  {
    if pats == [] then [] else files(pats[0]) + MatchAll(pats[1..], files)
  }

  /** A path is matched exactly when some pattern matches it. */
  lemma {:induction false} MatchAllHas(pats: seq<string>, files: string -> seq<string>, x: string)
    ensures x in MatchAll(pats, files) <==> exists pat :: pat in pats && x in files(pat)
    decreases |pats|
  {
    if pats != [] {
      MatchAllHas(pats[1..], files, x);
      assert forall pat :: pat in pats <==> pat == pats[0] || pat in pats[1..];
    }
  }

  /** `_collect_files`: the matched paths without repeats, each where it
      first turned up. */
  function CollectFiles(spec: string, files: string -> seq<string>): (r: seq<string>)
    ensures forall i, j :: 0 <= i < j < |r| ==> r[i] != r[j]
    ensures r == FirstOccurrences(MatchAll(SplitGlobs(spec), files))
  {
    DedupKeepsFirstOccurrences(MatchAll(SplitGlobs(spec), files));
    Dedup(MatchAll(SplitGlobs(spec), files))
  }

  /** The collected paths are exactly those some pattern of the setting
      matches. */
  lemma CollectFilesFinds(spec: string, files: string -> seq<string>, x: string)
    ensures x in CollectFiles(spec, files) <==> exists pat :: pat in SplitGlobs(spec) && x in files(pat)
  {
    MatchAllHas(SplitGlobs(spec), files, x);
  }

  // ---- chunk ids ----

  /** `f"{path}#chunk_{i}"`. */
  function ChunkId(path: string, i: nat): string {
    path + "#chunk_" + NatToString(i)
  }

  /** The path part of an id: everything before its last `#`. */
  function PathOfId(id: string): string {
    var k := RFind(id, '#');
    if k == -1 then id else id[..k]
  }

  /** The path can be read back from a chunk id, whatever the path holds. */
  lemma PathOfChunkId(path: string, i: nat)
    ensures PathOfId(ChunkId(path, i)) == path
  {
    var id := ChunkId(path, i);
    var d := NatToString(i);
    assert id == path + ("#chunk_" + d);
    assert id[|path|] == '#';
    forall k | |path| < k < |id| ensures id[k] != '#' {
      if k >= |path| + 7 {
        assert id[k] == d[k - |path| - 7];
      }
    }
    RFindIs(id, '#', |path|);
    assert id[..|path|] == path;
  }

  /** Different (path, index) pairs get different ids. */
  lemma ChunkIdInjective(p: string, i: nat, q: string, j: nat)
    requires ChunkId(p, i) == ChunkId(q, j)
    ensures p == q && i == j
  {
    PathOfChunkId(p, i);
    PathOfChunkId(q, j);
    var id := ChunkId(p, i);
    assert id[|p| + 7..] == NatToString(i);
    assert id[|q| + 7..] == NatToString(j);
    NatToStringInjective(i, j);
  }

  /** One entry of the document list (`id`, `title`, `path`, `chunk`). */
  datatype Doc = Doc(id: string, title: string, path: string, chunk: string)

  /** `os.path.basename`: the text after the last `/`. */
  function Basename(path: string): string {
    var k := RFind(path, '/');
    path[k + 1..]
  }

  /** The entries of one file: its chunks, numbered from 0, stripped. */
  function FileDocs(path: string, text: string, size: int, overlap: int): (r: seq<Doc>)
    ensures |r| == |ChunkText(text, size, overlap)|
    ensures forall i :: 0 <= i < |r| ==>
      r[i] == Doc(ChunkId(path, i), Basename(path), path, Strip(ChunkText(text, size, overlap)[i]))
  {
    var chunks := ChunkText(text, size, overlap);
    seq(|chunks|, i requires 0 <= i < |chunks| => Doc(ChunkId(path, i), Basename(path), path, Strip(chunks[i])))
  }

  /** The entries a file contributes; a blank file contributes none.
      `read` stands for `_read_text`. */
  function OwnDocs(path: string, read: string -> string, size: int, overlap: int): seq<Doc> {
    if IsBlank(read(path)) then [] else FileDocs(path, read(path), size, overlap)
  }

  function Owner(read: string -> string, size: int, overlap: int): string -> seq<Doc> {
    p => OwnDocs(p, read, size, overlap)
  }

  /** Each file's entries are numbered from 0 under that file's path. */
  ghost predicate Numbered(own: string -> seq<Doc>) {
    forall p, i :: 0 <= i < |own(p)| ==> own(p)[i].path == p && own(p)[i].id == ChunkId(p, i)
  }

  lemma OwnerNumbered(read: string -> string, size: int, overlap: int)
    ensures Numbered(Owner(read, size, overlap))
  {
  }

  /** The files' entries, concatenated in file order. */
  function DocsOf(paths: seq<string>, own: string -> seq<Doc>): seq<Doc>
    decreases |paths|
  {
    if paths == [] then [] else own(paths[0]) + DocsOf(paths[1..], own)
  }

  /** The document list of `build_index`. */
  function BuildDocs(paths: seq<string>, read: string -> string, size: int, overlap: int): seq<Doc> {
    DocsOf(paths, Owner(read, size, overlap))
  }

  /** Every entry comes from one of the paths, and its id leads back to it. */
  predicate FromPaths(docs: seq<Doc>, paths: seq<string>) {
    forall n :: 0 <= n < |docs| ==> docs[n].path in paths && PathOfId(docs[n].id) == docs[n].path
  }

  /** No two entries share an id. */
  predicate IdsDistinct(docs: seq<Doc>) {
    forall a, b :: 0 <= a < b < |docs| ==> docs[a].id != docs[b].id
  }

  lemma {:induction false} DocsFromPaths(paths: seq<string>, own: string -> seq<Doc>)
    requires Numbered(own)
    ensures FromPaths(DocsOf(paths, own), paths)
    decreases |paths|
  {
    if paths != [] {
      var first, rest := own(paths[0]), DocsOf(paths[1..], own);
      DocsFromPaths(paths[1..], own);
      var docs := DocsOf(paths, own);
      assert docs == first + rest;
      forall n | 0 <= n < |docs| ensures docs[n].path in paths && PathOfId(docs[n].id) == docs[n].path {
        if n < |first| {
          assert docs[n] == first[n];
          PathOfChunkId(paths[0], n);
        } else {
          assert docs[n] == rest[n - |first|];
          assert rest[n - |first|].path in paths[1..];
        }
      }
    }
  }

  /** With paths that do not repeat, every chunk id is different. */
  lemma {:induction false} DocIdsDistinct(paths: seq<string>, own: string -> seq<Doc>)
    requires Numbered(own)
    requires forall i, j :: 0 <= i < j < |paths| ==> paths[i] != paths[j]
    ensures IdsDistinct(DocsOf(paths, own))
    decreases |paths|
  {
    if paths != [] {
      var p := paths[0];
      var first, rest := own(p), DocsOf(paths[1..], own);
      var docs := DocsOf(paths, own);
      assert docs == first + rest;
      assert forall i, j :: 0 <= i < j < |paths[1..]| ==> paths[1..][i] != paths[1..][j];
      assert p !in paths[1..];
      DocIdsDistinct(paths[1..], own);
      DocsFromPaths(paths[1..], own);
      forall a, b | 0 <= a < b < |docs| ensures docs[a].id != docs[b].id {
        if b < |first| {
          assert docs[a] == first[a] && docs[b] == first[b];
          if docs[a].id == docs[b].id {
            ChunkIdInjective(p, a, p, b);
          }
        } else if a < |first| {
          PathOfChunkId(p, a);
          assert docs[a] == first[a];
          assert docs[b] == rest[b - |first|];
          assert rest[b - |first|].path in paths[1..];
        } else {
          assert docs[a] == rest[a - |first|] && docs[b] == rest[b - |first|];
        }
      }
    }
  }

  /** `build_index` on a fresh build: the documents and their ids, in the
      same order. */
  function BuildIndex(paths: seq<string>, read: string -> string, size: int, overlap: int): (r: (seq<Doc>, seq<string>))
    ensures r.0 == BuildDocs(paths, read, size, overlap)
    ensures |r.1| == |r.0|
    ensures forall i :: 0 <= i < |r.0| ==> r.1[i] == r.0[i].id
  {
    var docs := BuildDocs(paths, read, size, overlap);
    (docs, seq(|docs|, i requires 0 <= i < |docs| => docs[i].id))
  }

  /** An index built over the collected files has one id per chunk: no
      id repeats, and each names a collected file. */
  lemma IndexIdsDistinct(spec: string, files: string -> seq<string>, read: string -> string, size: int, overlap: int)
    ensures var paths := CollectFiles(spec, files);
      var ids := BuildIndex(paths, read, size, overlap).1;
      forall a, b :: 0 <= a < b < |ids| ==> ids[a] != ids[b]
    ensures var paths := CollectFiles(spec, files);
      FromPaths(BuildIndex(paths, read, size, overlap).0, paths)
  {
    var paths := CollectFiles(spec, files);
    OwnerNumbered(read, size, overlap);
    DocIdsDistinct(paths, Owner(read, size, overlap));
    DocsFromPaths(paths, Owner(read, size, overlap));
  }

  // ---- ranking the hits ----

  /** One neighbour the index returned: a position into the metadata (or
      -1 when it had too few) and its score. */
  datatype Hit = Hit(index: int, score: real)

  /** One search result. */
  datatype SearchResult = SearchResult(rank: nat, score: real, title: Json, path: Json, chunk: Json, id: Json)

  predicate InRange(h: Hit, metas: seq<map<string, Json>>) {
    0 <= h.index < |metas|
  }

  function ResultOf(rank: nat, h: Hit, metas: seq<map<string, Json>>): SearchResult
    requires InRange(h, metas)
  {
    var m := metas[h.index];
    SearchResult(rank, h.score, Get(m, "title"), Get(m, "path"), Get(m, "chunk"), Get(m, "id"))
  }

  /** The result loop of `search`, ranks counted from `first`: hits outside
      the metadata are skipped, and a kept hit's rank is its position. */
  function Rank(hits: seq<Hit>, metas: seq<map<string, Json>>, first: nat): seq<SearchResult>
    decreases |hits|
  {
    if hits == [] then []
    else if InRange(hits[0], metas) then [ResultOf(first, hits[0], metas)] + Rank(hits[1..], metas, first + 1)
    else Rank(hits[1..], metas, first + 1)
  }

  /** Each result is the hit at its rank. */
  predicate RankedFrom(out: seq<SearchResult>, hits: seq<Hit>, metas: seq<map<string, Json>>, first: nat) {
    forall j :: 0 <= j < |out| ==>
      first <= out[j].rank < first + |hits| && InRange(hits[out[j].rank - first], metas)
      && out[j] == ResultOf(out[j].rank, hits[out[j].rank - first], metas)
  }

  /** Ranks go up. */
  predicate Ascending(out: seq<SearchResult>) {
    forall j, j' :: 0 <= j < j' < |out| ==> out[j].rank < out[j'].rank
  }

  lemma {:induction false} RankSound(hits: seq<Hit>, metas: seq<map<string, Json>>, first: nat)
    ensures RankedFrom(Rank(hits, metas, first), hits, metas, first)
    decreases |hits|
  {
    if hits != [] {
      RankSound(hits[1..], metas, first + 1);
      var rest := Rank(hits[1..], metas, first + 1);
      var out := Rank(hits, metas, first);
      forall j | 0 <= j < |rest|
        ensures first < rest[j].rank < first + |hits|
        ensures hits[rest[j].rank - first] == hits[1..][rest[j].rank - (first + 1)]
      {
      }
      if InRange(hits[0], metas) {
        assert out == [ResultOf(first, hits[0], metas)] + rest;
        assert forall j :: 1 <= j < |out| ==> out[j] == rest[j - 1];
      } else {
        assert out == rest;
      }
    }
  }

  /** Every rank lies in `[lo, hi)`. */
  predicate RanksWithin(out: seq<SearchResult>, lo: nat, hi: nat) {
    forall j :: 0 <= j < |out| ==> lo <= out[j].rank < hi
  }

  lemma {:induction false} RankWithin(hits: seq<Hit>, metas: seq<map<string, Json>>, first: nat)
    ensures RanksWithin(Rank(hits, metas, first), first, first + |hits|)
    decreases |hits|
  {
    if hits != [] {
      RankWithin(hits[1..], metas, first + 1);
      var rest := Rank(hits[1..], metas, first + 1);
      var out := Rank(hits, metas, first);
      if InRange(hits[0], metas) {
        assert out == [ResultOf(first, hits[0], metas)] + rest;
        assert forall j :: 1 <= j < |out| ==> out[j] == rest[j - 1];
      } else {
        assert out == rest;
      }
    }
  }

  lemma {:induction false} RankAscending(hits: seq<Hit>, metas: seq<map<string, Json>>, first: nat)
    ensures Ascending(Rank(hits, metas, first))
    decreases |hits|
  {
    if hits != [] {
      RankAscending(hits[1..], metas, first + 1);
      RankWithin(hits[1..], metas, first + 1);
      var rest := Rank(hits[1..], metas, first + 1);
      var out := Rank(hits, metas, first);
      if InRange(hits[0], metas) {
        assert out == [ResultOf(first, hits[0], metas)] + rest;
        forall j, j' | 0 <= j < j' < |out| ensures out[j].rank < out[j'].rank {
          assert out[j'] == rest[j' - 1];
          if j > 0 {
            assert out[j] == rest[j - 1];
          }
        }
      } else {
        assert out == rest;
      }
    }
  }

  /** Every hit inside the metadata appears, at its own rank. */
  lemma {:induction false} RankComplete(hits: seq<Hit>, metas: seq<map<string, Json>>, first: nat, i: nat)
    requires i < |hits| && InRange(hits[i], metas)
    ensures exists j :: 0 <= j < |Rank(hits, metas, first)| && Rank(hits, metas, first)[j].rank == first + i
    decreases |hits|
  {
    var rest := Rank(hits[1..], metas, first + 1);
    if i == 0 {
      assert Rank(hits, metas, first)[0].rank == first;
    } else {
      assert hits[1..][i - 1] == hits[i];
      RankComplete(hits[1..], metas, first + 1, i - 1);
      var j :| 0 <= j < |rest| && rest[j].rank == first + 1 + (i - 1);
      if InRange(hits[0], metas) {
        assert Rank(hits, metas, first)[j + 1] == rest[j];
      } else {
        assert Rank(hits, metas, first) == rest;
      }
    }
  }

  /** What `search` promises of its results, ranks counted from 1. */
  predicate SearchPromise(out: seq<SearchResult>, hits: seq<Hit>, metas: seq<map<string, Json>>) {
    && RanksWithin(out, 1, |hits| + 1)
    && Ascending(out)
    && RankedFrom(out, hits, metas, 1)
    && forall i :: 0 <= i < |hits| && InRange(hits[i], metas) ==>
         exists j :: 0 <= j < |out| && out[j].rank == i + 1
  }

  lemma RankKeepsPromise(hits: seq<Hit>, metas: seq<map<string, Json>>)
    ensures SearchPromise(Rank(hits, metas, 1), hits, metas)
  {
    RankWithin(hits, metas, 1);
    RankAscending(hits, metas, 1);
    RankSound(hits, metas, 1);
    forall i | 0 <= i < |hits| && InRange(hits[i], metas)
      ensures exists j :: 0 <= j < |Rank(hits, metas, 1)| && Rank(hits, metas, 1)[j].rank == i + 1
    {
      RankComplete(hits, metas, 1, i);
    }
  }

  /** `search` once the index has answered: ranks start at 1 and go up;
      the result at rank `k` is the `k`-th hit with its metadata, and every
      hit inside the metadata has a result. */
  function Search(hits: seq<Hit>, metas: seq<map<string, Json>>): (out: seq<SearchResult>)
    ensures forall j :: 0 <= j < |out| ==> 1 <= out[j].rank <= |hits|
    ensures forall j, j' :: 0 <= j < j' < |out| ==> out[j].rank < out[j'].rank
    ensures SearchPromise(out, hits, metas)
  {
    RankKeepsPromise(hits, metas);
    Rank(hits, metas, 1)
  }
}

=== FILE: react_agent.dfy ===
/** The free-text Action/Observation agent (`Reactor`): the tool registry,
    the three line patterns it scrapes out of model text (`Action:`,
    `Action Input:`, `Final:`), and its bounded loop. The patterns are
    modelled character by character as Python's `re` runs them (`\s` is the
    `str.isspace` set, letter case is folded for ASCII letters). */
module React {
  import opened Wrappers
  import opened Text
  import opened Json
  import opened Base
  import opened ToolLoop

  // ---- scanning primitives ----

  /** The end of the line holding index `i`: the next newline, or `|s|`. */
  function LineEnd(s: string, i: nat): (r: nat)
    requires i <= |s|
    ensures i <= r <= |s|
    ensures forall k :: i <= k < r ==> s[k] != '\n'
    ensures r == |s| || s[r] == '\n'
    decreases |s| - i
  {
    if i < |s| && s[i] != '\n' then LineEnd(s, i + 1) else i
  }

  /** Where `^` matches in multi-line mode: the start, or just after a newline. */
  predicate IsLineStart(s: string, q: nat) {
    q == 0 || (0 < q <= |s| && s[q - 1] == '\n')
  }

  /** `word` (lower-case ASCII) written at index `i` in any letter case. */
  predicate WordAt(s: string, i: nat, word: string) {
    i + |word| <= |s| && Lower(s[i..i + |word|]) == word
  }

  /** The last index at or after `lo` that is not a newline, or -1. */
  function LastNonNewline(s: string, lo: nat): (r: int)
    requires lo <= |s|
    ensures r == -1 ==> forall k :: lo <= k < |s| ==> s[k] == '\n'
    ensures r != -1 ==> lo <= r < |s| && s[r] != '\n' && forall k :: r < k < |s| ==> s[k] == '\n'
    decreases |s| - lo
  {
    if lo == |s| then -1
    else
      var q := LastNonNewline(s, lo + 1);
      if q != -1 then q else if s[lo] != '\n' then lo else -1
  }

  /** A capture group's text and where the whole match ended. */
  datatype Captured = Captured(group: string, end: nat)

  // ---- searching over candidate positions ----

  /** `re.search` over per-index candidates: the leftmost index at or after
      `i` where the pattern matches, or -1. */
  function FirstHit<T>(xs: seq<Option<T>>, i: nat): (r: int)
    requires i <= |xs|
    ensures r == -1 <==> forall k :: i <= k < |xs| ==> xs[k].None?
    ensures r != -1 ==> i <= r < |xs| && xs[r].Some? && forall k :: i <= k < r ==> xs[k].None?
    decreases |xs| - i
  {
    if i == |xs| then -1 else if xs[i].Some? then i else FirstHit(xs, i + 1)
  }

  /** Match candidates that end past where they start. */
  predicate Advancing(xs: seq<Option<Captured>>) {
    forall q :: 0 <= q < |xs| && xs[q].Some? ==> q < xs[q].value.end
  }

  /** `re.finditer` over per-index candidates from `p`, the search resuming
      where the previous match ended: the start of the last match, or -1. */
  function LastFrom(xs: seq<Option<Captured>>, p: nat): (r: int)
    requires p <= |xs| && Advancing(xs)
    ensures r == -1 <==> forall q :: p <= q < |xs| ==> xs[q].None?
    ensures r != -1 ==> p <= r < |xs| && xs[r].Some?
    ensures r != -1 ==> forall q :: xs[r].value.end <= q < |xs| ==> xs[q].None?
    decreases |xs| - p
  {
    var k := FirstHit(xs, p);
    if k == -1 then -1
    else
      var e := xs[k].value.end;
      if e <= |xs| then
        var l := LastFrom(xs, e);
        if l == -1 then k else l
      else
        k
  }

  /** The start of the last match of `re.finditer`, or -1. */
  function LastMatch(xs: seq<Option<Captured>>): (r: int)
    requires Advancing(xs)
    ensures r == -1 <==> forall q :: 0 <= q < |xs| ==> xs[q].None?
    ensures r != -1 ==> 0 <= r < |xs| && xs[r].Some?
    ensures r != -1 ==> forall q :: xs[r].value.end <= q < |xs| ==> xs[q].None?
  {
    LastFrom(xs, 0)
  }

  /** `\s*(.+)$` in multi-line mode from index `c`: the rest of the first
      line that is not blank; when only whitespace is left, backtracking
      leaves the last non-newline character as the group. */
  function LineGroup(s: string, c: nat): (r: Option<Captured>)
    requires c <= |s|
    ensures r.None? <==> forall k :: c <= k < |s| ==> s[k] == '\n'
    ensures r.Some? ==>
      && c + |r.value.group| <= r.value.end <= |s|
      && |r.value.group| >= 1 && '\n' !in r.value.group
      && r.value.group == s[r.value.end - |r.value.group|..r.value.end]
      && IsBlank(s[c..r.value.end - |r.value.group|])
      && (r.value.end == |s| || s[r.value.end] == '\n')
  {
    var d := SkipSpace(s, c);
    if d < |s| then
      var e := LineEnd(s, d);
      assert s[e - (e - d)..e] == s[d..e];
      Some(Captured(s[d..e], e))
    else
      var q := LastNonNewline(s, c);
      if q == -1 then None
      else
        assert [s[q]] == s[q..q + 1];
        Some(Captured([s[q]], q + 1))
  }

  /** `\s*(.+)$` with `.` matching newlines, from index `c`: everything
      after the whitespace, or the last character when only whitespace is
      left. Its strip is the strip of the whole rest. */
  function RestGroup(s: string, c: nat): (r: Option<string>)
    requires c <= |s|
    ensures r.None? <==> c == |s|
    ensures r.Some? ==> Strip(r.value) == Strip(s[c..])
  {
    var d := SkipSpace(s, c);
    if d < |s| then
      assert s[c..] == s[c..d] + s[d..];
      StripBlankPrefix(s[c..d], s[d..]);
      Some(s[d..])
    else if c < |s| then
      assert IsBlank(s[c..]);
      assert IsSpace(s[|s| - 1]);
      Some([s[|s| - 1]])
    else None
  }

  // ---- `Action:` lines ----

  /** `^\s*Action\s*:\s*(.+)$` tried at line start `p`. */
  function ActionAt(s: string, p: nat): (r: Option<Captured>)
    requires p <= |s|
    ensures r.Some? ==> WordAt(s, SkipSpace(s, p), "action") && p < r.value.end <= |s|
    ensures r.Some? ==> |r.value.group| >= 1 && '\n' !in r.value.group
  {
    var a := SkipSpace(s, p);
    if !WordAt(s, a, "action") then None
    else
      var b := SkipSpace(s, a + 6);
      if b == |s| || s[b] != ':' then None
      else LineGroup(s, b + 1)
  }

  /** The candidate match of the `Action:` pattern at each index (only
      line starts can match). */
  function ActionCandidates(s: string): (r: seq<Option<Captured>>)
    ensures |r| == |s| + 1
    ensures forall q :: 0 <= q <= |s| ==> r[q] == if IsLineStart(s, q) then ActionAt(s, q) else None
    ensures Advancing(r)
  {
    seq(|s| + 1, q requires 0 <= q <= |s| => if IsLineStart(s, q) then ActionAt(s, q) else None)
  }

  /** `Action\s*Input\s*:\s*(.+)$` (dot matches newline) tried at index `i`. */
  function InputAt(s: string, i: nat): (r: Option<string>)
    requires i <= |s|
    ensures r.Some? ==> WordAt(s, i, "action")
  {
    if !WordAt(s, i, "action") then None
    else
      var b := SkipSpace(s, i + 6);
      if !WordAt(s, b, "input") then None
      else
        var c := SkipSpace(s, b + 5);
        if c == |s| || s[c] != ':' then None
        else RestGroup(s, c + 1)
  }

  /** The candidate match of the anchored `Action Input:` pattern at each
      index (only line starts can match). */
  function AnchoredInputCandidates(s: string): (r: seq<Option<string>>)
    ensures |r| == |s| + 1
    ensures forall q :: 0 <= q <= |s| ==> r[q] == if IsLineStart(s, q) then InputAt(s, SkipSpace(s, q)) else None
  {
    seq(|s| + 1, q requires 0 <= q <= |s| => if IsLineStart(s, q) then InputAt(s, SkipSpace(s, q)) else None)
  }

  /** The candidate match of the unanchored `Action Input:` pattern at each index. */
  function InputCandidates(s: string): (r: seq<Option<string>>)
    ensures |r| == |s| + 1
    ensures forall k :: 0 <= k <= |s| ==> r[k] == InputAt(s, k)
  {
    seq(|s| + 1, k requires 0 <= k <= |s| => InputAt(s, k))
  }

  /** A scraped tool request. */
  datatype Action = Action(tool: string, input: string)

  /** `(m_in.group(1).strip() if m_in else "").strip()`: the input after
      the match ending at `end`, or `""`. */
  function InputAfter(block: string, end: nat): (r: string)
    requires end <= |block|
    ensures var xs := AnchoredInputCandidates(block[end..]);
      (forall q :: 0 <= q < |xs| ==> xs[q].None?) ==> r == ""
    ensures var xs := AnchoredInputCandidates(block[end..]);
      var k := FirstHit(xs, 0);
      k != -1 ==> r == Strip(xs[k].value)
  {
    var after := block[end..];
    var k := FirstHit(AnchoredInputCandidates(after), 0);
    if k == -1 then "" else Strip(AnchoredInputCandidates(after)[k].value)
  }

  /** The fallback: the first `Action Input:` anywhere in the block. */
  function FallbackInput(block: string): (r: Option<string>)
    ensures r.None? <==> forall k :: 0 <= k <= |block| ==> InputAt(block, k).None?
    ensures r.Some? ==>
      var k := FirstHit(InputCandidates(block), 0);
      && 0 <= k <= |block| && InputAt(block, k).Some? && r.value == Strip(InputAt(block, k).value)
      && forall j :: 0 <= j < k ==> InputAt(block, j).None?
  {
    var k := FirstHit(InputCandidates(block), 0);
    if k == -1 then None else Some(Strip(InputCandidates(block)[k].value))
  }

  /** `_extract_action`: `None` when no `Action:` line matches or no input
      can be found; `Failure` where the fence split raises. The tool is the
      stripped group of the last match. */
  function ExtractAction(block: string): (r: Result<Option<Action>, string>)
    ensures LastMatch(ActionCandidates(block)) == -1 ==> r == Success(None)
    ensures r.Success? && r.value.Some? ==>
      var q := LastMatch(ActionCandidates(block));
      q != -1 && r.value.value.tool == Strip(ActionCandidates(block)[q].value.group)
    ensures r.Failure? ==> r.error == "IndexError"
  {
    var xs := ActionCandidates(block);
    var q := LastMatch(xs);
    if q == -1 then Success(None)
    else
      assert xs[q] == ActionAt(block, q);
      ActionFrom(block, xs[q].value)
  }

  /** The action for the `Action:` match `m`: its input comes from the
      line after the match, else from the first `Action Input:` anywhere. */
  function ActionFrom(block: string, m: Captured): (r: Result<Option<Action>, string>)
    requires m.end <= |block|
    ensures r.Success? && r.value.Some? ==> r.value.value.tool == Strip(m.group)
    ensures r.Failure? ==> r.error == "IndexError"
    ensures var first := InputAfter(block, m.end);
      var arg := if first != "" then Some(first) else FallbackInput(block);
      && (arg.None? <==> r == Success(None))
      && (arg.Some? ==> (r.Failure? <==> DropFences(arg.value).None?))
      && (r.Success? && r.value.Some? ==> Some(r.value.value.input) == DropFences(arg.value))
  {
    var first := InputAfter(block, m.end);
    var arg := if first != "" then Some(first) else FallbackInput(block);
    match arg
    case None => Success(None)
    case Some(a) =>
      match DropFences(a)
      case None => Failure("IndexError")
      case Some(x) => Success(Some(Action(Strip(m.group), x)))
  }

  // ---- the reply format the prompt asks for ----

  /** `Action: <tool>` on one line and `Action Input: <arg>` on the next. */
  function ActionText(tool: string, arg: string): string {
    "Action: " + tool + "\nAction Input: " + arg + "\n"
  }

  /** A word the format uses, free of spaces and newlines at its ends. */
  predicate Trimmed(w: string) {
    |w| >= 1 && '\n' !in w && !IsSpace(w[0]) && !IsSpace(w[|w| - 1])
  }

  lemma SkipSpaceIs(s: string, i: nat, j: nat)
    requires i <= j <= |s|
    requires forall k :: i <= k < j ==> IsSpace(s[k])
    requires j == |s| || !IsSpace(s[j])
    ensures SkipSpace(s, i) == j
    decreases j - i
  {
    if i < j {
      SkipSpaceIs(s, i + 1, j);
    }
  }

  lemma LineEndIs(s: string, i: nat, j: nat)
    requires i <= j <= |s|
    requires forall k :: i <= k < j ==> s[k] != '\n'
    requires j == |s| || s[j] == '\n'
    ensures LineEnd(s, i) == j
    decreases j - i
  {
    if i < j {
      LineEndIs(s, i + 1, j);
    }
  }

  lemma KeywordsFold()
    ensures Lower("Action") == "action" && Lower("Input") == "input" && Lower("Final") == "final"
  {
    var a, b, c := Lower("Action"), Lower("Input"), Lower("Final");
    assert a[0] == 'a' && a[1] == 'c' && a[2] == 't' && a[3] == 'i' && a[4] == 'o' && a[5] == 'n';
    assert b[0] == 'i' && b[1] == 'n' && b[2] == 'p' && b[3] == 'u' && b[4] == 't';
    assert c[0] == 'f' && c[1] == 'i' && c[2] == 'n' && c[3] == 'a' && c[4] == 'l';
  }

  /** `Action` at index `i`, read case-insensitively. */
  lemma ActionWordAt(s: string, i: nat)
    requires i + 6 <= |s| && s[i..i + 6] == "Action"
    ensures WordAt(s, i, "action")
  {
    KeywordsFold();
  }

  /** Where the format puts its fixed characters. */
  lemma ActionTextLayout(tool: string, arg: string)
    ensures var s := ActionText(tool, arg); var e := 8 + |tool|;
      && |s| == e + 16 + |arg|
      && s[0..6] == "Action" && s[6] == ':' && s[7] == ' ' && s[8..e] == tool && s[e] == '\n'
      && s[e + 1..e + 7] == "Action" && s[e + 7] == ' ' && s[e + 8] == 'I'
  {
  }

  /** The first line matches the `Action:` pattern, its group the tool. */
  lemma ActionMatchAtStart(tool: string, arg: string)
    requires Trimmed(tool)
    ensures var s := ActionText(tool, arg);
      ActionCandidates(s)[0] == Some(Captured(tool, 8 + |tool|))
  {
    var s := ActionText(tool, arg);
    var e := 8 + |tool|;
    ActionTextLayout(tool, arg);
    SkipSpaceIs(s, 0, 0);
    ActionWordAt(s, 0);
    SkipSpaceIs(s, 6, 6);
    SkipSpaceIs(s, 7, 8);
    assert forall k :: 8 <= k < e ==> s[k] == tool[k - 8];
    LineEndIs(s, 8, e);
  }

  /** The format's only newlines end its two lines. */
  lemma ActionTextNewlines(tool: string, arg: string)
    requires Trimmed(tool) && Trimmed(arg)
    ensures var s := ActionText(tool, arg);
      forall k :: 0 <= k < |s| && s[k] == '\n' ==> k == 8 + |tool| || k == |s| - 1
  {
    var s := ActionText(tool, arg);
    var e := 8 + |tool|;
    forall k | 0 <= k < |s| && k != e && k != |s| - 1
      ensures s[k] != '\n'
    {
      if k < 8 {
        assert s[k] == "Action: "[k];
      } else if k < e {
        assert s[k] == tool[k - 8];
      } else if k < e + 15 {
        assert s[k] == "\nAction Input: "[k - e];
      } else {
        assert s[k] == arg[k - e - 15];
      }
    }
  }

  /** The second line has `Input` where the colon would have to be. */
  lemma SecondLineIsNoAction(tool: string, arg: string)
    ensures var s := ActionText(tool, arg);
      ActionAt(s, 9 + |tool|).None?
  {
    var s := ActionText(tool, arg);
    var q := 9 + |tool|;
    ActionTextLayout(tool, arg);
    SkipSpaceIs(s, q, q);
    SkipSpaceIs(s, q + 6, q + 7);
  }

  /** No `Action:` match starts from `e` on when the only line start past
      `e` before the end, just after the newline at `e`, does not match. */
  lemma NoActionMatchFrom(s: string, e: nat)
    requires 1 <= e < |s| && s[e] == '\n' && ActionAt(s, e + 1).None?
    requires forall k :: e - 1 <= k < |s| - 1 && k != e ==> s[k] != '\n'
    ensures forall q :: e <= q <= |s| ==> ActionCandidates(s)[q].None?
  {
    var xs := ActionCandidates(s);
    forall q | e <= q <= |s|
      ensures xs[q].None?
    {
      if q == |s| {
        SkipSpaceIs(s, q, q);
      } else if q != e + 1 {
        assert s[q - 1] != '\n';
      }
    }
  }

  /** After the first line no `Action:` match starts. */
  lemma NoActionMatchLater(tool: string, arg: string)
    requires Trimmed(tool) && Trimmed(arg)
    ensures var s := ActionText(tool, arg);
      forall q :: 8 + |tool| <= q <= |s| ==> ActionCandidates(s)[q].None?
  {
    var s := ActionText(tool, arg);
    var e := 8 + |tool|;
    ActionTextLayout(tool, arg);
    ActionTextNewlines(tool, arg);
    SecondLineIsNoAction(tool, arg);
    NoActionMatchFrom(s, e);
  }

  lemma InputLineLayout(arg: string)
    ensures var t := "\nAction Input: " + arg + "\n";
      && t[0] == '\n' && t[1..7] == "Action" && t[7] == ' ' && t[8..13] == "Input" && t[13] == ':'
      && t[14..] == " " + arg + "\n"
  {
  }

  /** The second line, read on its own, matches the anchored `Action Input:`
      pattern at once, and the stripped group is the argument. */
  lemma InputLineReads(arg: string)
    requires Trimmed(arg)
    ensures var t := "\nAction Input: " + arg + "\n";
      var c := AnchoredInputCandidates(t);
      c[0].Some? && Strip(c[0].value) == arg
  {
    var t := "\nAction Input: " + arg + "\n";
    InputLineLayout(arg);
    SkipSpaceIs(t, 0, 1);
    ActionWordAt(t, 1);
    SkipSpaceIs(t, 7, 8);
    KeywordsFold();
    assert WordAt(t, 8, "input");
    SkipSpaceIs(t, 13, 13);
    StripAround(" ", arg, "\n");
  }

  /** After the first line's match the anchored input is the argument. */
  lemma InputAfterFirstLine(tool: string, arg: string)
    requires Trimmed(tool) && Trimmed(arg)
    ensures InputIs(ActionText(tool, arg), 8 + |tool|, arg)
  {
    var s := ActionText(tool, arg);
    assert s[8 + |tool|..] == "\nAction Input: " + arg + "\n";
    InputLineReads(arg);
  }

  /** The last `Action:` match of a block is `m`. */
  predicate LastActionIs(block: string, m: Captured) {
    LastMatch(ActionCandidates(block)) != -1 && ActionCandidates(block)[LastMatch(ActionCandidates(block))] == Some(m)
  }

  /** The anchored input after a match ending at `end` is the non-empty `input`. */
  predicate InputIs(block: string, end: nat, input: string) {
    end <= |block| && InputAfter(block, end) == input && input != ""
  }

  /** `_extract_action` once the last match and its anchored input are known. */
  lemma ExtractActionFrom(block: string, m: Captured, input: string)
    requires LastActionIs(block, m) && InputIs(block, m.end, input) && !StartsWith(input, Fence)
    ensures ExtractAction(block) == Success(Some(Action(Strip(m.group), input)))
  {
  }

  /** The format's only `Action:` match is its first line. */
  lemma ActionTextLastMatch(tool: string, arg: string)
    requires Trimmed(tool) && Trimmed(arg)
    ensures LastActionIs(ActionText(tool, arg), Captured(tool, 8 + |tool|))
  {
    var xs := ActionCandidates(ActionText(tool, arg));
    ActionMatchAtStart(tool, arg);
    NoActionMatchLater(tool, arg);
    assert LastFrom(xs, 8 + |tool|) == -1;
    assert LastFrom(xs, 0) == 0;
  }

  /** The format the prompt asks for parses back to the tool and argument
      written into it. */
  lemma ActionTextParses(tool: string, arg: string)
    requires Trimmed(tool) && Trimmed(arg) && !StartsWith(arg, Fence)
    ensures ExtractAction(ActionText(tool, arg)) == Success(Some(Action(tool, arg)))
  {
    ActionTextLastMatch(tool, arg);
    InputAfterFirstLine(tool, arg);
    StripTrimmed(tool);
    ExtractActionFrom(ActionText(tool, arg), Captured(tool, 8 + |tool|), arg);
  }

  /** Skipping spaces in a suffix lands where skipping in the whole text does. */
  lemma SkipSpaceShift(s: string, e: nat, j: nat)
    requires e <= |s| && j <= |s| - e
    ensures SkipSpace(s, e + j) == e + SkipSpace(s[e..], j)
  {
    var t := s[e..];
    var r := SkipSpace(t, j);
    assert forall k :: e + j <= k < e + r ==> s[k] == t[k - e];
    assert e + r < |s| ==> s[e + r] == t[r];
    SkipSpaceIs(s, e + j, e + r);
  }

  /** A keyword in a suffix is the same keyword in the whole text. */
  lemma WordAtShift(s: string, e: nat, i: nat, word: string)
    requires e <= |s| && i <= |s| - e
    ensures WordAt(s[e..], i, word) <==> WordAt(s, e + i, word)
  {
    if i + |word| <= |s| - e {
      assert s[e..][i..i + |word|] == s[e + i..e + i + |word|];
    }
  }

  /** The lower-cased keywords of the `Action Input:` pattern. */
  const ActionWord: string := "action"
  const InputWord: string := "input"

  /** A colon at `c` with text after it. */
  predicate ColonWithText(s: string, c: nat) {
    c + 1 < |s| && s[c] == ':'
  }

  /** `Input\s*:` at `b` with text left after the colon. */
  predicate InputWordAt(s: string, b: nat) {
    WordAt(s, b, InputWord) && ColonWithText(s, SkipSpace(s, b + 5))
  }

  /** Where `Action\s*Input\s*:` matches at `i` with text left after the
      colon; exactly where `InputAt` finds a group. */
  predicate InputShape(s: string, i: nat) {
    WordAt(s, i, ActionWord) && InputWordAt(s, SkipSpace(s, i + 6))
  }

  lemma InputAtShape(s: string, i: nat)
    requires i <= |s|
    ensures InputAt(s, i).Some? <==> InputShape(s, i)
  {
  }

  lemma InputWordShift(s: string, e: nat, b: nat)
    requires e <= |s| && b <= |s| - e
    requires InputWordAt(s[e..], b)
    ensures InputWordAt(s, e + b)
  {
    var t := s[e..];
    var c := SkipSpace(t, b + 5);
    assert t[b..b + 5] == s[e + b..e + b + 5];
    SkipSpaceShift(s, e, b + 5);
    assert t[c] == s[e + c];
  }

  lemma InputShapeOf(s: string, i: nat, b: nat)
    requires WordAt(s, i, ActionWord) && SkipSpace(s, i + 6) == b && InputWordAt(s, b)
    ensures InputShape(s, i)
  {
  }

  /** The `Action Input:` shape found in a suffix is there in the whole text. */
  lemma InputShapeShift(s: string, e: nat, j: nat)
    requires e <= |s| && j <= |s| - e
    requires InputShape(s[e..], j)
    ensures InputShape(s, e + j)
  {
    var b := SkipSpace(s[e..], j + 6);
    assert WordAt(s, e + j, ActionWord) by {
      WordAtShift(s, e, j, ActionWord);
    }
    assert SkipSpace(s, e + j + 6) == e + b by {
      SkipSpaceShift(s, e, j + 6);
    }
    assert InputWordAt(s, e + b) by {
      InputWordShift(s, e, b);
    }
    InputShapeOf(s, e + j, e + b);
  }

  /** Without the shape anywhere in `s`, no line of a suffix starts an
      anchored `Action Input:`. */
  lemma NoAnchoredInput(s: string, e: nat, p: nat)
    requires e <= |s| && p <= |s| - e
    requires forall k :: 0 <= k <= |s| ==> !InputShape(s, k)
    ensures AnchoredInputCandidates(s[e..])[p].None?
  {
    var t := s[e..];
    if IsLineStart(t, p) {
      var j := SkipSpace(t, p);
      InputAtShape(t, j);
      if InputShape(t, j) {
        InputShapeShift(s, e, j);
        assert false;
      }
    }
  }

  /** Without `Action Input:` anywhere in the block, nothing is read after
      an `Action:` match ending at `end`. */
  lemma NoInputAfter(block: string, end: nat)
    requires end <= |block|
    requires forall k :: 0 <= k <= |block| ==> InputAt(block, k).None?
    ensures InputAfter(block, end) == ""
  {
    forall k | 0 <= k <= |block|
      ensures !InputShape(block, k)
    {
      InputAtShape(block, k);
    }
    forall p | 0 <= p <= |block| - end
      ensures AnchoredInputCandidates(block[end..])[p].None?
    {
      NoAnchoredInput(block, end, p);
    }
  }

  /** A block with no `Action Input:` anywhere yields no action, whatever its
      `Action:` lines say. */
  lemma NoInputNoAction(block: string)
    requires forall k :: 0 <= k <= |block| ==> InputAt(block, k).None?
    ensures ExtractAction(block) == Success(None)
  {
    var xs := ActionCandidates(block);
    var q := LastMatch(xs);
    if q != -1 {
      assert xs[q] == ActionAt(block, q);
      NoInputAfter(block, xs[q].value.end);
    }
  }

  /** The fallback reads the first `Action Input:` of the block. */
  lemma FallbackIs(block: string, k: nat, g: string)
    requires k <= |block| && InputAt(block, k) == Some(g)
    requires forall j :: 0 <= j < k ==> InputAt(block, j).None?
    ensures FallbackInput(block) == Some(Strip(g))
  {
    var r := FallbackInput(block);
    assert r.Some?;
    var h := FirstHit(InputCandidates(block), 0);
    assert h == k;
  }

  /** When nothing is read after the last `Action:` (no anchored match, or
      one that strips to nothing), the first `Action Input:` of the whole
      block supplies the input, wherever it is. */
  lemma FallbackActionInput(block: string, m: Captured, k: nat, g: string)
    requires LastActionIs(block, m) && m.end <= |block| && InputAfter(block, m.end) == ""
    requires k <= |block| && InputAt(block, k) == Some(g)
    requires forall j :: 0 <= j < k ==> InputAt(block, j).None?
    requires !StartsWith(Strip(g), Fence)
    ensures ExtractAction(block) == Success(Some(Action(Strip(m.group), Strip(g))))
  {
    FallbackIs(block, k, g);
  }

  /** A fenced input such as a `json` block is unwrapped to the text between
      the fences. */
  lemma FencedInputUnwrapped(block: string, m: Captured, lang: string, obj: string)
    requires LastActionIs(block, m) && InputIs(block, m.end, Fence + lang + "\n" + obj + "\n" + Fence)
    requires '\n' !in lang && |obj| >= 1
    ensures ExtractAction(block) == Success(Some(Action(Strip(m.group), obj)))
  {
    FencedObjectUnfenced(lang, obj);
  }

  /** An input that opens a fence and never reaches a new line cannot be
      unwrapped: `_extract_action` raises `IndexError`. */
  lemma FencedOneLineInputRaises(tool: string)
    requires Trimmed(tool)
    ensures ExtractAction(ActionText(tool, Fence + "json")) == Failure("IndexError")
  {
    var arg := Fence + "json";
    assert '\n' !in arg by {
      assert arg == ['`', '`', '`', 'j', 's', 'o', 'n'];
    }
    ActionTextLastMatch(tool, arg);
    InputAfterFirstLine(tool, arg);
    assert StartsWith(arg, Fence);
  }

  // ---- `Final:` ----

  /** `Final\s*:\s*\{` tried at index `i`: the index of the brace. */
  function FinalAt(text: string, i: nat): (r: Option<nat>)
    requires i <= |text|
    ensures r.Some? ==> WordAt(text, i, "final") && i < r.value < |text| && text[r.value] == '{'
  {
    if !WordAt(text, i, "final") then None
    else
      var b := SkipSpace(text, i + 5);
      if b == |text| || text[b] != ':' then None
      else
        var c := SkipSpace(text, b + 1);
        if c < |text| && text[c] == '{' then Some(c) else None
  }

  function FinalCandidates(text: string): (r: seq<Option<nat>>)
    ensures |r| == |text| + 1
    ensures forall k :: 0 <= k <= |text| ==> r[k] == FinalAt(text, k)
  {
    seq(|text| + 1, k requires 0 <= k <= |text| => FinalAt(text, k))
  }

  /** `re.search(r"(?i)Final\s*:\s*(\{.*)$", text, re.DOTALL)`: where the
      captured object text starts in the leftmost match, or -1. */
  function FinalSearch(text: string): (r: int)
    ensures r == -1 || (0 <= r < |text| && text[r] == '{')
  {
    var k := FirstHit(FinalCandidates(text), 0);
    if k == -1 then -1 else FinalCandidates(text)[k].value
  }

  /** The text after `Final:` from its brace on (or the whole text),
      stripped, with its fences dropped; `None` where the split raises. */
  function FinalCandidate(text: string): Option<string> {
    var k := FinalSearch(text);
    var c := if k == -1 then Strip(text) else Strip(text[k..]);
    DropFences(c)
  }

  const NoFinalObject: string := "ValueError: No JSON object found in Final output."

  /** `candidate[start:end + 1]` with `end` the last `}`; a missing brace
      or reversed braces raise. */
  function SliceFrom(c: string, start: int): (r: Result<string, string>)
    requires -1 <= start < |c|
    ensures r.Success? ==>
      && 0 <= start && start + |r.value| <= |c|
      && r.value == c[start..start + |r.value|]
      && |r.value| >= 1 && r.value[|r.value| - 1] == '}'
      && '}' !in c[start + |r.value|..]
    ensures r.Success? <==> start != -1 && '}' in c[start..]
  {
    var b := RFind(c, '}');
    if start == -1 || b == -1 || b < start then
      assert start != -1 && b < start ==> '}' !in c[start..] by {
        if start != -1 && b < start {
          assert forall k :: start <= k < |c| ==> c[k] == c[b + 1..][k - b - 1];
        }
      }
      Failure(NoFinalObject)
    else
      assert c[start..][b - start] == '}';
      Success(c[start..b + 1])
  }

  /** Text from a `{` to a `}` with no other `{` in between. */
  predicate FlatObjectText(v: string) {
    && |v| >= 2 && v[0] == '{' && v[|v| - 1] == '}'
    && forall k :: 0 < k < |v| ==> v[k] != '{'
  }

  /** The as-written slice of a candidate: from its last `{` to its last
      `}`. It fails when either brace is missing or the last `}` comes
      before the last `{`. */
  function LastBraceSlice(c: string): (r: Result<string, string>)
    ensures r.Success? <==> '{' in c && '}' in c[RFind(c, '{')..]
    ensures r.Failure? ==> r.error == NoFinalObject
    ensures r.Success? ==> FlatObjectText(r.value)
    ensures r.Success? ==> OccursAt(c, r.value, RFind(c, '{')) && '}' !in c[RFind(c, '{') + |r.value|..]
  {
    var a := RFind(c, '{');
    var r := SliceFrom(c, a);
    if r.Success? then
      NoBraceAfterLast(c, a, r.value);
      r
    else r
  }

  /** A slice from the last `{` holds no other `{`. */
  lemma NoBraceAfterLast(c: string, a: nat, v: string)
    requires a < |c| && '{' !in c[a + 1..]
    requires a + |v| <= |c| && v == c[a..a + |v|]
    ensures forall k :: 0 < k < |v| ==> v[k] != '{'
  {
    assert forall k :: 0 < k < |v| ==> v[k] == c[a + 1..][k - 1];
  }

  /** The corrected slice of a candidate: from its first `{`, the block
      `extract_first_json_block` takes. */
  function FirstBraceSlice(c: string): (r: Result<string, string>)
    ensures r.Success? <==> HasBracePair(c)
    ensures r.Success? ==> r.value == FirstBlock(c)
  {
    BracePairIsFirstBeforeLast(c);
    SliceFrom(c, Find(c, '{'))
  }

  /** The slice `_extract_final_json` hands to the decoder, as written: from
      the LAST `{` to the last `}`. It never holds a second `{`. */
  function FinalSliceAsWritten(text: string): (r: Result<string, string>)
    ensures FinalCandidate(text).None? ==> r == Failure("IndexError")
    ensures FinalCandidate(text).Some? ==>
      var c := FinalCandidate(text).value;
      (r.Success? <==> '{' in c && '}' in c[RFind(c, '{')..])
    ensures r.Success? ==> FlatObjectText(r.value)
  {
    match FinalCandidate(text)
    case None => Failure("IndexError")
    case Some(c) => LastBraceSlice(c)
  }

  /** `_extract_final_json` as written. */
  function ExtractFinalAsWritten(text: string, decode: Decoder): (r: Result<Json, string>)
    ensures r.Success? <==> FinalSliceAsWritten(text).Success? && decode(FinalSliceAsWritten(text).value).Some?
    ensures r.Success? ==> Some(r.value) == decode(FinalSliceAsWritten(text).value)
    ensures FinalSliceAsWritten(text).Success? && r.Failure? ==> r.error == "JSONDecodeError"
  {
    match FinalSliceAsWritten(text)
    case Failure(e) => Failure(e)
    case Success(t) =>
      match decode(t)
      case Some(v) => Success(v)
      case None => Failure("JSONDecodeError")
  }

  /** A `{` before some `}` exactly when the first `{` precedes the last `}`. */
  lemma BracePairIsFirstBeforeLast(c: string)
    ensures HasBracePair(c) <==> Find(c, '{') != -1 && '}' in c[Find(c, '{')..]
  {
    if HasBracePair(c) {
      BracePairAfterFirst(c);
    }
    if Find(c, '{') != -1 && '}' in c[Find(c, '{')..] {
      FirstBraceMakesPair(c);
    }
  }

  lemma BracePairAfterFirst(c: string)
    requires HasBracePair(c)
    ensures Find(c, '{') != -1 && '}' in c[Find(c, '{')..]
  {
    var i, j :| 0 <= i < j < |c| && c[i] == '{' && c[j] == '}';
    FindAtMost(c, '{', i);
    var a := Find(c, '{');
    assert c[a..][j - a] == '}';
  }

  lemma FirstBraceMakesPair(c: string)
    requires Find(c, '{') != -1 && '}' in c[Find(c, '{')..]
    ensures HasBracePair(c)
  {
    var a := Find(c, '{');
    var k :| 0 <= k < |c[a..]| && c[a..][k] == '}';
    assert c[a] == '{' && c[a + k] == '}';
  }

  /** The slice from the FIRST `{` to the last `}`; missing or reversed
      braces fail. */
  function FinalSlice(text: string): (r: Result<string, string>)
    ensures r.Success? <==> FinalCandidate(text).Some? && HasBracePair(FinalCandidate(text).value)
    ensures r.Success? ==> r.value == FirstBlock(FinalCandidate(text).value)
  {
    match FinalCandidate(text)
    case None => Failure("IndexError")
    case Some(c) => FirstBraceSlice(c)
  }

  /** The corrected final-answer extraction: the decoded first-brace block. */
  function ExtractFinal(text: string, decode: Decoder): (r: Result<Json, string>)
    ensures r.Success? <==> FinalSlice(text).Success? && decode(FinalSlice(text).value).Some?
    ensures r.Success? ==> Some(r.value) == decode(FinalSlice(text).value)
  {
    match FinalSlice(text)
    case Failure(e) => Failure(e)
    case Success(t) =>
      match decode(t)
      case Some(v) => Success(v)
      case None => Failure("JSONDecodeError")
  }

  /** The test `invoke` makes of a step's output, as written. */
  predicate FinalFound(text: string, decode: Decoder) {
    ExtractFinalAsWritten(text, decode).Success?
  }

  /** The same test with the corrected extraction. */
  predicate FinalFoundCorrected(text: string, decode: Decoder) {
    ExtractFinal(text, decode).Success?
  }

  /** A text without `{` holds no final object, by either extraction. */
  lemma NoBraceNoFinal(text: string, decode: Decoder)
    requires '{' !in text
    ensures !FinalFound(text, decode) && !FinalFoundCorrected(text, decode)
  {
    assert FinalSearch(text) == -1;
    var c := Strip(text);
    assert '{' !in c by {
      assert forall i :: 0 <= i < |c| ==> c[i] == text[StripStart(text) + i];
    }
    DropFencesKeepsOut(c, '{');
  }

  /** `Final: ` followed by an object matches at once, the brace at index 7. */
  lemma FinalMatchAtStart(obj: string)
    requires |obj| >= 2 && obj[0] == '{'
    ensures FinalAt("Final: " + obj, 0) == Some(7)
  {
    var text := "Final: " + obj;
    assert text[0..5] == "Final" && text[5] == ':' && text[6] == ' ' && text[7] == '{';
    KeywordsFold();
    SkipSpaceIs(text, 5, 5);
    SkipSpaceIs(text, 6, 7);
  }

  /** `Final: ` followed by an object: the candidate is the object. */
  lemma FinalCandidateOf(obj: string)
    requires |obj| >= 2 && obj[0] == '{' && obj[|obj| - 1] == '}'
    ensures FinalCandidate("Final: " + obj) == Some(obj)
  {
    var text := "Final: " + obj;
    FinalMatchAtStart(obj);
    assert FinalCandidates(text)[0] == Some(7);
    assert FinalSearch(text) == 7;
    assert text[7..] == obj;
    StripTrimmed(obj);
    assert !StartsWith(obj, Fence);
  }

  /** The as-written slice is cut at the last `{`: a reply whose object
      nests another object reaches the decoder as the last inner object
      followed by the outer closing brace. */
  lemma NestedFinalIsCut()
    ensures var inner := "{\"text\":\"ok\"}}";
      FinalSliceAsWritten("Final: " + ("{\"response\":" + inner)) == Success(inner)
  {
    var pre, inner := "{\"response\":", "{\"text\":\"ok\"}}";
    assert (pre + inner)[0] == '{' && (pre + inner)[|pre + inner| - 1] == '}';
    FinalCandidateOf(pre + inner);
    assert inner[1..] == "\"text\":\"ok\"}}";
    LastBraceSuffix(pre, inner);
  }

  /** An object ending a candidate after its last `{` is sliced from there. */
  lemma LastBraceSuffix(pre: string, tail: string)
    requires |tail| >= 2 && tail[0] == '{' && tail[|tail| - 1] == '}'
    requires '{' !in tail[1..]
    ensures LastBraceSlice(pre + tail) == Success(tail)
  {
    var c := pre + tail;
    var a := |pre|;
    assert c[a + 1..] == tail[1..];
    RFindIs(c, '{', a);
    RFindIs(c, '}', |c| - 1);
    assert c[a..|c|] == tail;
  }

  /** A flat object after `Final: ` reaches the decoder whole even as
      written, so a decodable one is an answer. */
  lemma FlatObjectFound(obj: string, decode: Decoder)
    requires |obj| >= 2 && obj[0] == '{' && obj[|obj| - 1] == '}' && '{' !in obj[1..]
    requires decode(obj).Some?
    ensures FinalSliceAsWritten("Final: " + obj) == Success(obj)
    ensures FinalFound("Final: " + obj, decode)
  {
    FinalCandidateOf(obj);
    LastBraceSuffix("", obj);
    assert "" + obj == obj;
  }

  /** With the first `{`, an object after `Final:` reaches the decoder
      whole, nested or not. */
  lemma FinalObjectReachesDecoder(obj: string)
    requires |obj| >= 2 && obj[0] == '{' && obj[|obj| - 1] == '}'
    ensures FinalSlice("Final: " + obj) == Success(obj)
  {
    FinalCandidateOf(obj);
    WholeObjectIsBlock(obj);
    assert HasBracePair(obj) by { assert obj[0] == '{' && obj[|obj| - 1] == '}'; }
  }

  /** When the candidate holds at most one `{`, the as-written and the
      first-brace slices agree. */
  lemma FlatAnswerAgrees(text: string)
    requires FinalCandidate(text).Some?
    requires var c := FinalCandidate(text).value;
      forall i, j :: 0 <= i < j < |c| && c[i] == '{' ==> c[j] != '{'
    ensures FinalSlice(text) == FinalSliceAsWritten(text)
  {
    var c := FinalCandidate(text).value;
    var a := Find(c, '{');
    if a != -1 {
      assert forall j :: a < j < |c| ==> c[j] != '{';
      assert '{' !in c[a + 1..];
      RFindIs(c, '{', a);
    }
  }

  // ---- the registry and the loop ----

  /** A tool as the agent is given it: its name and its callable. */
  datatype NamedTool = NamedTool(name: string, run: Tool)

  /** `{t.name: t for t in tools}`. */
  function Registry(tools: seq<NamedTool>): (r: map<string, Tool>)
    ensures r.Keys == set i | 0 <= i < |tools| :: tools[i].name
    decreases |tools|
  {
    if tools == [] then map[]
    else
      var n := |tools| - 1;
      var r := Registry(tools[..n])[tools[n].name := tools[n].run];
      assert forall i :: 0 <= i < n ==> tools[..n][i] == tools[i];
      r
  }

  /** A later tool with the same name overrides an earlier one: each name
      maps to the last tool carrying it. */
  lemma {:induction false} RegistryLastWins(tools: seq<NamedTool>, i: nat)
    requires i < |tools|
    requires forall j :: i < j < |tools| ==> tools[j].name != tools[i].name
    ensures tools[i].name in Registry(tools) && Registry(tools)[tools[i].name] == tools[i].run
    decreases |tools|
  {
    var n := |tools| - 1;
    assert Registry(tools) == Registry(tools[..n])[tools[n].name := tools[n].run];
    if i < n {
      assert tools[n].name != tools[i].name;
      assert tools[..n][i] == tools[i];
      assert forall j :: i < j < n ==> tools[..n][j] == tools[j];
      RegistryLastWins(tools[..n], i);
    }
  }

  /** The single-shot generator as an oracle: the `i`-th call's outcome. */
  type Llm = (nat, string) -> Generation

  const ForcePrompt: string := "\nPlease provide Final: the exact JSON now, nothing else.\n"

  function NotAvailable(name: string): string {
    "\nObservation: Tool '" + name + "' not available. Choose a valid tool."
  }

  /** What a resolved tool leaves: its text, or the error object. */
  function ToolObservation(registry: map<string, Tool>, act: Action): (r: string)
    requires act.tool in registry
    ensures registry[act.tool](act.input).Returned? ==> r == registry[act.tool](act.input).text
    ensures registry[act.tool](act.input).Raised? ==>
      ErrorField(r) == Some(FailedToolMessage(act.tool, registry[act.tool](act.input).error))
  {
    match registry[act.tool](act.input)
    case Returned(t) => t
    case Raised(e) =>
      ErrorJsonRoundTrip(FailedToolMessage(act.tool, e));
      ErrorJson(FailedToolMessage(act.tool, e))
  }

  /** How the transcript grows after a step that requested `act`. */
  function Growth(registry: map<string, Tool>, act: Action, out: string): string {
    if act.tool in registry then "\n" + Strip(out) + "\nObservation: " + ToolObservation(registry, act) + "\n"
    else NotAvailable(act.tool)
  }

  /** What one step's output leads to. */
  datatype Step = Answered | Crashed(error: string) | NoAction | Acted(act: Action)

  /** A step that is not an answer: the action extractor decides. */
  function Unanswered(out: string): (r: Step)
    ensures r != Answered
    ensures match ExtractAction(out)
      case Failure(e) => r == Crashed(e)
      case Success(None) => r == NoAction
      case Success(Some(act)) => r == Acted(act)
  {
    match ExtractAction(out)
    case Failure(e) => Crashed(e)
    case Success(None) => NoAction
    case Success(Some(a)) => Acted(a)
  }

  /** A final answer is tried first, with the as-written extraction, then an
      action. (The source retries the final extraction when no action is
      found; on the same text it fails again.) */
  function Classify(out: string, decode: Decoder): (r: Step)
    ensures r == Answered <==> FinalFound(out, decode)
    ensures !FinalFound(out, decode) ==> match ExtractAction(out)
      case Failure(e) => r == Crashed(e)
      case Success(None) => r == NoAction
      case Success(Some(act)) => r == Acted(act)
  {
    if FinalFound(out, decode) then Answered else Unanswered(out)
  }

  /** The same reading with the corrected extraction. */
  function ClassifyCorrected(out: string, decode: Decoder): (r: Step)
    ensures r == Answered <==> FinalFoundCorrected(out, decode)
    ensures !FinalFoundCorrected(out, decode) ==> match ExtractAction(out)
      case Failure(e) => r == Crashed(e)
      case Success(None) => r == NoAction
      case Success(Some(act)) => r == Acted(act)
  {
    if FinalFoundCorrected(out, decode) then Answered else Unanswered(out)
  }

  /** On an output whose candidate holds at most one `{` (or that has no
      candidate) the two readings agree. */
  lemma FlatStepClassifiesAlike(out: string, decode: Decoder)
    requires FinalCandidate(out).Some? ==> var c := FinalCandidate(out).value;
      forall i, j :: 0 <= i < j < |c| && c[i] == '{' ==> c[j] != '{'
    ensures Classify(out, decode) == ClassifyCorrected(out, decode)
  {
    if FinalCandidate(out).Some? {
      FlatAnswerAgrees(out);
    }
  }

  type Classifier = string -> Step

  /** The loop's parts: the generator, how a step's output is read, and how
      the transcript grows after an action. */
  datatype Agent = Agent(llm: Llm, classify: Classifier, grow: (Action, string) -> string)

  /** One generation: the transcript it was built from, the prompt sent,
      whether it was the forced completion, and the outcome. */
  datatype Turn = Turn(transcript: string, prompt: string, forced: bool, outcome: Generation)

  /** The agent's result: `{"output": ...}` or the escaping exception, the
      final transcript, and every generation. */
  datatype ReactRun = ReactRun(outcome: Result<string, string>, transcript: string, log: seq<Turn>)

  function TextOf(o: Generation): Result<string, string> {
    match o
    case Generated(t) => Success(t)
    case GenerationFailed(e) => Failure(e)
  }

  /** `range(max_iters)` has this many iterations. */
  function Iters(maxIters: int): nat {
    if maxIters < 0 then 0 else maxIters
  }

  function Force(agent: Agent, transcript: string, log: seq<Turn>): ReactRun {
    var prompt := transcript + ForcePrompt;
    var o := agent.llm(|log|, prompt);
    ReactRun(TextOf(o), transcript, log + [Turn(transcript, prompt, true, o)])
  }

  function Drive(agent: Agent, left: nat, transcript: string, log: seq<Turn>): ReactRun
    decreases left
  {
    if left == 0 then Force(agent, transcript, log)
    else
      var prompt := transcript + "\n";
      var o := agent.llm(|log|, prompt);
      var log' := log + [Turn(transcript, prompt, false, o)];
      match o
      case GenerationFailed(e) => ReactRun(Failure(e), transcript, log')
      case Generated(out) =>
        match agent.classify(out)
        case Answered => ReactRun(Success(out), transcript, log')
        case Crashed(e) => ReactRun(Failure(e), transcript, log')
        case NoAction => Force(agent, transcript, log')
        case Acted(act) => Drive(agent, left - 1, transcript + agent.grow(act, out), log')
  }

  /** The agent `Reactor(prompt, tools)` runs. */
  function AgentOf(tools: seq<NamedTool>, llm: Llm, decode: Decoder): Agent {
    Agent(llm, (out: string) => Classify(out, decode), (act: Action, out: string) => Growth(Registry(tools), act, out))
  }

  /** `Reactor(prompt, tools, max_iters).invoke(...)`. */
  function Invoke(basePrompt: string, tools: seq<NamedTool>, llm: Llm, decode: Decoder, maxIters: int): (run: ReactRun)
    ensures Follows(AgentOf(tools, llm, decode), Iters(maxIters), Strip(basePrompt), run)
    ensures 1 <= |run.log| <= Iters(maxIters) + 1
    ensures run.log[0].transcript == Strip(basePrompt)
    ensures forall i :: 0 <= i < |run.log| ==> run.log[i].outcome == llm(i, run.log[i].prompt)
  {
    var agent := AgentOf(tools, llm, decode);
    DriveFollows(agent, Iters(maxIters), Strip(basePrompt), Iters(maxIters), Strip(basePrompt), []);
    Drive(agent, Iters(maxIters), Strip(basePrompt), [])
  }

  /** The agent with the corrected final extraction. */
  function AgentCorrected(tools: seq<NamedTool>, llm: Llm, decode: Decoder): Agent {
    Agent(llm, (out: string) => ClassifyCorrected(out, decode), (act: Action, out: string) => Growth(Registry(tools), act, out))
  }

  /** `invoke` with the corrected final extraction. */
  function InvokeCorrected(basePrompt: string, tools: seq<NamedTool>, llm: Llm, decode: Decoder, maxIters: int): (run: ReactRun)
    ensures Follows(AgentCorrected(tools, llm, decode), Iters(maxIters), Strip(basePrompt), run)
    ensures 1 <= |run.log| <= Iters(maxIters) + 1
    ensures run.log[0].transcript == Strip(basePrompt)
    ensures forall i :: 0 <= i < |run.log| ==> run.log[i].outcome == llm(i, run.log[i].prompt)
  {
    var agent := AgentCorrected(tools, llm, decode);
    DriveFollows(agent, Iters(maxIters), Strip(basePrompt), Iters(maxIters), Strip(basePrompt), []);
    Drive(agent, Iters(maxIters), Strip(basePrompt), [])
  }

  // ---- the protocol ----

  /** From turn `e` the loop went on to a turn built from `next`, forced or
      not: an action grows the transcript, and the next turn is forced only
      when that used up the iterations (`atLimit`); no action forces
      completion on the same transcript. */
  predicate Proceeds(agent: Agent, e: Turn, next: string, forced: bool, atLimit: bool) {
    && e.outcome.Generated?
    && match agent.classify(e.outcome.text)
       case NoAction => forced && next == e.transcript
       case Acted(act) => forced == atLimit && next == e.transcript + agent.grow(act, e.outcome.text)
       case _ => false
  }

  /** How the turn that ended the loop determines the result. */
  predicate Ends(agent: Agent, e: Turn, outcome: Result<string, string>) {
    if e.forced then outcome == TextOf(e.outcome)
    else match e.outcome
      case GenerationFailed(err) => outcome == Failure(err)
      case Generated(out) =>
        match agent.classify(out)
        case Answered => outcome == Success(out)
        case Crashed(err) => outcome == Failure(err)
        case _ => false
  }

  /** The generations so far obey the protocol. */
  ghost predicate Prefix(agent: Agent, iters: nat, init: string, log: seq<Turn>) {
    && |log| <= iters + 1
    && (|log| > 0 ==> log[0].transcript == init && (log[0].forced <==> iters == 0))
    && (forall i :: 0 <= i < |log| ==>
          log[i].prompt == (if log[i].forced then log[i].transcript + ForcePrompt else log[i].transcript + "\n")
          && log[i].outcome == agent.llm(i, log[i].prompt)
          && (!log[i].forced ==> i < iters))
    && (forall i :: 0 <= i < |log| - 1 ==>
          !log[i].forced && Proceeds(agent, log[i], log[i + 1].transcript, log[i + 1].forced, i + 1 == iters))
  }

  /** A complete run of `invoke`. */
  ghost predicate Follows(agent: Agent, iters: nat, init: string, run: ReactRun) {
    && 1 <= |run.log|
    && Prefix(agent, iters, init, run.log)
    && run.transcript == run.log[|run.log| - 1].transcript
    && Ends(agent, run.log[|run.log| - 1], run.outcome)
  }

  /** Where the loop stands before its next generation. */
  ghost predicate Ready(agent: Agent, iters: nat, init: string, log: seq<Turn>, transcript: string, forced: bool) {
    && Prefix(agent, iters, init, log)
    && (|log| == 0 ==> transcript == init && (forced <==> iters == 0))
    && (|log| > 0 ==> !log[|log| - 1].forced && Proceeds(agent, log[|log| - 1], transcript, forced, |log| == iters))
  }

  /** A turn built from where the loop stands keeps the protocol. */
  lemma PrefixExtends(agent: Agent, iters: nat, init: string, log: seq<Turn>, e: Turn)
    requires e.forced ==> |log| <= iters
    requires !e.forced ==> |log| < iters
    requires Ready(agent, iters, init, log, e.transcript, e.forced)
    requires e.prompt == (if e.forced then e.transcript + ForcePrompt else e.transcript + "\n")
    requires e.outcome == agent.llm(|log|, e.prompt)
    ensures Prefix(agent, iters, init, log + [e])
  {
    var log' := log + [e];
    forall i | 0 <= i < |log'|
      ensures log'[i].prompt == (if log'[i].forced then log'[i].transcript + ForcePrompt else log'[i].transcript + "\n")
      ensures log'[i].outcome == agent.llm(i, log'[i].prompt)
      ensures !log'[i].forced ==> i < iters
    {
      if i < |log| {
        assert log'[i] == log[i];
      }
    }
    forall i | 0 <= i < |log'| - 1
      ensures !log'[i].forced && Proceeds(agent, log'[i], log'[i + 1].transcript, log'[i + 1].forced, i + 1 == iters)
    {
      assert log'[i] == log[i];
      if i + 1 < |log| {
        assert log'[i + 1] == log[i + 1];
      } else {
        assert log'[i + 1] == e;
      }
    }
  }

  lemma ForceFollows(agent: Agent, iters: nat, init: string, transcript: string, log: seq<Turn>)
    requires |log| <= iters
    requires Ready(agent, iters, init, log, transcript, true)
    ensures Follows(agent, iters, init, Force(agent, transcript, log))
  {
    var prompt := transcript + ForcePrompt;
    PrefixExtends(agent, iters, init, log, Turn(transcript, prompt, true, agent.llm(|log|, prompt)));
  }

  lemma {:induction false} DriveFollows(agent: Agent, iters: nat, init: string, left: nat, transcript: string, log: seq<Turn>)
    requires |log| + left == iters
    requires Ready(agent, iters, init, log, transcript, left == 0)
    ensures Follows(agent, iters, init, Drive(agent, left, transcript, log))
    decreases left
  {
    if left == 0 {
      ForceFollows(agent, iters, init, transcript, log);
    } else {
      var prompt := transcript + "\n";
      var o := agent.llm(|log|, prompt);
      var e := Turn(transcript, prompt, false, o);
      var log' := log + [e];
      PrefixExtends(agent, iters, init, log, e);
      assert log'[|log'| - 1] == e;
      if o.Generated? {
        match agent.classify(o.text)
        case NoAction =>
          ForceFollows(agent, iters, init, transcript, log');
        case Acted(act) =>
          DriveFollows(agent, iters, init, left - 1, transcript + agent.grow(act, o.text), log');
        case _ =>
      }
    }
  }

  // ---- what any run that follows the protocol looks like ----

  /** The link from turn `i` to the next one, when there is a next one. */
  lemma ChainAt(agent: Agent, iters: nat, init: string, log: seq<Turn>, i: nat)
    requires Prefix(agent, iters, init, log)
    ensures i + 1 < |log| ==>
      !log[i].forced && Proceeds(agent, log[i], log[i + 1].transcript, log[i + 1].forced, i + 1 == iters)
  {
  }

  /** A step read as an answer or a crash is the last turn. */
  lemma EndingStepIsLast(agent: Agent, iters: nat, init: string, run: ReactRun, i: nat)
    requires Follows(agent, iters, init, run)
    requires i < |run.log| && !run.log[i].forced && run.log[i].outcome.Generated?
    requires var step := agent.classify(run.log[i].outcome.text); step.Answered? || step.Crashed?
    ensures i == |run.log| - 1 && Ends(agent, run.log[i], run.outcome)
  {
    ChainAt(agent, iters, init, run.log, i);
  }

  /** A step read as an action is followed by a turn on the grown transcript. */
  lemma ActingStepContinues(agent: Agent, iters: nat, init: string, run: ReactRun, i: nat, act: Action)
    requires Follows(agent, iters, init, run)
    requires i < |run.log| && !run.log[i].forced && run.log[i].outcome.Generated?
    requires agent.classify(run.log[i].outcome.text) == Acted(act)
    ensures i + 1 < |run.log|
    ensures run.log[i + 1].transcript == run.log[i].transcript + agent.grow(act, run.log[i].outcome.text)
    ensures run.log[i + 1].forced <==> i + 1 == iters
  {
  }

  /** A forced turn is the last one, and its text is the result. */
  lemma ForcedIsLast(agent: Agent, iters: nat, init: string, run: ReactRun, i: nat)
    requires Follows(agent, iters, init, run)
    requires i < |run.log| && run.log[i].forced
    ensures i == |run.log| - 1
    ensures run.log[i].prompt == run.log[i].transcript + ForcePrompt
    ensures run.outcome == TextOf(run.log[i].outcome)
  {
  }

  /** A step read as no action is followed by the forced turn on the same
      transcript. */
  lemma SilentStepForces(agent: Agent, iters: nat, init: string, run: ReactRun, i: nat)
    requires Follows(agent, iters, init, run)
    requires i < |run.log| && !run.log[i].forced && run.log[i].outcome.Generated?
    requires agent.classify(run.log[i].outcome.text) == NoAction
    ensures i + 1 == |run.log| - 1
    ensures run.log[i + 1].forced && run.log[i + 1].transcript == run.log[i].transcript
    ensures run.outcome == TextOf(run.log[i + 1].outcome)
  {
    ForcedIsLast(agent, iters, init, run, i + 1);
  }

  // ---- what a run of `invoke` looks like ----

  /** A step whose output holds a decodable `Final:` object ends the loop
      and returns that output verbatim. */
  lemma AnswerEndsTheLoop(basePrompt: string, tools: seq<NamedTool>, llm: Llm, decode: Decoder, maxIters: int, i: nat)
    requires var log := Invoke(basePrompt, tools, llm, decode, maxIters).log;
      i < |log| && !log[i].forced && log[i].outcome.Generated? && FinalFound(log[i].outcome.text, decode)
    ensures var run := Invoke(basePrompt, tools, llm, decode, maxIters);
      i == |run.log| - 1 && run.outcome == Success(run.log[i].outcome.text)
  {
    var agent := AgentOf(tools, llm, decode);
    var run := Invoke(basePrompt, tools, llm, decode, maxIters);
    var out := run.log[i].outcome.text;
    assert agent.classify(out) == Classify(out, decode);
    EndingStepIsLast(agent, Iters(maxIters), Strip(basePrompt), run, i);
  }

  /** With the corrected extraction, a step answering `Final: ` and an
      object the decoder accepts ends the loop, nested or not. */
  lemma CorrectedAnswerEndsTheLoop(basePrompt: string, tools: seq<NamedTool>, llm: Llm, decode: Decoder, maxIters: int, i: nat, obj: string)
    requires |obj| >= 2 && obj[0] == '{' && obj[|obj| - 1] == '}' && decode(obj).Some?
    requires var log := InvokeCorrected(basePrompt, tools, llm, decode, maxIters).log;
      i < |log| && !log[i].forced && log[i].outcome == Generated("Final: " + obj)
    ensures var run := InvokeCorrected(basePrompt, tools, llm, decode, maxIters);
      i == |run.log| - 1 && run.outcome == Success("Final: " + obj)
  {
    var agent := AgentCorrected(tools, llm, decode);
    var run := InvokeCorrected(basePrompt, tools, llm, decode, maxIters);
    var out := run.log[i].outcome.text;
    FinalObjectReachesDecoder(obj);
    assert agent.classify(out) == ClassifyCorrected(out, decode) == Answered;
    EndingStepIsLast(agent, Iters(maxIters), Strip(basePrompt), run, i);
  }

  /** A step that names an action (and holds no decodable final object) is
      always followed by another turn, built from the transcript grown by
      that step: forced exactly when it used up the iterations. */
  lemma ActionGrowsTranscript(basePrompt: string, tools: seq<NamedTool>, llm: Llm, decode: Decoder, maxIters: int, i: nat, act: Action)
    requires var log := Invoke(basePrompt, tools, llm, decode, maxIters).log;
      i < |log| && !log[i].forced && log[i].outcome.Generated?
      && !FinalFound(log[i].outcome.text, decode) && ExtractAction(log[i].outcome.text) == Success(Some(act))
    ensures var log := Invoke(basePrompt, tools, llm, decode, maxIters).log;
      && i + 1 < |log|
      && log[i + 1].transcript == log[i].transcript + Growth(Registry(tools), act, log[i].outcome.text)
      && (log[i + 1].forced <==> i + 1 == Iters(maxIters))
  {
    var agent := AgentOf(tools, llm, decode);
    var run := Invoke(basePrompt, tools, llm, decode, maxIters);
    var out := run.log[i].outcome.text;
    assert agent.classify(out) == Classify(out, decode);
    assert agent.grow(act, out) == Growth(Registry(tools), act, out);
    ActingStepContinues(agent, Iters(maxIters), Strip(basePrompt), run, i, act);
  }

  /** The observation an action leaves: an unknown tool adds only the
      "not available" note and drops the step's own text; a known tool adds
      the stripped step and its observation, and a raising tool's
      observation is the error object naming the tool. */
  lemma ToolObservationShape(tools: seq<NamedTool>, act: Action, out: string)
    ensures act.tool !in Registry(tools) ==> Growth(Registry(tools), act, out) == NotAvailable(act.tool)
    ensures act.tool in Registry(tools) ==>
      exists obs :: Growth(Registry(tools), act, out) == "\n" + Strip(out) + "\nObservation: " + obs + "\n"
        && (Registry(tools)[act.tool](act.input).Returned? ==> obs == Registry(tools)[act.tool](act.input).text)
        && (Registry(tools)[act.tool](act.input).Raised? ==>
              ErrorField(obs) == Some(FailedToolMessage(act.tool, Registry(tools)[act.tool](act.input).error)))
  {
    if act.tool in Registry(tools) {
      var obs := ToolObservation(Registry(tools), act);
      assert Growth(Registry(tools), act, out) == "\n" + Strip(out) + "\nObservation: " + obs + "\n";
    }
  }

  /** A step with neither a final object nor an action breaks out of the
      loop: the next and last turn is the forced completion on the same
      transcript, and its text is the result. */
  lemma NoActionForcesCompletion(basePrompt: string, tools: seq<NamedTool>, llm: Llm, decode: Decoder, maxIters: int, i: nat)
    requires var log := Invoke(basePrompt, tools, llm, decode, maxIters).log;
      i < |log| && !log[i].forced && log[i].outcome.Generated?
      && !FinalFound(log[i].outcome.text, decode) && ExtractAction(log[i].outcome.text) == Success(None)
    ensures var run := Invoke(basePrompt, tools, llm, decode, maxIters);
      && i + 1 == |run.log| - 1
      && run.log[i + 1].forced && run.log[i + 1].transcript == run.log[i].transcript
      && run.outcome == TextOf(run.log[i + 1].outcome)
  {
    var agent := AgentOf(tools, llm, decode);
    var run := Invoke(basePrompt, tools, llm, decode, maxIters);
    var out := run.log[i].outcome.text;
    assert agent.classify(out) == Classify(out, decode);
    SilentStepForces(agent, Iters(maxIters), Strip(basePrompt), run, i);
  }

  /** An action line without a readable input raises out of `invoke`. */
  lemma UnreadableActionRaises(basePrompt: string, tools: seq<NamedTool>, llm: Llm, decode: Decoder, maxIters: int, i: nat)
    requires var log := Invoke(basePrompt, tools, llm, decode, maxIters).log;
      i < |log| && !log[i].forced && log[i].outcome.Generated?
      && !FinalFound(log[i].outcome.text, decode) && ExtractAction(log[i].outcome.text).Failure?
    ensures var run := Invoke(basePrompt, tools, llm, decode, maxIters);
      i == |run.log| - 1 && run.outcome == Failure(ExtractAction(run.log[i].outcome.text).error)
  {
    var agent := AgentOf(tools, llm, decode);
    var run := Invoke(basePrompt, tools, llm, decode, maxIters);
    var out := run.log[i].outcome.text;
    assert agent.classify(out) == Classify(out, decode);
    EndingStepIsLast(agent, Iters(maxIters), Strip(basePrompt), run, i);
  }

  /** Such a completion carries no `Final:` answer and its action cannot be read. */
  lemma FencedOneLineUnreadable(tool: string, decode: Decoder)
    requires Trimmed(tool) && '{' !in tool
    ensures var out := ActionText(tool, Fence + "json");
      !FinalFound(out, decode) && ExtractAction(out) == Failure("IndexError")
  {
    var arg := Fence + "json";
    assert arg == ['`', '`', '`', 'j', 's', 'o', 'n'];
    ActionTextBraces(tool, arg);
    NoBraceNoFinal(ActionText(tool, arg), decode);
    FencedOneLineInputRaises(tool);
  }

  /** A completion that names a tool but opens a one-line fence as its
      input ends the run with `IndexError`. */
  lemma FencedOneLineActionRaises(basePrompt: string, tools: seq<NamedTool>, llm: Llm, decode: Decoder, maxIters: int, i: nat, tool: string)
    requires Trimmed(tool) && '{' !in tool
    requires var log := Invoke(basePrompt, tools, llm, decode, maxIters).log;
      i < |log| && !log[i].forced && log[i].outcome == Generated(ActionText(tool, Fence + "json"))
    ensures var run := Invoke(basePrompt, tools, llm, decode, maxIters);
      i == |run.log| - 1 && run.outcome == Failure("IndexError")
  {
    FencedOneLineUnreadable(tool, decode);
    UnreadableActionRaises(basePrompt, tools, llm, decode, maxIters, i);
  }

  /** The forced completion is the last turn and its text is returned as
      is, whether or not it holds any JSON. */
  lemma ForcedTurnIsLast(basePrompt: string, tools: seq<NamedTool>, llm: Llm, decode: Decoder, maxIters: int, i: nat)
    requires var log := Invoke(basePrompt, tools, llm, decode, maxIters).log;
      i < |log| && log[i].forced
    ensures var run := Invoke(basePrompt, tools, llm, decode, maxIters);
      && i == |run.log| - 1
      && run.log[i].prompt == run.log[i].transcript + ForcePrompt
      && run.outcome == TextOf(run.log[i].outcome)
  {
    ForcedIsLast(AgentOf(tools, llm, decode), Iters(maxIters), Strip(basePrompt), Invoke(basePrompt, tools, llm, decode, maxIters), i);
  }

  /** A run that used every iteration ends with the forced completion. */
  lemma ExhaustedRunIsForced(basePrompt: string, tools: seq<NamedTool>, llm: Llm, decode: Decoder, maxIters: int)
    requires |Invoke(basePrompt, tools, llm, decode, maxIters).log| == Iters(maxIters) + 1
    ensures var run := Invoke(basePrompt, tools, llm, decode, maxIters);
      run.log[Iters(maxIters)].forced && run.outcome == TextOf(run.log[Iters(maxIters)].outcome)
  {
    var run := Invoke(basePrompt, tools, llm, decode, maxIters);
    var k := Iters(maxIters);
    assert run.log[k].forced || k < k;
    ForcedTurnIsLast(basePrompt, tools, llm, decode, maxIters, k);
  }

  // ---- a worked run ----

  const ScenarioAnswer: string := "{\"response\":\"ok\"}"

  /** The scripted generator: an action first, a final answer after. */
  function ScenarioLlm(i: nat, prompt: string): Generation {
    if i == 0 then Generated(ActionText("search", "visa rules")) else Generated("Final: " + ScenarioAnswer)
  }

  lemma ScenarioWords()
    ensures Trimmed("search") && Trimmed("visa rules")
    ensures '{' !in "search" && '{' !in "visa rules"
    ensures !StartsWith("visa rules", Fence)
  {
    assert "visa rules"[0] != '`';
  }

  /** The format adds no braces of its own. */
  lemma ActionTextBraces(tool: string, arg: string)
    requires '{' !in tool && '{' !in arg
    ensures '{' !in ActionText(tool, arg)
  {
    var s := ActionText(tool, arg);
    forall k | 0 <= k < |s| ensures s[k] != '{' {
      if k < 8 {
        assert s[k] == "Action: "[k];
      } else if k < 8 + |tool| {
        assert s[k] == tool[k - 8];
      } else if k < 23 + |tool| {
        assert s[k] == "\nAction Input: "[k - 8 - |tool|];
      } else if k < |s| - 1 {
        assert s[k] == arg[k - 23 - |tool|];
      }
    }
  }

  /** The scripted answer is read as written. */
  lemma ScenarioAnswerFound(decode: Decoder)
    requires decode(ScenarioAnswer).Some?
    ensures FinalFound("Final: " + ScenarioAnswer, decode)
  {
    assert ScenarioAnswer[1..] == "\"response\":\"ok\"}";
    FlatObjectFound(ScenarioAnswer, decode);
  }

  /** A step that asks for `search` and a step that answers: the tool's
      observation is appended between them, the second step's output is
      returned verbatim, and two generations are used. */
  lemma FreeTextRoundTrip(basePrompt: string, search: Tool, decode: Decoder)
    requires decode(ScenarioAnswer).Some?
    ensures var tools := [NamedTool("search", search)];
      var run := Invoke(basePrompt, tools, ScenarioLlm, decode, 3);
      && |run.log| == 2
      && run.outcome == Success("Final: " + ScenarioAnswer)
      && run.log[1].transcript
         == Strip(basePrompt) + Growth(Registry(tools), Action("search", "visa rules"), ActionText("search", "visa rules"))
  {
    var tools := [NamedTool("search", search)];
    var run := Invoke(basePrompt, tools, ScenarioLlm, decode, 3);
    var out1 := ActionText("search", "visa rules");
    ScenarioWords();
    ActionTextBraces("search", "visa rules");
    ActionTextParses("search", "visa rules");
    NoBraceNoFinal(out1, decode);
    assert run.log[0].outcome == Generated(out1);
    ActionGrowsTranscript(basePrompt, tools, ScenarioLlm, decode, 3, 0, Action("search", "visa rules"));
    ScenarioAnswerFound(decode);
    assert run.log[1].outcome == Generated("Final: " + ScenarioAnswer);
    AnswerEndsTheLoop(basePrompt, tools, ScenarioLlm, decode, 3, 1);
  }
}

=== FILE: state.dfy ===
/** The turn state the graph nodes pass along (a Python dict in the
    program), and what every handler shares: the conversation history it
    renders into its prompt and the memory update it makes at the end. */
module TurnStates {
  import opened Wrappers
  import opened Json
  import opened Memory
  import opened ToolLoop

  /** `PrimaryRoute(...).model_dump()`: the confidence is never taken from
      the model's output, so it is always the schema default. */
  datatype Route = Route(intent: string, response: string, confidence: real)

  const DefaultConfidence: real := 0.7

  /** The keys the nodes read and write. `None` is a missing key. The
      response is any decoded value, since the policy handler copies
      whatever the model put in its `response` field. */
  datatype TurnState = TurnState(
    query: Option<string>,
    memory: Option<Window>,
    blocked: bool,
    response: Option<Json>,
    intent: Option<string>,
    primary: Option<Route>,
    results: Option<Json>,
    rag: Option<Json>,
    agent: Option<string>)

  /** `openai_generate(prompt, ...)`: the text, or the exception it raised.
      Left abstract. */
  type Generate = string -> Generation

  /** `render(template, conversation_history=..., user_input=..., ...)`
      for one handler's template: history and query in, prompt out. Left
      abstract. */
  type Render = (string, Option<string>) -> string

  /** `state['memory'].get_formatted() if state.get('memory') else ''`. */
  function History(s: TurnState): string {
    match s.memory
    case Some(w) => Formatted(w)
    case None => ""
  }

  /** `state['memory'].add_ai(text)` when there is a memory. */
  function Remember(s: TurnState, text: string): (r: TurnState)
    ensures r == s.(memory := r.memory)
    ensures s.memory.None? <==> r.memory.None?
    ensures s.memory.Some? ==> r.memory == Some(AddAi(s.memory.value, text))
  {
    match s.memory
    case Some(w) => s.(memory := Some(AddAi(w, text)))
    case None => s
  }
}

=== FILE: text.dfy ===
/** The parts of Python's `str` and slice behaviour the chatbot relies on:
    `isspace`, `strip`, `lower`, `find`/`rfind`, `startswith`/`endswith`,
    `split`, `join`, substring tests and slice-index normalisation. */
module Text {
  import opened Wrappers

  /** Python's `str.isspace` for one character; the same set is matched by
      the regular-expression class `\s` on `str` patterns. */
  predicate IsSpace(c: char) {
    var n := c as int;
    n == 0x20 || (0x09 <= n <= 0x0D) || (0x1C <= n <= 0x1F) || n == 0x85 || n == 0xA0
    || n == 0x1680 || (0x2000 <= n <= 0x200A) || n == 0x2028 || n == 0x2029
    || n == 0x202F || n == 0x205F || n == 0x3000
  }

  /** Every character is whitespace (so `s.strip()` is empty). */
  predicate IsBlank(s: string) {
    forall i :: 0 <= i < |s| ==> IsSpace(s[i])
  }

  /** The first index at or after `i` that is not whitespace, or `|s|`
      (where `lstrip`, or a greedy `\s*`, stops). */
  function SkipSpace(s: string, i: nat): (r: nat)
    requires i <= |s|
    ensures i <= r <= |s|
    ensures forall k :: i <= k < r ==> IsSpace(s[k])
    ensures r == |s| || !IsSpace(s[r])
    decreases |s| - i
  {
    if i < |s| && IsSpace(s[i]) then SkipSpace(s, i + 1) else i
  }

  /** The end left after dropping the whitespace just before `j`, never
      going below `lo` (where `rstrip` stops). */
  function TrimEnd(s: string, lo: nat, j: nat): (r: nat)
    requires lo <= j <= |s|
    ensures lo <= r <= j
    ensures forall k :: r <= k < j ==> IsSpace(s[k])
    ensures r == lo || !IsSpace(s[r - 1])
    decreases j
  {
    if lo < j && IsSpace(s[j - 1]) then TrimEnd(s, lo, j - 1) else j
  }

  /** Where `s.strip()` starts. */
  function StripStart(s: string): (r: nat)
    ensures r <= |s|
  {
    SkipSpace(s, 0)
  }

  /** Where `s.strip()` ends. */
  function StripEnd(s: string): (r: nat)
    ensures StripStart(s) <= r <= |s|
  {
    TrimEnd(s, StripStart(s), |s|)
  }

  /** `s.strip()`: the slice between the leading and trailing whitespace. */
  function Strip(s: string): (r: string)
    ensures StripStart(s) + |r| <= |s|
    ensures r == s[StripStart(s)..StripStart(s) + |r|]
    ensures IsBlank(s[..StripStart(s)]) && IsBlank(s[StripStart(s) + |r|..])
    ensures r == [] || (!IsSpace(r[0]) && !IsSpace(r[|r| - 1]))
    ensures r == [] <==> IsBlank(s)
  {
    var a, b := StripStart(s), StripEnd(s);
    assert a < |s| ==> a < b;
    s[a..b]
  }

  /** The strip is pinned down by where the whitespace ends: any `a..b`
      with only whitespace outside it and none at its ends is the strip. */
  lemma StripIs(s: string, a: nat, b: nat)
    requires a <= b <= |s|
    requires forall k :: 0 <= k < a ==> IsSpace(s[k])
    requires forall k :: b <= k < |s| ==> IsSpace(s[k])
    requires a < b ==> !IsSpace(s[a]) && !IsSpace(s[b - 1])
    ensures Strip(s) == s[a..b]
  {
    if a < b {
      assert StripStart(s) == a;
      assert StripEnd(s) == b;
    } else {
      assert IsBlank(s);
    }
  }

  /** A text with no whitespace at either end is its own strip. */
  lemma StripTrimmed(s: string)
    requires s == [] || (!IsSpace(s[0]) && !IsSpace(s[|s| - 1]))
    ensures Strip(s) == s
  {
    StripIs(s, 0, |s|);
  }

  /** `strip` is idempotent. */
  lemma StripIdempotent(s: string)
    ensures Strip(Strip(s)) == Strip(s)
  {
    StripTrimmed(Strip(s));
  }

  /** Whitespace in front of a text does not change its strip. */
  lemma StripBlankPrefix(w: string, t: string)
    requires IsBlank(w)
    ensures Strip(w + t) == Strip(t)
  {
    var s := w + t;
    var n := |w|;
    assert s[..n] == w;
    assert s[n..] == t;
    StripBounds(t);
    StripShifted(s, t, n, StripStart(t), StripEnd(t));
  }

  /** Only whitespace lies outside `StripStart(s)..StripEnd(s)`, and none
      at the ends of a non-empty range. */
  lemma StripBounds(s: string)
    ensures forall k :: 0 <= k < StripStart(s) ==> IsSpace(s[k])
    ensures forall k :: StripEnd(s) <= k < |s| ==> IsSpace(s[k])
    ensures StripStart(s) < StripEnd(s) ==> !IsSpace(s[StripStart(s)]) && !IsSpace(s[StripEnd(s) - 1])
    ensures Strip(s) == s[StripStart(s)..StripEnd(s)]
  {
    var a := StripStart(s);
    if a == |s| {
      assert StripEnd(s) == |s|;
    }
  }

  /** When the first `n` characters of `s` are blank and the rest `t`
      strips to `a..b`, the strip of `s` is that range shifted by `n`. */
  lemma StripShifted(s: string, t: string, n: nat, a: nat, b: nat)
    requires n <= |s| && IsBlank(s[..n]) && t == s[n..] && a <= b <= |t|
    requires forall k :: 0 <= k < a ==> IsSpace(t[k])
    requires forall k :: b <= k < |t| ==> IsSpace(t[k])
    requires a < b ==> !IsSpace(t[a]) && !IsSpace(t[b - 1])
    ensures Strip(s) == s[n + a..n + b] == t[a..b]
  {
    assert s[n + a..n + b] == t[a..b];
    forall k | 0 <= k < n + a
      ensures IsSpace(s[k])
    {
      if k < n {
        assert s[k] == s[..n][k];
      } else {
        assert s[k] == t[k - n];
      }
    }
    forall k | n + b <= k < |s|
      ensures IsSpace(s[k])
    {
      assert s[k] == t[k - n];
    }
    if a < b {
      assert s[n + a] == t[a] && s[n + b - 1] == t[b - 1];
    }
    StripIs(s, n + a, n + b);
  }

  /** The strip of a text padded with whitespace on both sides is the text,
      when it has no whitespace at its own ends. */
  lemma StripAround(a: string, m: string, b: string)
    requires IsBlank(a) && IsBlank(b)
    requires |m| >= 1 && !IsSpace(m[0]) && !IsSpace(m[|m| - 1])
    ensures Strip(a + m + b) == m
  {
    var s, e := a + m + b, |a| + |m|;
    forall k | 0 <= k < |a| ensures IsSpace(s[k]) {
      assert s[k] == a[k];
    }
    forall k | e <= k < |s| ensures IsSpace(s[k]) {
      assert s[k] == b[k - e];
    }
    assert s[|a|] == m[0] && s[e - 1] == m[|m| - 1];
    StripIs(s, |a|, e);
    assert s[|a|..e] == m;
  }

  function LowerChar(c: char): char {
    if 'A' <= c <= 'Z' then (c as int + 32) as char else c
  }

  /** `s.lower()` on ASCII letters (other characters are kept). */
  function Lower(s: string): (r: string)
    ensures |r| == |s|
    ensures forall i :: 0 <= i < |s| ==> r[i] == LowerChar(s[i])
  {
    seq(|s|, i requires 0 <= i < |s| => LowerChar(s[i]))
  }

  lemma LowerIdempotent(s: string)
    ensures Lower(Lower(s)) == Lower(s)
  {
  }

  lemma LowerAppend(a: string, b: string)
    ensures Lower(a + b) == Lower(a) + Lower(b)
  {
  }

  predicate StartsWith(s: string, prefix: string) {
    |prefix| <= |s| && s[..|prefix|] == prefix
  }

  predicate EndsWith(s: string, suffix: string) {
    |suffix| <= |s| && s[|s| - |suffix|..] == suffix
  }

  /** `needle` occurs in `hay` starting at index `i`. */
  predicate OccursAt(hay: string, needle: string, i: int) {
    0 <= i && i + |needle| <= |hay| && hay[i..i + |needle|] == needle
  }

  /** Python's `needle in hay` (the empty needle is in every text). */
  predicate Contains(hay: string, needle: string) {
    exists i | 0 <= i <= |hay| - |needle| :: OccursAt(hay, needle, i)
  }

  lemma ContainsMiddle(pre: string, needle: string, post: string)
    ensures Contains(pre + needle + post, needle)
  {
    assert OccursAt(pre + needle + post, needle, |pre|);
  }

  /** `s.find(c)`: the first index of `c`, or -1. */
  function Find(s: string, c: char): (r: int)
    ensures r == -1 <==> c !in s
    ensures r != -1 ==> 0 <= r < |s| && s[r] == c && c !in s[..r]
  {
    if s == [] then -1
    else if s[0] == c then 0
    else
      var k := Find(s[1..], c);
      assert s[1..][..if k == -1 then 0 else k] == s[1..1 + if k == -1 then 0 else k];
      if k == -1 then -1 else k + 1
  }

  /** `s.rfind(c)`: the last index of `c`, or -1. */
  function RFind(s: string, c: char): (r: int)
    ensures r == -1 <==> c !in s
    ensures r != -1 ==> 0 <= r < |s| && s[r] == c && c !in s[r + 1..]
  {
    if s == [] then -1
    else if s[|s| - 1] == c then |s| - 1
    else
      var k := RFind(s[..|s| - 1], c);
      assert k != -1 ==> s[k + 1..] == s[..|s| - 1][k + 1..] + [s[|s| - 1]];
      k
  }

  /** Pins down `find`: the first occurrence is the one with none before it. */
  lemma FindIs(s: string, c: char, k: nat)
    requires k < |s| && s[k] == c && c !in s[..k]
    ensures Find(s, c) == k
  {
  }

  /** Pins down `rfind`: the last occurrence is the one with none after it. */
  lemma RFindIs(s: string, c: char, k: nat)
    requires k < |s| && s[k] == c && c !in s[k + 1..]
    ensures RFind(s, c) == k
  {
  }

  /** No occurrence comes before the first. */
  lemma {:induction false} FindAtMost(s: string, c: char, i: nat)
    requires i < |s| && s[i] == c
    ensures 0 <= Find(s, c) <= i
    decreases |s|
  {
    if s[0] != c {
      FindAtMost(s[1..], c, i - 1);
    }
  }

  /** No occurrence comes after the last. */
  lemma {:induction false} RFindAtLeast(s: string, c: char, i: nat)
    requires i < |s| && s[i] == c
    ensures i <= RFind(s, c) < |s|
    decreases |s|
  {
    if s[|s| - 1] != c {
      RFindAtLeast(s[..|s| - 1], c, i);
    }
  }

  /** `s.split("\n", 1)[1]`: what follows the first newline; `None` where
      Python raises `IndexError` because there is no newline. */
  function AfterFirstNewline(s: string): (r: Option<string>)
    ensures r.None? <==> '\n' !in s
    ensures r.Some? ==> exists i :: 0 <= i < |s| && s[i] == '\n' && '\n' !in s[..i] && r.value == s[i + 1..]
  {
    var i := Find(s, '\n');
    if i == -1 then None else Some(s[i + 1..])
  }

  /** `s.rsplit("\n", 1)[0]`: what precedes the last newline, or `s` itself
      when there is none. */
  function BeforeLastNewline(s: string): (r: string)
    ensures '\n' !in s ==> r == s
    ensures '\n' in s ==> |r| < |s| && r == s[..|r|] && s[|r|] == '\n' && '\n' !in s[|r| + 1..]
  {
    var j := RFind(s, '\n');
    if j == -1 then s else s[..j]
  }

  /** `sep.join(parts)`. */
  function Join(parts: seq<string>, sep: string): string
    decreases |parts|
  {
    if parts == [] then ""
    else if |parts| == 1 then parts[0]
    else parts[0] + sep + Join(parts[1..], sep)
  }

  /** `s.split(sep)` for a one-character separator. */
  function Split(s: string, sep: char): (r: seq<string>)
    ensures |r| >= 1
    ensures forall k :: 0 <= k < |r| ==> sep !in r[k]
    decreases |s|
  {
    var i := Find(s, sep);
    if i == -1 then [s] else [s[..i]] + Split(s[i + 1..], sep)
  }

  /** Joining the pieces of a split with the separator gives the text back. */
  lemma {:induction false} JoinSplit(s: string, sep: char)
    ensures Join(Split(s, sep), [sep]) == s
    decreases |s|
  {
    var i := Find(s, sep);
    if i != -1 {
      var rest := Split(s[i + 1..], sep);
      var parts := [s[..i]] + rest;
      assert Split(s, sep) == parts;
      JoinSplit(s[i + 1..], sep);
      assert parts[1..] == rest;
      assert Join(parts, [sep]) == s[..i] + [sep] + Join(rest, [sep]);
      assert s == s[..i] + [sep] + s[i + 1..];
    }
  }

  /** Splitting a join of separator-free pieces gives the pieces back. */
  lemma {:induction false} SplitJoin(parts: seq<string>, sep: char)
    requires |parts| >= 1
    requires forall k :: 0 <= k < |parts| ==> sep !in parts[k]
    ensures Split(Join(parts, [sep]), sep) == parts
    decreases |parts|
  {
    var s := Join(parts, [sep]);
    if |parts| == 1 {
      assert Find(s, sep) == -1;
    } else {
      var rest := Join(parts[1..], [sep]);
      assert s == parts[0] + [sep] + rest;
      assert s[|parts[0]|] == sep;
      assert s[..|parts[0]|] == parts[0];
      assert Find(s, sep) == |parts[0]|;
      assert s[|parts[0]| + 1..] == rest;
      SplitJoin(parts[1..], sep);
    }
  }

  /** Replace every `a` by `b` (`s.replace(a, b)` for single characters). */
  function ReplaceChar(s: string, a: char, b: char): (r: string)
    ensures |r| == |s|
    ensures forall i :: 0 <= i < |s| ==> r[i] == (if s[i] == a then b else s[i])
  {
    seq(|s|, i requires 0 <= i < |s| => if s[i] == a then b else s[i])
  }

  predicate IsDigit(c: char) {
    '0' <= c <= '9'
  }

  function DigitChar(d: nat): char
    requires d < 10
  {
    ('0' as int + d) as char
  }

  /** Decimal text of a natural number, as `str(n)` / `f"{n}"` prints it. */
  function NatToString(n: nat): (r: string)
    ensures |r| >= 1
    ensures forall i :: 0 <= i < |r| ==> IsDigit(r[i])
    ensures r[0] == '0' ==> n == 0
  {
    if n < 10 then [DigitChar(n)] else NatToString(n / 10) + [DigitChar(n % 10)]
  }

  /** Decimal text of an integer (`str(i)`). */
  function IntToString(i: int): string {
    if i < 0 then "-" + NatToString(-i) else NatToString(i)
  }

  /** Different numbers print differently. */
  lemma {:induction false} NatToStringInjective(m: nat, n: nat)
    requires NatToString(m) == NatToString(n)
    ensures m == n
    decreases m
  {
    var a, b := NatToString(m), NatToString(n);
    if m >= 10 && n >= 10 {
      assert a[|a| - 1] == b[|b| - 1];
      assert NatToString(m / 10) == a[..|a| - 1] == b[..|b| - 1] == NatToString(n / 10);
      NatToStringInjective(m / 10, n / 10);
    }
  }

  /** Python's normalisation of one slice bound against a length. */
  function SliceBound(len: nat, i: int): (r: nat)
    ensures r <= len
    ensures 0 <= i <= len ==> r == i
  {
    if i < 0 then (if len + i < 0 then 0 else len + i) else if i > len then len else i
  }

  /** Python's `s[i:j]` with negative and out-of-range bounds. */
  function Slice<T>(s: seq<T>, i: int, j: int): seq<T> {
    var a := SliceBound(|s|, i);
    var b := SliceBound(|s|, j);
    if a <= b then s[a..b] else []
  }

  /** `a` is `b` with some elements left out, the rest kept in order. */
  predicate IsSubseq<T(==)>(a: seq<T>, b: seq<T>)
    decreases |b|
  {
    if a == [] then true
    else if b == [] then false
    else if a[0] == b[0] then IsSubseq(a[1..], b[1..])
    else IsSubseq(a, b[1..])
  }

  lemma {:induction false} SubseqDropFirst<T>(a: seq<T>, b: seq<T>)
    requires a != [] && IsSubseq(a, b)
    ensures IsSubseq(a[1..], b)
    decreases |b|, 0
  {
    if a[0] != b[0] {
      SubseqDropFirst(a, b[1..]);
    }
    SubseqSkip(a[1..], b[1..], b[0]);
    assert [b[0]] + b[1..] == b;
  }

  /** A subsequence stays one when an element is put in front of the whole. */
  lemma {:induction false} SubseqSkip<T>(a: seq<T>, b: seq<T>, x: T)
    requires IsSubseq(a, b)
    ensures IsSubseq(a, [x] + b)
    decreases |b|, 1
  {
    var xb := [x] + b;
    assert xb[1..] == b;
    if a != [] && a[0] == x {
      SubseqDropFirst(a, b);
    }
  }

  /** Keeping or dropping the head extends a subsequence to the longer sequence. */
  lemma SubseqCons<T>(a: seq<T>, b: seq<T>, x: T, keep: bool)
    requires IsSubseq(a, b)
    ensures IsSubseq(if keep then [x] + a else a, [x] + b)
  {
    var xb := [x] + b;
    assert xb[1..] == b;
    if keep {
      var xa := [x] + a;
      assert xa[1..] == a;
    } else {
      SubseqSkip(a, b, x);
    }
  }
}

=== FILE: tools.dfy ===
/** The two tools the handlers offer (`rag_search`, `flight_filter`): how
    each reads its single text argument, and the catalog and dispatch
    table each handler passes to the tool loop. The retrieval itself, the
    flight dataset and `json.dumps` of the results are parameters. */
module Tools {
  import opened Wrappers
  import opened Text
  import opened Json
  import opened Helpers
  import opened ToolLoop

  /** Text starts with `{` and ends with `}`. */
  predicate Braced(t: string) {
    StartsWith(t, "{") && EndsWith(t, "}")
  }

  /** `_maybe_json`: the decoded stripped text when it is braced; `None`
      when it is not, or when decoding raises. */
  function MaybeJson(s: string, decode: Decoder): (r: Option<Json>)
    ensures Braced(Strip(s)) ==> r == decode(Strip(s))
    ensures !Braced(Strip(s)) ==> r == None
  {
    var t := Strip(s);
    if t == "" || !Braced(t) then None else decode(t)
  }

  /** An object padded with whitespace is handed to the decoder without
      the padding. */
  lemma PaddedObjectIsDecoded(a: string, obj: string, b: string, decode: Decoder)
    requires IsBlank(a) && IsBlank(b)
    requires |obj| >= 2 && obj[0] == '{' && obj[|obj| - 1] == '}'
    ensures MaybeJson(a + obj + b, decode) == decode(obj)
  {
    StripAround(a, obj, b);
    assert obj[..1] == "{" && obj[|obj| - 1..] == "}";
  }

  // ---- rag_search ----

  /** The input reads as an object with a `question` key. */
  predicate AsksQuestion(input: string, decode: Decoder) {
    match MaybeJson(input, decode)
    case Some(JObj(m)) => "question" in m
    case _ => false
  }

  /** The query `rag_search` runs: `str(obj["question"])` for an object
      with a `question` key, else the raw input. */
  function RagQuery(input: string, decode: Decoder, show: Show): (q: string)
    ensures AsksQuestion(input, decode) ==> q == Fmt(MaybeJson(input, decode).value.fields["question"], show)
    ensures !AsksQuestion(input, decode) ==> q == input
    ensures !Braced(Strip(input)) ==> q == input
  {
    match MaybeJson(input, decode)
    case Some(JObj(m)) => if "question" in m then Fmt(m["question"], show) else input
    case _ => input
  }

  /** `{"question": "..."}` and the bare question ask the same thing,
      when the bare question is not itself braced. */
  lemma QuestionShapesAgree(wrapper: string, question: string, decode: Decoder, show: Show)
    requires Braced(Strip(wrapper)) && decode(Strip(wrapper)) == Some(JObj(map["question" := JStr(question)]))
    requires !Braced(Strip(question))
    ensures RagQuery(wrapper, decode, show) == RagQuery(question, decode, show) == question
  {
  }

  /** Retrieval plus `json.dumps` of the hits, left abstract. */
  type Search = string -> ToolOutcome

  /** The `rag_search` tool: a bare question is searched as given; a
      braced object's `question` is searched in its place. */
  function RagSearchTool(search: Search, decode: Decoder, show: Show): (t: Tool)
    ensures forall input :: !Braced(Strip(input)) ==> t(input) == search(input)
    ensures forall input :: AsksQuestion(input, decode) ==>
      t(input) == search(Fmt(MaybeJson(input, decode).value.fields["question"], show))
  {
    assert forall input :: AsksQuestion(input, decode) ==>
      RagQuery(input, decode, show) == Fmt(MaybeJson(input, decode).value.fields["question"], show);
    input => search(RagQuery(input, decode, show))
  }

  // ---- flight_filter ----

  const EmptyObject: Json := JObj(map[])

  /** The criteria `flight_filter` filters with: the decoded
      `criteria_json` string of a wrapper object (or `{}` when it does not
      decode), any other object itself, and for unbraced input the decoded
      input (or `{}`). */
  function CriteriaFrom(input: string, decode: Decoder): (c: Json)
    ensures (match MaybeJson(input, decode)
             case Some(JObj(m)) => "criteria_json" !in m || !m["criteria_json"].JStr?
             case _ => false) ==> c == MaybeJson(input, decode).value
    ensures (match MaybeJson(input, decode)
             case Some(JObj(m)) => "criteria_json" in m && m["criteria_json"].JStr?
             case _ => false) ==>
      c == decode(MaybeJson(input, decode).value.fields["criteria_json"].s).GetOr(EmptyObject)
    ensures (match MaybeJson(input, decode) case Some(JObj(_)) => false case _ => true) ==>
      c == decode(input).GetOr(EmptyObject)
  {
    match MaybeJson(input, decode)
    case Some(JObj(m)) =>
      if "criteria_json" in m && m["criteria_json"].JStr? then decode(m["criteria_json"].s).GetOr(EmptyObject)
      else JObj(m)
    case _ => decode(input).GetOr(EmptyObject)
  }

  /** The two accepted shapes give the same criteria: the criteria object
      itself, and a wrapper whose `criteria_json` holds its text. */
  lemma CriteriaShapesAgree(text: string, wrapper: string, m: map<string, Json>, decode: Decoder)
    requires Strip(text) == text && Braced(text) && decode(text) == Some(JObj(m)) && "criteria_json" !in m
    requires Braced(Strip(wrapper)) && decode(Strip(wrapper)) == Some(JObj(map["criteria_json" := JStr(text)]))
    ensures CriteriaFrom(text, decode) == CriteriaFrom(wrapper, decode) == JObj(m)
  {
  }

  /** `json.dumps` of the matching records, left abstract. */
  type Dumps = seq<Item> -> string

  /** The `flight_filter` tool over a loaded dataset: the matches, or the
      exception the filter raised. */
  function FlightFilterTool(flights: seq<Item>, p: Parsers, decode: Decoder, dumps: Dumps): (t: Tool)
    ensures forall input :: t(input).Returned? <==> FilterFlights(flights, CriteriaFrom(input, decode), p).Success?
    ensures forall input :: t(input).Returned? ==>
      t(input).text == dumps(FilterFlights(flights, CriteriaFrom(input, decode), p).value)
    ensures forall input :: t(input).Raised? ==>
      t(input).error == FilterFlights(flights, CriteriaFrom(input, decode), p).error
  {
    input =>
      match FilterFlights(flights, CriteriaFrom(input, decode), p)
      case Success(ms) => Returned(dumps(ms))
      case Failure(e) => Raised(e)
  }

  /** Input that decodes to nothing is read as `{}`: the whole dataset. */
  lemma UnreadableInputMatchesAll(input: string, flights: seq<Item>, p: Parsers, decode: Decoder, dumps: Dumps)
    requires decode(input).None? && decode(Strip(input)).None?
    ensures FlightFilterTool(flights, p, decode, dumps)(input) == Returned(dumps(flights))
  {
    assert MaybeJson(input, decode) == None;
    assert CriteriaFrom(input, decode) == EmptyObject;
    EmptyCriteriaKeepAll(flights, p);
  }

  // ---- catalogs and dispatch tables ----

  const FlightToolName: string := "flight_filter"
  const FaqToolName: string := "rag_search"

  function StringProperty(description: string): Json {
    JObj(map["type" := JStr("string"), "description" := JStr(description)])
  }

  function ObjectSchema(property: string, description: string): Json {
    JObj(map[
      "type" := JStr("object"),
      "properties" := JObj(map[property := StringProperty(description)]),
      "required" := JArr([JStr(property)])])
  }

  /** `openai_tools_for_flight`. */
  const FlightCatalog: seq<CatalogEntry> := [
    CatalogEntry(Some("function"), Some(FlightToolName),
      Some("Filter the mock flight dataset with FlightCriteria and return matching itineraries."),
      Some(ObjectSchema("criteria_json",
        "FlightCriteria JSON string: {origin, destination, month_hint, alliance, max_price_usd, non_stop_only, refundable_only}")))]

  /** `openai_tools_for_faq`. */
  const FaqCatalog: seq<CatalogEntry> := [
    CatalogEntry(Some("function"), Some(FaqToolName),
      Some("Search local policy/FAQ knowledge and return top chunks for the question."),
      Some(ObjectSchema("question", "The user's policy question.")))]

  /** `flight_dispatch`. */
  function FlightDispatch(flights: seq<Item>, p: Parsers, decode: Decoder, dumps: Dumps): (d: Dispatch)
    ensures d.Keys == {FlightToolName}
  {
    map[FlightToolName := FlightFilterTool(flights, p, decode, dumps)]
  }

  /** `faq_dispatch`. */
  function FaqDispatch(search: Search, decode: Decoder, show: Show): (d: Dispatch)
    ensures d.Keys == {FaqToolName}
  {
    map[FaqToolName := RagSearchTool(search, decode, show)]
  }

  /** The flight catalog converts. */
  lemma FlightCatalogConverts()
    ensures ChatToolsOf(FlightCatalog).Success?
  {
    assert FunctionEntries(FlightCatalog) == FlightCatalog;
  }

  /** The policy catalog converts. */
  lemma FaqCatalogConverts()
    ensures ChatToolsOf(FaqCatalog).Success?
  {
    assert FunctionEntries(FaqCatalog) == FaqCatalog;
  }

  /** Each catalog converts to exactly one chat tool, whose name is the
      only key of the matching dispatch table, so every advertised tool
      resolves. */
  lemma CatalogsMatchDispatch(flights: seq<Item>, p: Parsers, decode: Decoder, dumps: Dumps,
                              search: Search, show: Show)
    ensures ChatToolsOf(FlightCatalog).Success? && |ChatToolsOf(FlightCatalog).value| == 1
    ensures FlightDispatch(flights, p, decode, dumps).Keys == {ChatToolsOf(FlightCatalog).value[0].name}
    ensures ChatToolsOf(FaqCatalog).Success? && |ChatToolsOf(FaqCatalog).value| == 1
    ensures FaqDispatch(search, decode, show).Keys == {ChatToolsOf(FaqCatalog).value[0].name}
  {
    assert FunctionEntries(FlightCatalog) == FlightCatalog;
    assert FunctionEntries(FaqCatalog) == FaqCatalog;
  }
}

=== FILE: wrappers.dfy ===
/** Option and Result values standing in for Python's `None` and for an
    exception that escapes a call. */
module Wrappers {

  datatype Option<+T> = None | Some(value: T) {

    /** The value, or `default` when there is none (Python's `x or default`
        for a value that is either present or `None`). */
    function GetOr(default: T): T {
      match this
      case Some(v) => v
      case None => default
    }
  }

  /** `Failure(msg)` models an exception whose `str()` is `msg` leaving the call. */
  datatype Result<+R, +E> = Success(value: R) | Failure(error: E)
}
